=== FILE: README.md ===
# pdbxml-xlsx in Dafny

A model of the three converters in pdbxml-xlsx. Each turns a battery-test
export (a `.pdbxml` / `.xml` document of `form` elements holding `test`
elements) into a spreadsheet.

- **multifile.py** is the GUI batch converter.
  - `parse_xml` reads the first form. Per test, it builds the general
    information, the string information, the jar counts, the deviation
    thresholds, the table summary and the baseline impedance. It does this
    through fixed, case-insensitive tag lookups in the test's `data`,
    `nameplate` and `copyhistory` children.
  - It merges every `array` below the test into one row per cell index.
  - `write_excel` lays each test out on one worksheet: an info block, a
    deviation block, a "Table Summary" block and a cell table. The numbers
    pass through `convert_to_number` and `round_to_sig_figs`. Column widths
    are fitted to the widest text.
- **scrape-cmd.py** is the command-line converter.
  - `parse_xml` keeps only the first test of the document: its form name,
    date and results GUID, plus the same merged cell rows.
  - `write_excel` appends them as a title, a key/value list and a six-column
    table.
  - `main` derives the output name from the input name.
- **scrape.py** is the CSV converter. `parse_pdbxml` builds one row per test
  of every form: three fixed columns, then one column per `tag` and one per
  `array` of the test's first `data` child, each array's item texts joined
  by `", "`.

The modules follow the program:

| module | file | models |
|---|---|---|
| `Wrappers` | wrappers.dfy | `Option` and `Result`, plus the exceptions the scripts raise (`Error`) |
| `NumberSyntax` | numbers.dfy | the literal grammars of `int(s)` and `float(s)`, and `str(n)` |
| `Values` | values.dfy | cell and attribute values (`None`, `str`, `int`, `float`), truthiness, `len(str(v))` |
| `Text` | text.dfy | `str.lower` (ASCII) and `str.join` |
| `AssocList` | assoc.dfy | Python dicts as insertion-ordered key/value lists |
| `ElementTree` | element.dfy | elements, `get`, `find`, `findall`, `findall(".//t")`, and the case-insensitive tag lookup |
| `Coercion` | coercion.dfy | `convert_to_number`, `round_to_sig_figs` |
| `CellMerge` | cells.dfy | the array loop shared by both `parse_xml` functions |
| `MultifileExtract` | multifile_extract.dfy | `parse_xml` of multifile.py |
| `Worksheet` | worksheet.dfy | the openpyxl sheet: `ws.cell`, `ws.append`, `max_row`/`max_column`, `ws.columns`, column widths |
| `ReportLayout` | layout.dfy | `write_excel` of multifile.py, block by block |
| `LayoutProperties`, `LayoutSteps`, `LayoutTest` | layout_props.dfy, layout_steps.dfy, layout_test.dfy | where each block of a test lands, and that later tests keep it |
| `Workbook` | report.dfy | the finished report of multifile.py, and one file's conversion |
| `ScrapeCmd` | scrape_cmd.dfy | scrape-cmd.py |
| `ScrapeCsv` | scrape_csv.dfy | `parse_pdbxml` of scrape.py |

Exceptions the scripts can raise are `Err` results:
- `BadCellIndex`: `int(item.get("index"))` fails.
- `RoundOfNone`: `round_to_sig_figs(None)`.
- `UnnamedField`: `k.lower()` on a `None` array name.
- `MissingData`: `.findall` on the `None` that `test.find("data")` gives.
- `PrefixNotFound`: scrape.py's `findall("pdb:form", {})` with an empty prefix map.
- `NoForm`: unpacking the `None` that a `parse_xml` returns. In multifile.py
  that is a document without a form; in scrape-cmd.py, one in which no form
  has a test.

## Model

| member | source | states |
|---|---|---|
| Coercion.ConvertSpec | multifile.py:9-16 | The result is a float exactly when the argument is one, or is a string containing "." that parses as a float (and then it keeps that literal). A dot-free string that parses as an int becomes that int. Any other string, `None`, or a non-string comes back unchanged. |
| Coercion.ConvertIdempotent | multifile.py:9-16 | Converting an already converted value changes nothing, so the deviation values that lines 233 and 241 convert twice read as if converted once. |
| Coercion.DotFreeNeverFloat | multifile.py:12-14 | A string without "." never becomes a float (so "1e5" stays text). If it is not an integer literal either, it is returned unchanged. |
| Coercion.ConvertPrintedInt | multifile.py:12-14 | The printed form of any integer converts back to that integer. |
| Coercion.RoundToSigFigs | multifile.py:18-26 | Fails exactly on `None`, the TypeError that is not caught. An unparseable string comes back as it is. A zero literal gives "0". Any other number gives its `%g` text. Every success is a string. |
| Coercion.RoundIntegerText | multifile.py:20-24 | Integer text rounds to "0" exactly when its value is zero, and to its `%g` text otherwise. |
| NumberSyntax.ParseInt | multifile.py:14 | The model's grammar for `int(s)`: an optional sign then decimal digits, a subset of what `int()` accepts. It succeeds exactly on that grammar, and the sign of the result follows the literal's sign. |
| NumberSyntax.ParseIntRoundTrip | multifile.py:14 | Printing any integer and parsing it back gives the integer. |
| NumberSyntax.IntLiteralIsFloatLiteral | multifile.py:21 | Every string `int()` accepts, `float()` accepts too. |
| NumberSyntax.IntLiteralZero | multifile.py:21-23 | An integer literal is recognised as zero by the float test exactly when `int()` gives 0. |
| Values.FromText | multifile.py:45 | A missing attribute or text is `None`. A present one is that string. |
| Values.DisplayLength | multifile.py:284 | A falsy value counts 0. A string counts its own length. |
| Text.Lower | multifile.py:49 | Same length, each character lower-cased on its own. |
| Text.JoinLength | scrape.py:31-33 | No parts join to "". Otherwise the joined text is the parts plus exactly one separator between each neighbouring pair. |
| AssocList.Get | scrape-cmd.py:71-76 | `d.get(k)` is `None` exactly when `k` is not a key. Otherwise it is a value stored under `k`. |
| AssocList.Set | multifile.py:188 | `d[k] = v`: `k` then reads `v` and every other key reads as before. A present key keeps its position and a new key goes last. No key is ever repeated. |
| AssocList.SetAll | scrape.py:27-33 | After a run of assignments, each key reads the value of its last assignment, else its old value. The old keys stay in front in their order. A key is present exactly when it was present or assigned, and repetition stays excluded. |
| AssocList.NewKeysSpec | scrape.py:27-33 | The keys a run of assignments adds are exactly the assigned keys not already present. Each appears once, ordered by its first assignment. |
| AssocList.SetAllKeys | multifile.py:132-139 | After the assignments, the keys are the old keys in place, followed by the new keys in the order of their first assignment. A later assignment moves no key. |
| AssocList.SetAllKeepsPlace | multifile.py:45-58 | A key that was present before keeps its position. |
| AssocList.SetAllOrder | multifile.py:132-139 | New keys come after all old ones. One new key precedes another exactly when its first assignment came first. |
| ElementTree.Attr | scrape.py:20 | `e.get(name)` is present exactly when the attribute is, with its value. |
| ElementTree.FindAll | multifile.py:36-37 | Membership: every child with the tag is listed, and nothing else is. |
| ElementTree.FindAllOrder | multifile.py:36-37 | Order and multiplicity: as many entries as children with the tag. The child at index i is listed at the position given by the number of tagged children before it, so each is listed once, in document order. |
| ElementTree.FilterAppend | multifile.py:36-37 | Selecting the tagged elements of two runs of children gives the first run's selection followed by the second's. |
| ElementTree.Find | scrape.py:27 | `None` exactly when no child has the tag. Otherwise it is such a child. |
| ElementTree.FindIsHeadOfFindAll | scrape.py:27-29 | `find(t)` is the first element `findall(t)` lists. |
| ElementTree.DescendantsSpec | multifile.py:176 | `findall(".//array")` finds exactly the elements strictly below the test that are arrays, at any depth. |
| ElementTree.ChildrenAreDescendants | multifile.py:176 | Every direct child array is among those found. |
| ElementTree.FindTag | multifile.py:48-51 | The `next(...)` search is `None` exactly when no `tag` child's lower-cased name matches. Otherwise it is the first such child. |
| CellMerge.ParseIndex | multifile.py:180 | Succeeds exactly when the `index` attribute exists and is an integer literal, with that integer. Otherwise it fails with BadCellIndex, carrying the attribute. |
| CellMerge.ItemWrites | multifile.py:179-181 | One assignment per item, in order, with "" for a missing text. The call fails exactly when some index does not parse. |
| CellMerge.ItemWritesFirstError | multifile.py:179-180 | A failing call fails with the error of the first item whose index does not parse, since the loop stops there. |
| CellMerge.ArrayWrites | multifile.py:176-181 | The loop over all arrays fails exactly when some array's items do, and then with the error of the first such array. |
| CellMerge.ArrayWritesConcat | multifile.py:176-181 | When each array's items give their assignments, the whole loop gives them concatenated array by array, in document order. |
| CellMerge.ArrayWritesFields | multifile.py:176-188 | Each assignment's field is the name of one of the arrays. |
| CellMerge.FindRow | multifile.py:183 | Finds the first row whose "Cell No" equals the index, or none when no row has it. |
| CellMerge.LastWrite | multifile.py:188 | The reference reading of a field. It is none exactly when no assignment went to that cell and field. |
| CellMerge.LastWriteIsLast | multifile.py:188 | A value it finds is that of an assignment to the cell and field after which no other such assignment follows. |
| CellMerge.MergeInvariant | multifile.py:179-188 | After every prefix of the assignments, the rows are the first-seen order of the indices and each field holds its last assignment. |
| CellMerge.OneRowPerIndex | multifile.py:183-186 | One row per distinct index. Every row has an integer cell number, no two rows share one, and a number has a row exactly when some item carries it. |
| CellMerge.FirstSeenOrder | multifile.py:183-186 | Rows come in the order their indices are first seen, across all arrays. |
| CellMerge.LastWriteWins | multifile.py:188 | Every field of a row holds the last value assigned to it for that index. |
| CellMerge.IntegerCellNumbersDistinct | multifile.py:183-188 | Even with an array named "Cell No", no two rows carry the same integer cell number. |
| CellMerge.CellNoArraySplitsRow | multifile.py:183-188 | Take any assignments without a "Cell No" array, then a "Cell No" assignment and another field's assignment for the same index. The pair adds one row if the index already had a row, and two otherwise. Only the fresh last row still carries the index as its number, holding just that field. |
| CellMerge.CellNoWriteUnnumbers | multifile.py:183-188 | Writing "Cell No" into rows with distinct numbers leaves no row numbered with that index. It adds a row only when the index had none. |
| CellMerge.CellDataMerged | multifile.py:175-188 | A test's cell rows exist exactly when every array below it parses, and they satisfy all the merge properties above. |
| MultifileExtract.FoundIsFindTagText | multifile.py:48-58 | A lookup in one section reads the text of exactly the tag the `next(...)` search returns. |
| MultifileExtract.LastText | multifile.py:52-60 | The reference "last section wins" reading: none exactly when no section has the tag. |
| MultifileExtract.LastTextIsLast | multifile.py:168-173 | A text it finds comes from a section that has the tag, and no later section has it. |
| MultifileExtract.ExtractTest | multifile.py:38-190 | A test's record fails exactly when its cell data does, and carries those cell rows. |
| MultifileExtract.ExtractTests | multifile.py:37-190 | One record per test, in order, or the error of a failing test. |
| MultifileExtract.SectionAssignmentsSpec | multifile.py:116-139 | Within one section, a label is assigned exactly when its tag is found there, and it gets that tag's text. |
| MultifileExtract.AssignmentsSpec | multifile.py:101-139 | Over all sections, a label is assigned exactly when some section has its tag. Its final value comes from the last such section. |
| MultifileExtract.FillInfoSpec | multifile.py:141-166 | A dict filled by lookups has no repeated key and keeps its earlier keys. A label is present exactly when its tag was found, with the last section's text. Keys outside the labels are untouched, and no other key appears. |
| MultifileExtract.FirstFound | multifile.py:101-139 | The first section whose search for the tag succeeds. No section before it has the tag, and there is none when no section has it. |
| MultifileExtract.SectionOrder | multifile.py:132-139 | Within one section, the found labels are assigned in the order of the `if` statements. One comes before another exactly when its lookup comes first. |
| MultifileExtract.AssignmentsOrder | multifile.py:101-139 | Over the whole loop, label a is first assigned before label b exactly when a's tag first appears in an earlier section than b's. In the same section, a comes first when its lookup does. |
| MultifileExtract.FillInfoOrder | multifile.py:101-139 | In a filled dict the initial keys keep their positions and the new labels follow them. A new label precedes another exactly when the first section holding its tag comes earlier, or it is the same section and its lookup comes first. A later section changes values, not positions. |
| MultifileExtract.FillInfoTableOrder | multifile.py:116-139 | When one section is the first to hold every tag of a table, the keys are exactly the table's labels in table order. For the deviation table, the two ohm thresholds come first and then the two percent ones. |
| MultifileExtract.FillInfoSize | multifile.py:116-139 | A filled dict has at most its initial keys plus one per lookup. |
| MultifileExtract.LookupTablesHaveUniqueLabels | multifile.py:57-166 | No lookup table assigns one label from two tags, and "Test Date" is not a lookup label. |
| MultifileExtract.FillAfterOne | multifile.py:45-58 | A dict starting with one non-label key keeps that key first with its value, and fills the labels from the last sections. |
| MultifileExtract.GeneralInfoShape | multifile.py:38-58 | "Test Date" is always the first general-info key, holding the test's `date`. The ambient temperature is present exactly when some `data` child has a `temperature` tag, with the last such text. Nothing else is a key. |
| MultifileExtract.StringInfoFromLastNameplate | multifile.py:101-114 | String name and battery type each come from the last `nameplate` that has them, and are absent otherwise. |
| MultifileExtract.DeviationFromLastNameplate | multifile.py:116-139 | The four thresholds each come from the last `nameplate` that has them, giving at most four keys. |
| MultifileExtract.JarCountsFromLastCopy | multifile.py:141-166 | The jar, cell, cells-per-jar and strap counts each come from the last `copyhistory` that has them. |
| MultifileExtract.SummaryFromLastData | multifile.py:62-97 | The six summary figures each come from the last `data` child that has them. |
| MultifileExtract.BaselineDefault | multifile.py:43-173 | The baseline is "N/A" when no `copyhistory` has `instrbaselinez`. Otherwise it is that tag's text in the last one that has it. |
| MultifileExtract.NoFormNoResult | multifile.py:36-191 | The function returns `None` exactly when the root has no `form` child. |
| MultifileExtract.OnlyFirstForm | multifile.py:36-191 | Only the first form matters, because the `return` sits in the form loop: documents with the same first form give the same result. |
| MultifileExtract.ParseXmlRecords | multifile.py:34-191 | One record per test of the first form, in order, and the call fails exactly when some test fails. The form name is the last `formname` text over all `data` children, or "" when there is none. |
| ReportLayout.DownPairs | multifile.py:211-216 | One `ws.cell` call for each key and one for each value. |
| ReportLayout.DownPairsAt | multifile.py:211-216 | Key `i` goes at row `row0 + i` in the first column, its value beside it. |
| ReportLayout.DownPairsShape | multifile.py:211-216 | The pairs stay inside their two-column box, one row per entry, and no two hit the same cell. |
| ReportLayout.AcrossPairs | multifile.py:253-259 | One `ws.cell` call for each key and one for each value. |
| ReportLayout.AcrossPairsAt | multifile.py:253-259 | Key `i` goes at column `col0 + i` in the first row, its value below it. |
| ReportLayout.AcrossPairsShape | multifile.py:253-259 | The pairs stay inside their two-row box, one column per entry, and no two hit the same cell. |
| ReportLayout.InfoCells | multifile.py:211-225 | The info block writes only from its start row on, in columns A to D. |
| ReportLayout.DeviationShownAt | multifile.py:232-242 | The first two thresholds are converted once and the others twice. |
| ReportLayout.DeviationCells | multifile.py:231-242 | The deviation block writes only from its start row on, in columns A to D. |
| ReportLayout.SummaryCells | multifile.py:248-259 | The summary block writes only on its two rows, from column A on. |
| ReportLayout.LoweredPairs | multifile.py:272 | Each key lower-cased, values and order kept. |
| ReportLayout.CellRow | multifile.py:271-281 | A table line fails exactly when some field name is `None` (UnnamedField). Otherwise it has the seven columns. |
| ReportLayout.Prepare | multifile.py:231-281 | Preparing a test fails exactly when a threshold or summary value is `None`, or a cell row has an unnamed field, with RoundOfNone when a value to round is `None` and UnnamedField otherwise. Otherwise it yields the rounded values and table lines. |
| ReportLayout.InfoStep | multifile.py:210-227 | The info step never shrinks the sheet's bounds. Where it writes is LayoutSteps.InfoStepBlock. |
| ReportLayout.DeviationStep | multifile.py:229-242 | The deviation step never shrinks the bounds. Where it writes is LayoutSteps.DeviationStepBlock. |
| ReportLayout.SummaryStep | multifile.py:244-259 | The summary step never shrinks the bounds. Where it writes is LayoutSteps.SummaryStepBlock. |
| ReportLayout.TableStep | multifile.py:262-285 | The table step never shrinks the bounds. Where it writes is LayoutSteps.TableStepRows. |
| ReportLayout.Lay | multifile.py:209-285 | One pass of the test loop never shrinks the bounds. What it lays out is LayoutTest.LayLaidOut. |
| ReportLayout.LayAll | multifile.py:209-316 | The loop never shrinks the bounds. What it lays out is LayoutTest.EachTestLaidOut. |
| ReportLayout.PrepareAll | multifile.py:209-281 | All tests prepare exactly when each does, in order. Otherwise the result is the error of a failing test. |
| ReportLayout.WriteExcel | multifile.py:193-317 | The report exists exactly when every test prepares. Otherwise it is the error of the first that fails. The sheet is named "Battery Test". |
| LayoutProperties.InfoGeneralAt | multifile.py:211-216 | General-info entry `i`: its key in A and its value in B, on row `s + i`. Only the ambient temperature is converted. |
| LayoutProperties.InfoStringAt | multifile.py:217-220 | String-info entry `i`: key in A and value in B, on row `s + 2 + i`. |
| LayoutProperties.InfoJarAt | multifile.py:221-225 | Jar entry `i`: key in C and converted value in D, on row `s + i`. |
| LayoutProperties.InfoCellsDistinct | multifile.py:211-225 | With at most two general-info rows, no two info placements hit the same cell. |
| LayoutProperties.DeviationCellsAt | multifile.py:231-242 | Thresholds 0 and 1 go in A/B on rows `s`, `s+1`. Threshold `i >= 2` goes in C/D on row `s + i - 2`. |
| LayoutProperties.DeviationCellsDistinct | multifile.py:231-242 | For any number of thresholds, no two deviation placements collide. |
| LayoutProperties.SummaryCellsAt | multifile.py:248-259 | The baseline label and converted baseline go in A on rows `s`, `s+1`. Summary key `i` goes in column `2 + i` with its value below. |
| LayoutProperties.SummaryCellsDistinct | multifile.py:248-259 | No two summary placements collide. |
| LayoutProperties.InfoBlockKept | multifile.py:227-285 | An info block stays intact under later writes below it. |
| LayoutProperties.DeviationBlockKept | multifile.py:244-285 | A deviation block stays intact under later writes below it. |
| LayoutProperties.SummaryBlockKept | multifile.py:262-285 | A summary block stays intact under later writes below it. |
| LayoutProperties.LoweredRead | multifile.py:272 | The dict with lower-cased keys holds, under a name, the value of the last pair whose key lower-cases to it, and nothing when no key does. |
| LayoutProperties.CellRowReads | multifile.py:271-281 | Column `j` of a table line shows the value of the last field whose lower-cased name is that column's field, converted unless it is Time, or "" when there is none. |
| LayoutSteps.InfoStepBlock | multifile.py:208-227 | A compact record's info block lands two rows below `max_row`. |
| LayoutSteps.InfoStepSheet | multifile.py:227-229 | The info step adds cells only from two rows below `max_row`, and ends with an empty `append`. |
| LayoutSteps.InfoStepOnly | multifile.py:210-227 | The info step adds no cell holding a value outside the info block's placements. |
| LayoutSteps.DeviationStepBlock | multifile.py:229-242 | The deviation block lands two rows below `max_row`, as `DeviationCellsAt` places it. |
| LayoutSteps.DeviationStepSheet | multifile.py:229-242 | The deviation step adds cells only from two rows below `max_row`. |
| LayoutSteps.DeviationStepOnly | multifile.py:229-242 | The deviation step adds no cell holding a value outside the deviation block's placements. |
| LayoutSteps.SummaryStepLabel | multifile.py:244-246 | "Table Summary" lands in column A, two rows past the cursor. |
| LayoutSteps.SummaryStepCursor | multifile.py:244-262 | After the summary step the cursor sits two rows below the label. |
| LayoutSteps.SummaryStepBlock | multifile.py:247-259 | The baseline and summary figures land on the two rows below the label. |
| LayoutSteps.SummaryStepSheet | multifile.py:244-259 | Above the label row the summary step adds nothing but empty cells. |
| LayoutSteps.SummaryStepOnly | multifile.py:244-259 | The summary step adds no cell holding a value except the label and the summary figures. |
| LayoutSteps.TableStepHeader | multifile.py:262-265 | The seven headers land two rows past the cursor. |
| LayoutSteps.TableStepRows | multifile.py:271-281 | Table line `k` lands `k + 1` rows below the headers. |
| LayoutSteps.TableStepSheet | multifile.py:262-285 | The table ends `|rows|` rows below the headers, which becomes `max_row`. Cells are added only from the empty row on. |
| LayoutSteps.TableStepOnly | multifile.py:262-285 | The table step adds no cell holding a value outside the header row and the table lines. `ws.columns` adds only empty cells. |
| LayoutTest.Composed | multifile.py:209-285 | The four steps run in sequence lay the test out two rows below the starting `max_row`. Each block sits above the next and the separating rows are blank. |
| LayoutTest.ComposedOnly | multifile.py:209-285 | From the row above the info block to the table's last line, every cell the four steps do not write is empty. |
| LayoutTest.LayLaidOut | multifile.py:209-285 | One pass of the loop keeps the earlier sheet and adds the test's blocks two rows below its `max_row`, ending on the new `max_row`. From the row above the first block to the table's last line, every cell the test does not write is empty. |
| LayoutTest.TestLaidOutKept | multifile.py:209-316 | A laid-out test stays as it is while later tests write below it. |
| LayoutTest.LayAllGrown | multifile.py:209-316 | After any number of tests the sheet extends the starting one and stays well formed. Once a test is laid out, the cursor equals `max_row`. |
| LayoutTest.EachTestLaidOut | multifile.py:209-316 | Test `i` lies on the final sheet from two rows below where the earlier tests ended. Across its rows, every cell it does not write stays empty. |
| Workbook.LayAllInOrder | multifile.py:208-316 | The tests lie on the sheet one after another: the first from two rows below the start, each next from two rows below the end of the one before, the last ending on `max_row`. |
| Workbook.ReportTitle | multifile.py:201-207 | A1 holds the form name, or "Battery Test Report" for "", and any other cell of row 1 is empty. Row 2 is blank. The sheet stays well formed. |
| Workbook.ReportTests | multifile.py:208-316 | Every test lies on the report with its prepared values: the first from row 3, each next two rows after the one before. Within a test's rows, every cell it does not write is empty. |
| Workbook.WriteExcelSheet | multifile.py:283-317 | The saved widths are those computed over the final sheet, and none when there are no tests. |
| Workbook.ReportWidthCount | multifile.py:283-285 | No widths without tests. Otherwise one width per column up to `max_column`. |
| Workbook.ReportWidthAt | multifile.py:283-285 | A column's width is two more than the longest text in it, and is attained by some cell, or is 2 when the column shows no text. |
| Workbook.ExtractedCompact | multifile.py:38-58 | A parsed test has at most two general-info rows, so its general info never overlaps its string info. |
| Workbook.ParsedCompact | multifile.py:29-191 | Every record `parse_xml` produces is compact. |
| Workbook.ConvertFile | multifile.py:351-352 | Converting a file fails with NoForm when there is no form, and with the parse error when parsing fails. Otherwise it is `write_excel` on the parsed name and records. |
| Workbook.ConvertFileLaidOut | multifile.py:351-352 | A converted file's sheet has its title in A1 and every test of the first form in order. Every cell in a test's rows that the test does not write is empty. |
| Worksheet.Put | multifile.py:212 | `ws.cell(...)` creates the cell if it is missing, growing the cursor and the bounds to cover it. It stores the value there, except that `None` leaves an existing cell's value. Every other cell is kept. |
| Worksheet.Append | multifile.py:207 | `ws.append(vals)` moves the cursor one row down even for `[]`, which changes nothing else. Otherwise the bounds grow to cover the new row. |
| Worksheet.AppendCells | multifile.py:207 | Value `j` lands in column `j + 1` of the row after the cursor. No other cell is created, and every cell outside that row is kept. |
| Worksheet.AppendWf | multifile.py:207 | Appending keeps `max_row` / `max_column` exact. A non-empty row becomes `max_row`. |
| Worksheet.AppendAllValues | scrape-cmd.py:51-77 | Appended rows land on consecutive rows after the cursor, value `k` in column `k + 1`. |
| Worksheet.AppendAllKeeps | multifile.py:262-281 | Appending keeps every existing cell and creates cells only in the new rows. |
| Worksheet.EmptyRowBlank | multifile.py:227 | A row appended empty stays blank, also after `ws.columns`. |
| Worksheet.AppendAllWf | multifile.py:262-281 | Appending keeps `max_row` / `max_column` exact. A non-empty last row becomes `max_row`. |
| Worksheet.PutsFresh | multifile.py:211-225 | `ws.cell` calls aimed at distinct, not yet existing cells put each value where it was aimed and keep every earlier cell. |
| Worksheet.PutsFreshBounds | multifile.py:211-225 | Those calls grow `max_row` and `max_column` exactly enough to cover them. |
| Worksheet.FillColumnsCells | multifile.py:283 | `ws.columns` creates every missing cell of the `max_row` × `max_column` rectangle as empty, and changes nothing else. |
| Worksheet.PutsOnly | multifile.py:211-225 | The `ws.cell` calls create no cell holding a value outside the cells they aim at. |
| Worksheet.AppendAllOnlyAt | scrape-cmd.py:51-77 | Appending rows creates no cell holding a value outside the appended values' positions. |
| Worksheet.AddsOnlyTrans | multifile.py:209-285 | Two growth steps that each add values only at their own cells together add values only at the union of those cells. |
| Worksheet.FillColumnsWf | multifile.py:283 | Filling the rectangle leaves `max_row` and `max_column` exact. |
| Worksheet.ColumnWidths | multifile.py:283-285 | One width per column up to `max_column`. |
| Worksheet.WidthFitsColumn | multifile.py:283-285 | Each width is two more than the longest text in its column, and is attained by a cell, or is 2. |
| ScrapeCmd.InfoKeysDistinct | scrape-cmd.py:15-18 | "Form Name", "Test Date" and "Results GUID" are three different keys. |
| ScrapeCmd.ScanFormsSpec | scrape-cmd.py:13-38 | Scanning forms from a dict holding at most a form name: with no test ahead the result is `None`. Otherwise it is the first form with a test, read as FirstTestOf. |
| ScrapeCmd.ParseXmlFirstTest | scrape-cmd.py:7-38 | `None` when no form has a test. Otherwise only the first test counts: its form's name, date and results GUID in that order, plus its merged cell rows or their error. |
| ScrapeCmd.ReportRows | scrape-cmd.py:50-77 | The title in A1, then a blank row. One key/value row per information entry from row 3, then a blank row, then the six headers. One row per cell entry follows, in order. Each row shows only its line, with every other cell empty, and no cell lies below the last line. |
| ScrapeCmd.AppendedLineIs | scrape-cmd.py:51-77 | After the lines are appended to a fresh sheet and the columns filled, row `j + 1` shows line `j`, and every other cell of that row is empty. |
| ScrapeCmd.ReportBounds | scrape-cmd.py:60-77 | The sheet ends at the last cell line (`max_row` is `4 + |info| + |cells|`) and is six columns wide. |
| ScrapeCmd.CellLineLastWrite | scrape-cmd.py:21-36 | With no array named "Cell No", column 1 of a table line is the cell number. Every other column is the last value written for that cell and field, or "". |
| ScrapeCmd.ReportWidths | scrape-cmd.py:80-82 | Six widths. Each is two more than the longest text of its column, and is attained, or is 2. |
| ScrapeCmd.ConvertFile | scrape-cmd.py:101-102 | Fails with NoForm when no form has a test, and with the cell data's error when that fails. Otherwise the report is named "Battery Test Report" and laid out as ReportRows states, each row holding only its line. |
| ScrapeCmd.ExtAtIsLastDot | scrape-cmd.py:94 | A dot that starts an extension is the last dot, after the last `/`, with a non-dot character before it in that component. |
| ScrapeCmd.SplitExtSpec | scrape-cmd.py:94 | `splitext` puts back together to the path. The extension is empty exactly when no dot starts one, and otherwise begins at such a dot. |
| ScrapeCmd.OutputPathSpec | scrape-cmd.py:94 | A non-empty `-o` is the output. Otherwise the output splits into the input's stem plus "_report", and ".xlsx". |
| ScrapeCsv.TagPairs | scrape.py:27-28 | One assignment per `tag`, in order. |
| ScrapeCsv.ArrayPairs | scrape.py:29-33 | One assignment per `array`, in order. |
| ScrapeCsv.RowOf | scrape.py:22-34 | A test's row fails exactly when the test has no `data` child, with MissingData. |
| ScrapeCsv.RowsOf | scrape.py:19-34 | The rows exist exactly when every test has a `data` child: one per test, in order, each the test's own row. |
| ScrapeCsv.ParsePdbxml | scrape.py:19-36 | The same, over every test of every form, on the tree as the `pdb:` queries see it. |
| ScrapeCsv.ResolveMatches | scrape.py:17-19 | With `pdb` bound to a namespace, `pdb:t` matches exactly the elements named `{uri}t`. |
| ScrapeCsv.ParsePdbxmlNs | scrape.py:8-36 | Without a namespace the call fails with PrefixNotFound, whatever the document. With one, the rows are those of the tests of the forms in that namespace. |
| ScrapeCsv.NoNamespaceNoRows | scrape.py:17-19 | A document of one form with one test that has a `data` child gives no row without a namespace, though querying its plain names gives one row. |
| ScrapeCsv.ParsePdbxmlOptionalNs | scrape.py:17-19 | With the namespace optional, a call without one gives a row for every test of every form, queried by plain names. |
| ScrapeCsv.OptionalNsAgrees | scrape.py:17-19 | The optional-namespace call agrees with the original whenever a namespace is given. Without one, the original fails and the corrected call reads the plain names. |
| ScrapeCsv.AllTestsCount | scrape.py:19-21 | The nested loops visit as many tests as the forms hold. |
| ScrapeCsv.AllTestsAt | scrape.py:19-21 | Test `t` of form `f` is visited after all tests of earlier forms and the earlier tests of `f`. |
| ScrapeCsv.RowsInDocumentOrder | scrape.py:19-34 | There is one row per test, and the row at `Offset(f) + t` is the row of test `t` of form `f`. |
| ScrapeCsv.RowValue | scrape.py:22-33 | Column `k` holds the text of the last array named `k`. Failing that, the text of the last tag named `k`, even over a fixed column. Failing both, the fixed column. |
| ScrapeCsv.DataRowColumns | scrape.py:27-33 | The tag and array loops keep the columns already in the row in front, repeat none, and add exactly the tag and array names. |
| ScrapeCsv.RowColumns | scrape.py:22-33 | A row starts with form_name, test_date, resultsguid even when a tag or array overwrites one. No column repeats. A column is present exactly when it is fixed or some tag or array is named so. |
| ScrapeCsv.ArrayTextSnoc | scrape.py:31-33 | An item without text leaves the joined text as it was. Otherwise its text follows the earlier ones after ", ". |
| ScrapeCsv.ArrayTextLength | scrape.py:31-33 | The joined text is "" when no item has text. Otherwise it is as long as the texts plus one ", " between each neighbouring pair. |

## Left out

- The Tkinter windows, dialogs and message boxes of multifile.py and scrape.py, `argparse` and the `print` calls of scrape-cmd.py, and the file-existence checks: these are user interface and I/O.
- `ET.parse`: the model starts from the parsed element tree, with names in ElementTree's `{uri}local` form. Encodings and XML syntax errors are left out. scrape.py's queries are modelled through ScrapeCsv.Resolve for a non-empty namespace, and as the PrefixNotFound error without one (see Findings). The uncaught SyntaxError then ends the window's callback, which is not modelled.
- Fonts, alignment, the line charts (multifile.py:287-315) and `wb.save`: the workbook is the `Report` value (sheet name, cells, widths) that would be saved.
- `%g` formatting and `str(float)`: they are function parameters (`Formatter`, `FloatRepr`), since the model does not compute floating point. A float is kept as the literal it was parsed from.
- Text.Lower: lower-cases ASCII letters only, because Unicode case mapping is not modelled.
- The pandas `DataFrame` and CSV writing of scrape.py (lines 54-59), including the `if data:` test: the model ends at the list of row dicts.
- The loop over input files and the output naming of multifile.py (lines 333-350): each file is converted on its own by `Workbook.ConvertFile`. An exception in one file ends the batch, which the model does not follow.
- ReportLayout.WriteExcel computes every test's rounded values and table lines before placing anything, while the source interleaves them. The saved result is the same, because nothing is saved after an exception.
- LayoutTest.LayLaidOut requires at most two general-info rows (`Compact`). So do LayoutTest.EachTestLaidOut (through `AllFit`) and Workbook.ReportTitle and Workbook.ReportTests (through `AllCompact`). ReportLayout.Lay itself requires only that the prepared values fit. Workbook.ParsedCompact proves that every parsed record is compact, but records built any other way are not covered.
- ScrapeCmd.SplitExt models POSIX `os.path.splitext` (separator `/`). Windows drive letters and `\` are not modelled.
- NumberSyntax.ParseInt: Python's `int()` also accepts surrounding whitespace, single `_` between digits and non-ASCII decimal digits. The model's grammar is only an optional sign and ASCII digits, so such text does not parse.
- Coercion.ConvertSpec: because of that grammar, text such as " 3", "1_000" or " 1.5" stays a string, where Python converts it to a number.
- Coercion.RoundToSigFigs: for the same reason, text such as " 0 " or "1_0" comes back unchanged instead of rounded. A literal that underflows to zero, such as "1e-400", gives its `%g` text instead of "0", since the zero test looks only at the literal's digits.
- CellMerge.ParseIndex: an index such as " 3" or "1_0", which `int()` accepts at multifile.py:180 and scrape-cmd.py:27, fails with BadCellIndex.
- Values.DisplayLength: a float literal that underflows to 0.0, such as "1e-400", is falsy in Python and counts 0 at multifile.py:284, but is truthy in the model. `Truthy` decides zero from the literal's digits because floating point is not computed.
- openpyxl's worksheet size limits (1,048,576 rows, 16,384 columns) are not modelled: rows and columns are unbounded integers.

## Findings

| source | as written | input that shows it | evidently intended | confidence | as-written member | corrected member |
|---|---|---|---|---|---|---|
| scrape.py:17-19 | With no namespace (the default `None`, or the window's empty "Namespace (Optional)" field) the prefix map is `{}`, and `root.findall("pdb:form", {})` raises SyntaxError, so no CSV is written for any document | ScrapeCsv.PlainDocument, one form with one test that has a `data` child, with namespace "" | without a namespace, query the plain names `form`, `test`, `data`, `tag`, `array` and `arrayitem` | medium, not executed | ScrapeCsv.ParsePdbxmlNs, ScrapeCsv.NoNamespaceNoRows | ScrapeCsv.ParsePdbxmlOptionalNs, ScrapeCsv.OptionalNsAgrees |

=== FILE: assoc.dfy ===
/** Python's insertion-ordered `dict`, as an association list. Assigning to
    a key that is already present replaces its value in place; a new key is
    appended at the end. */
module AssocList {
  import opened Wrappers

  type Dict<K(==,!new), V> = seq<(K, V)>

  /** The keys in dict order (`list(d.keys())`). */
  function Keys<K(==,!new), V>(d: Dict<K, V>): (ks: seq<K>)
    ensures |ks| == |d|
    ensures forall i :: 0 <= i < |d| ==> ks[i] == d[i].0
  {
    seq(|d|, i requires 0 <= i < |d| => d[i].0)
  }

  predicate Unique<T(==)>(s: seq<T>) {
    forall i, j :: 0 <= i < j < |s| ==> s[i] != s[j]
  }

  /** No key occurs twice: every dict the program builds has this shape. */
  predicate Distinct<K(==,!new), V>(d: Dict<K, V>) {
    Unique(Keys(d))
  }

  /** Position of `k`, or `|d|` when `k` is not a key. */
  function IndexOfKey<K(==,!new), V>(d: Dict<K, V>, k: K): (i: nat)
    ensures i <= |d|
    ensures i < |d| ==> d[i].0 == k
    ensures forall j :: 0 <= j < i ==> d[j].0 != k
    decreases |d|
  {
    if |d| == 0 then 0
    else if d[0].0 == k then 0
    else 1 + IndexOfKey(d[1..], k)
  }

  /** `d.get(k)`, with `None` for a missing key. */
  function Get<K(==,!new), V>(d: Dict<K, V>, k: K): (r: Option<V>)
    ensures r.None? <==> k !in Keys(d)
    ensures r.Some? ==> exists i :: 0 <= i < |d| && d[i] == (k, r.value)
  {
    var i := IndexOfKey(d, k);
    if i < |d| then Some(d[i].1) else None
  }

  /** In a dict without repeated keys every entry is what `Get` returns for its key. */
  lemma GetDistinct<K(!new), V>(d: Dict<K, V>, i: nat)
    requires Distinct(d) && i < |d|
    ensures Get(d, d[i].0) == Some(d[i].1)
  {
    forall j | 0 <= j < i
      ensures d[j].0 != d[i].0
    {
      assert Keys(d)[j] != Keys(d)[i];
    }
    IndexOfKeyIs(d, d[i].0, i);
  }

  /** `IndexOfKey` is determined by "first position holding the key". */
  lemma IndexOfKeyIs<K(!new), V>(d: Dict<K, V>, k: K, i: nat)
    requires i <= |d|
    requires i < |d| ==> d[i].0 == k
    requires forall j :: 0 <= j < i ==> d[j].0 != k
    ensures IndexOfKey(d, k) == i
  {
  }

  /** Setting a missing key appends it. */
  lemma SetMissing<K(!new), V>(d: Dict<K, V>, k: K, v: V)
    requires forall i :: 0 <= i < |d| ==> d[i].0 != k
    ensures Set(d, k, v) == d + [(k, v)]
  {
    IndexOfKeyIs(d, k, |d|);
  }

  /** Setting the key of a one-entry dict replaces its value. */
  lemma SetOnly<K(!new), V>(d: Dict<K, V>, k: K, v: V)
    requires |d| == 1 && d[0].0 == k
    ensures Set(d, k, v) == [(k, v)]
  {
    IndexOfKeyIs(d, k, 0);
  }

  /** `d[k] = v`: the key gets the value, keeps its position if it was present,
      is appended otherwise, and nothing else changes. */
  function Set<K(==,!new), V>(d: Dict<K, V>, k: K, v: V): (r: Dict<K, V>)
    ensures Get(r, k) == Some(v)
    ensures forall k' :: k' != k ==> Get(r, k') == Get(d, k')
    ensures k in Keys(d) ==> Keys(r) == Keys(d)
    ensures k !in Keys(d) ==> Keys(r) == Keys(d) + [k]
    ensures Distinct(d) ==> Distinct(r)
  {
    var i := IndexOfKey(d, k);
    var r := if i < |d| then d[i := (k, v)] else d + [(k, v)];
    IndexOfKeyIs(r, k, i);
    forall k' | k' != k
      ensures Get(r, k') == Get(d, k')
    {
      var b := IndexOfKey(d, k');
      if b < |d| {
        IndexOfKeyIs(r, k', b);
      } else {
        IndexOfKeyIs(r, k', |r|);
      }
    }
    assert i < |d| ==> Keys(r) == Keys(d);
    assert i == |d| ==> Keys(r) == Keys(d) + [k];
    r
  }

  /** The value paired with `k` by the LAST pair in `ps` whose key is `k`. */
  function GetLast<K(==,!new), V>(ps: seq<(K, V)>, k: K): (r: Option<V>)
    ensures r.None? <==> k !in Keys(ps)
    ensures r.Some? ==> exists i :: 0 <= i < |ps| && ps[i] == (k, r.value)
                                  && forall j :: i < j < |ps| ==> ps[j].0 != k
    decreases |ps|
  {
    if |ps| == 0 then None
    else if ps[|ps| - 1].0 == k then Some(ps[|ps| - 1].1)
    else
      var r := GetLast(ps[..|ps| - 1], k);
      assert Keys(ps) == Keys(ps[..|ps| - 1]) + [ps[|ps| - 1].0];
      r
  }

  /** The keys of `ps` that are not in `seen`, each once; `NewKeysSpec` shows
      they come in the order of their first occurrence in `ps`. */
  function NewKeys<K(==,!new), V>(ps: seq<(K, V)>, seen: seq<K>): seq<K>
    decreases |ps|
  {
    if |ps| == 0 then []
    else
      var prev := NewKeys(ps[..|ps| - 1], seen);
      var k := ps[|ps| - 1].0;
      if k in seen || k in prev then prev else prev + [k]
  }

  /** Performing `d[k] = v` for every pair of `ps` in order: for each key the
      last assignment wins, keys already in `d` keep their place, and new
      keys follow in the order of their first assignment. */
  function SetAll<K(==,!new), V>(d: Dict<K, V>, ps: seq<(K, V)>): (r: Dict<K, V>)
    ensures Keys(d) <= Keys(r)
    ensures Distinct(d) ==> Distinct(r)
    ensures forall k :: Get(r, k) == if GetLast(ps, k).Some? then GetLast(ps, k) else Get(d, k)
    ensures forall k :: k in Keys(r) <==> k in Keys(d) || k in Keys(ps)
    decreases |ps|
  {
    if |ps| == 0 then d
    else
      var prev := SetAll(d, ps[..|ps| - 1]);
      assert Keys(ps) == Keys(ps[..|ps| - 1]) + [ps[|ps| - 1].0];
      Set(prev, ps[|ps| - 1].0, ps[|ps| - 1].1)
  }

  /** `GetLast` over a concatenation: the second part wins when it has the key. */
  lemma GetLastAppend<K(!new), V>(a: seq<(K, V)>, b: seq<(K, V)>, k: K)
    ensures GetLast(a + b, k) == if GetLast(b, k).Some? then GetLast(b, k) else GetLast(a, k)
    decreases |b|
  {
    if |b| > 0 {
      assert (a + b)[..|a + b| - 1] == a + b[..|b| - 1];
      GetLastAppend(a, b[..|b| - 1], k);
    } else {
      assert a + b == a;
    }
  }

  /** `k` is a key exactly when its first position lies inside the dict. */
  lemma IndexOfKeyIn<K(!new), V>(d: Dict<K, V>, k: K)
    ensures k in Keys(d) <==> IndexOfKey(d, k) < |d|
  {
    if k in Keys(d) {
      var t :| 0 <= t < |d| && Keys(d)[t] == k;
      assert d[t].0 == k;
    }
  }

  /** The first position of a key in a concatenation: in the first part if it
      has the key, otherwise after it. */
  lemma IndexOfKeyAppend<K(!new), V>(a: Dict<K, V>, b: Dict<K, V>, k: K)
    ensures IndexOfKey(a + b, k) == if k in Keys(a) then IndexOfKey(a, k) else |a| + IndexOfKey(b, k)
  {
    IndexOfKeyIn(a, k);
    if k in Keys(a) {
      IndexOfKeyIs(a + b, k, IndexOfKey(a, k));
    } else {
      forall j | 0 <= j < |a|
        ensures (a + b)[j].0 != k
      {
        assert Keys(a)[j] == a[j].0;
      }
      IndexOfKeyIs(a + b, k, |a| + IndexOfKey(b, k));
    }
  }

  /** `NewKeys` holds exactly the keys of `ps` outside `seen`, without
      repetition, ordered by their first position in `ps`. */
  lemma {:induction false} NewKeysSpec<K(!new), V>(ps: seq<(K, V)>, seen: seq<K>)
    ensures forall k :: k in NewKeys(ps, seen) <==> k in Keys(ps) && k !in seen
    ensures Unique(NewKeys(ps, seen))
    ensures forall i, j :: 0 <= i < j < |NewKeys(ps, seen)| ==>
              IndexOfKey(ps, NewKeys(ps, seen)[i]) < IndexOfKey(ps, NewKeys(ps, seen)[j])
    decreases |ps|
  {
    if |ps| > 0 {
      var p := ps[..|ps| - 1];
      var x := ps[|ps| - 1];
      var prev := NewKeys(p, seen);
      NewKeysSpec(p, seen);
      assert ps == p + [x];
      assert Keys(ps) == Keys(p) + [x.0];
      forall k | k in prev
        ensures IndexOfKey(ps, k) == IndexOfKey(p, k) < |p|
      {
        IndexOfKeyAppend(p, [x], k);
        IndexOfKeyIn(p, k);
      }
      if !(x.0 in seen || x.0 in prev) {
        IndexOfKeyAppend(p, [x], x.0);
        assert IndexOfKey(ps, x.0) == |p|;
      }
    }
  }

  /** The keys after `SetAll`: `d`'s keys in place, then the new keys of `ps`
      in the order of their first assignment. */
  lemma {:induction false} SetAllKeys<K(!new), V>(d: Dict<K, V>, ps: seq<(K, V)>)
    ensures Keys(SetAll(d, ps)) == Keys(d) + NewKeys(ps, Keys(d))
    decreases |ps|
  {
    if |ps| > 0 {
      SetAllKeys(d, ps[..|ps| - 1]);
    }
  }

  /** A key of `d` keeps its position through `SetAll`. */
  lemma SetAllKeepsPlace<K(!new), V>(d: Dict<K, V>, ps: seq<(K, V)>, k: K)
    requires k in Keys(d)
    ensures IndexOfKey(SetAll(d, ps), k) == IndexOfKey(d, k)
  {
    var r := SetAll(d, ps);
    SetAllKeys(d, ps);
    IndexOfKeyIn(d, k);
    var i := IndexOfKey(d, k);
    assert Keys(r)[i] == Keys(d)[i];
    forall j | 0 <= j < i
      ensures r[j].0 != k
    {
      assert Keys(r)[j] == Keys(d)[j];
    }
    IndexOfKeyIs(r, k, i);
  }

  /** Keys new to `d` follow all of `d`'s keys, in the order of their first
      assignment in `ps`. */
  lemma SetAllOrder<K(!new), V>(d: Dict<K, V>, ps: seq<(K, V)>, a: K, b: K)
    requires a in Keys(ps) && a !in Keys(d)
    requires b in Keys(ps) && b !in Keys(d)
    ensures |d| <= IndexOfKey(SetAll(d, ps), a) < |SetAll(d, ps)|
    ensures IndexOfKey(SetAll(d, ps), a) < IndexOfKey(SetAll(d, ps), b)
            <==> IndexOfKey(ps, a) < IndexOfKey(ps, b)
  {
    var r := SetAll(d, ps);
    var n := NewKeys(ps, Keys(d));
    SetAllKeys(d, ps);
    NewKeysSpec(ps, Keys(d));
    var pa :| 0 <= pa < |n| && n[pa] == a;
    var pb :| 0 <= pb < |n| && n[pb] == b;
    NewPosition(d, r, n, pa);
    NewPosition(d, r, n, pb);
    if pa < pb {
      assert IndexOfKey(ps, a) < IndexOfKey(ps, b);
    } else if pb < pa {
      assert IndexOfKey(ps, b) < IndexOfKey(ps, a);
    }
  }

  /** In a dict whose keys are `d`'s followed by fresh, distinct keys `n`,
      the key `n[p]` first occurs at `|d| + p`. */
  lemma NewPosition<K(!new), V>(d: Dict<K, V>, r: Dict<K, V>, n: seq<K>, p: nat)
    requires Keys(r) == Keys(d) + n && Unique(n) && p < |n| && n[p] !in Keys(d)
    ensures IndexOfKey(r, n[p]) == |d| + p
  {
    assert Keys(r)[|d| + p] == n[p];
    forall j | 0 <= j < |d| + p
      ensures r[j].0 != n[p]
    {
      assert Keys(r)[j] == r[j].0;
      if j < |d| {
        assert Keys(r)[j] == Keys(d)[j];
      } else {
        assert Keys(r)[j] == n[j - |d|];
      }
    }
    IndexOfKeyIs(r, n[p], |d| + p);
  }

  /** A sequence without repetitions whose elements all lie in `s` is no longer than `s` is large. */
  lemma {:induction false} UniqueBounded<T>(xs: seq<T>, s: set<T>)
    requires Unique(xs)
    requires forall i :: 0 <= i < |xs| ==> xs[i] in s
    ensures |xs| <= |s|
    decreases |xs|
  {
    if |xs| > 0 {
      var last := xs[|xs| - 1];
      var p := xs[..|xs| - 1];
      assert forall i :: 0 <= i < |p| ==> p[i] in s - {last} by {
        forall i | 0 <= i < |p|
          ensures p[i] in s - {last}
        {
          assert p[i] == xs[i];
        }
      }
      UniqueBounded(p, s - {last});
    }
  }

  /** The elements of a sequence, as a set. */
  function ElemSet<T>(xs: seq<T>): set<T> {
    set x | x in xs
  }

  /** A sequence has at most as many distinct elements as it is long. */
  lemma {:induction false} ElemSetSize<T>(xs: seq<T>)
    ensures |ElemSet(xs)| <= |xs|
    decreases |xs|
  {
    if |xs| > 0 {
      var p := xs[..|xs| - 1];
      ElemSetSize(p);
      assert xs == p + [xs[|xs| - 1]];
      assert ElemSet(xs) == ElemSet(p) + {xs[|xs| - 1]};
    }
  }
}

=== FILE: cells.dfy ===
/** The per-cell merge shared by multifile.py and scrape-cmd.py: every
    `arrayitem` of every `array` below a test assigns its text to the field
    named by the array, on the row whose "Cell No" equals the item's index,
    creating that row (at the end) when there is none yet. */
module CellMerge {
  import opened Wrappers
  import opened NumberSyntax
  import opened Values
  import opened AssocList
  import opened ElementTree

  /** A cell-row field key: the array's `name` attribute, `None` when it has none. */
  type Field = Option<string>

  /** One cell row (`{"Cell No": n, name: text, ...}`). */
  type CellEntry = Dict<Field, Value>

  const CellNoKey: Field := Some("Cell No")

  /** One assignment `cell_entry[field] = value` for the row of cell `cell`. */
  datatype Write = Write(cell: int, field: Field, value: string)

  /** `int(item.get("index"))`. */
  function ParseIndex(item: Element): (r: Result<int>)
    ensures r.Ok? <==> Attr(item, "index").Some? && ParseInt(Attr(item, "index").value).Some?
    ensures r.Ok? ==> Some(r.value) == ParseInt(Attr(item, "index").value)
    ensures r.Err? ==> r.error == BadCellIndex(Attr(item, "index"))
  {
    if "index" !in item.attrs then Err(BadCellIndex(None))
    else if ParseInt(item.attrs["index"]).None? then Err(BadCellIndex(Some(item.attrs["index"])))
    else Ok(ParseInt(item.attrs["index"]).value)
  }

  /** The assignments of one array's items, in order; an item without text
      assigns `""`; the first item whose index does not parse raises. */
  function ItemWrites(field: Field, items: seq<Element>): (r: Result<seq<Write>>)
    ensures r.Ok? <==> forall i :: 0 <= i < |items| ==> ParseIndex(items[i]).Ok?
    ensures r.Ok? ==> |r.value| == |items|
    ensures r.Ok? ==> forall i :: 0 <= i < |items| ==>
                        r.value[i] == Write(ParseIndex(items[i]).value, field, items[i].text.GetOr(""))
    decreases |items|
  {
    if |items| == 0 then Ok([])
    else
      var c :- ParseIndex(items[0]);
      var rest := ItemWrites(field, items[1..]);
      assert forall i :: 1 <= i < |items| ==> items[1..][i - 1] == items[i];
      if rest.Err? then Err(rest.error)
      else Ok([Write(c, field, items[0].text.GetOr(""))] + rest.value)
  }

  /** A failing call fails with the error of the first item whose index does not parse. */
  lemma {:induction false} ItemWritesFirstError(field: Field, items: seq<Element>)
    ensures var r := ItemWrites(field, items);
            r.Err? ==> exists i :: 0 <= i < |items| && ParseIndex(items[i]) == Err(r.error)
                                 && forall j :: 0 <= j < i ==> ParseIndex(items[j]).Ok?
    decreases |items|
  {
    if |items| > 0 {
      var r := ItemWrites(field, items);
      if ParseIndex(items[0]).Err? {
        assert ParseIndex(items[0]) == Err(r.error);
      } else {
        var rest := ItemWrites(field, items[1..]);
        ItemWritesFirstError(field, items[1..]);
        if rest.Err? {
          var i :| 0 <= i < |items[1..]| && ParseIndex(items[1..][i]) == Err(rest.error)
                   && forall j :: 0 <= j < i ==> ParseIndex(items[1..][j]).Ok?;
          assert r == Err(rest.error);
          assert items[i + 1] == items[1..][i];
          forall j | 0 <= j < i + 1
            ensures ParseIndex(items[j]).Ok?
          {
            if j > 0 {
              assert items[j] == items[1..][j - 1];
            }
          }
        }
      }
    }
  }

  /** The assignments of one array's items. */
  function ArrayItemWrites(a: Element): Result<seq<Write>> {
    ItemWrites(Attr(a, "name"), FindAll(a, "arrayitem"))
  }

  /** The write lists one after another. */
  function Concat(wss: seq<seq<Write>>): seq<Write>
    decreases |wss|
  {
    if |wss| == 0 then [] else wss[0] + Concat(wss[1..])
  }

  /** The assignments of all arrays, array by array in document order; the
      first array with an item whose index does not parse raises. */
  function ArrayWrites(arrays: seq<Element>): (r: Result<seq<Write>>)
    ensures r.Ok? <==> forall i :: 0 <= i < |arrays| ==> ArrayItemWrites(arrays[i]).Ok?
    ensures r.Err? ==> exists i :: 0 <= i < |arrays| && ArrayItemWrites(arrays[i]) == Err(r.error)
                                 && forall j :: 0 <= j < i ==> ArrayItemWrites(arrays[j]).Ok?
  {
    var wss :- MapAllOk(arrays, ArrayItemWrites);
    Ok(Concat(wss))
  }

  /** When array `i`'s items give the writes `wss[i]`, for every array, all
      arrays give those lists concatenated in document order. */
  lemma ArrayWritesConcat(arrays: seq<Element>, wss: seq<seq<Write>>)
    requires |wss| == |arrays|
    requires forall i :: 0 <= i < |arrays| ==> ArrayItemWrites(arrays[i]) == Ok(wss[i])
    ensures ArrayWrites(arrays) == Ok(Concat(wss))
  {
    var m := MapAllOk(arrays, ArrayItemWrites);
    assert m.value == wss;
  }

  /** Every write of a concatenation is a write of one of the lists. */
  lemma {:induction false} ConcatFrom(wss: seq<seq<Write>>, k: nat)
    requires k < |Concat(wss)|
    ensures exists i, j :: 0 <= i < |wss| && 0 <= j < |wss[i]| && Concat(wss)[k] == wss[i][j]
    decreases |wss|
  {
    if k < |wss[0]| {
      assert Concat(wss)[k] == wss[0][k];
    } else {
      ConcatFrom(wss[1..], k - |wss[0]|);
      var i, j :| 0 <= i < |wss[1..]| && 0 <= j < |wss[1..][i]| && Concat(wss[1..])[k - |wss[0]|] == wss[1..][i][j];
      assert wss[1..][i] == wss[i + 1];
    }
  }

  /** Each write's field is the name of some array. */
  lemma ArrayWritesFields(arrays: seq<Element>)
    requires ArrayWrites(arrays).Ok?
    ensures forall k :: 0 <= k < |ArrayWrites(arrays).value| ==>
              exists i :: 0 <= i < |arrays| && ArrayWrites(arrays).value[k].field == Attr(arrays[i], "name")
  {
    var wss := MapAllOk(arrays, ArrayItemWrites).value;
    forall k | 0 <= k < |ArrayWrites(arrays).value|
      ensures exists i :: 0 <= i < |arrays| && ArrayWrites(arrays).value[k].field == Attr(arrays[i], "name")
    {
      ConcatFrom(wss, k);
      var i, j :| 0 <= i < |wss| && 0 <= j < |wss[i]| && Concat(wss)[k] == wss[i][j];
      assert ArrayItemWrites(arrays[i]) == Ok(wss[i]);
    }
  }

  /** The cell number a row is found by: its "Cell No" entry when that is an integer. */
  function CellNumber(row: CellEntry): Option<int> {
    var v := Get(row, CellNoKey);
    if v.Some? && v.value.Int? then Some(v.value.n) else None
  }

  /** `next((cell for cell in cell_data if cell["Cell No"] == cell_no), None)`, as a position. */
  function FindRow(rows: seq<CellEntry>, c: int): (r: Option<nat>)
    ensures r.Some? ==> r.value < |rows| && CellNumber(rows[r.value]) == Some(c)
    ensures r.Some? ==> forall j :: 0 <= j < r.value ==> CellNumber(rows[j]) != Some(c)
    ensures r.None? <==> forall j :: 0 <= j < |rows| ==> CellNumber(rows[j]) != Some(c)
    decreases |rows|
  {
    if |rows| == 0 then None
    else if CellNumber(rows[0]) == Some(c) then Some(0)
    else
      var r := FindRow(rows[1..], c);
      assert forall j :: 1 <= j < |rows| ==> rows[1..][j - 1] == rows[j];
      if r.Some? then Some(r.value + 1) else None
  }

  /** The row a new cell number starts with: `{"Cell No": cell_no}`. */
  function NewRow(c: int): CellEntry {
    [(CellNoKey, Int(c))]
  }

  /** One step of the loop body: find or create the row, then set the field. */
  function Upsert(rows: seq<CellEntry>, w: Write): seq<CellEntry> {
    match FindRow(rows, w.cell)
    case Some(i) => rows[i := Set(rows[i], w.field, Str(w.value))]
    case None => rows + [Set(NewRow(w.cell), w.field, Str(w.value))]
  }

  /** `cell_data` after performing the assignments `ws` in order, starting from `[]`. */
  function Merge(ws: seq<Write>): seq<CellEntry>
    decreases |ws|
  {
    if |ws| == 0 then [] else Upsert(Merge(ws[..|ws| - 1]), ws[|ws| - 1])
  }

  /** The cell rows of one test: the merge of all arrays at any depth below it. */
  function CellData(test: Element): Result<seq<CellEntry>> {
    var ws :- ArrayWrites(Descendants(test, "array"));
    Ok(Merge(ws))
  }

  // ----- Reference notions the merge is specified against -----

  /** The value of the last assignment to field `f` of cell `c`, if any. */
  function LastWrite(ws: seq<Write>, c: int, f: Field): (r: Option<Value>)
    ensures r.None? <==> forall k :: 0 <= k < |ws| ==> !(ws[k].cell == c && ws[k].field == f)
    decreases |ws|
  {
    if |ws| == 0 then None
    else if ws[|ws| - 1].cell == c && ws[|ws| - 1].field == f then Some(Str(ws[|ws| - 1].value))
    else LastWrite(ws[..|ws| - 1], c, f)
  }

  /** A value found is that of an assignment to the cell and field after which none follows. */
  lemma {:induction false} LastWriteIsLast(ws: seq<Write>, c: int, f: Field)
    ensures var r := LastWrite(ws, c, f);
            r.Some? ==> exists k :: 0 <= k < |ws| && ws[k].cell == c && ws[k].field == f && r == Some(Str(ws[k].value))
                                  && forall m :: k < m < |ws| ==> !(ws[m].cell == c && ws[m].field == f)
    decreases |ws|
  {
    if |ws| > 0 {
      var n := |ws| - 1;
      if ws[n].cell == c && ws[n].field == f {
        assert LastWrite(ws, c, f) == Some(Str(ws[n].value));
      } else {
        var p := ws[..n];
        LastWriteIsLast(p, c, f);
        if LastWrite(p, c, f).Some? {
          var k :| 0 <= k < |p| && p[k].cell == c && p[k].field == f && LastWrite(p, c, f) == Some(Str(p[k].value))
                   && forall m :: k < m < |p| ==> !(p[m].cell == c && p[m].field == f);
          assert ws[k] == p[k];
          forall m | k < m < |ws|
            ensures !(ws[m].cell == c && ws[m].field == f)
          {
            if m < n {
              assert ws[m] == p[m];
            }
          }
        }
      }
    }
  }

  /** Some assignment mentions cell `c`. */
  predicate Occurs(ws: seq<Write>, c: int) {
    exists k :: 0 <= k < |ws| && ws[k].cell == c
  }

  /** Cell `c` is mentioned before cell `d` is mentioned for the first time. */
  predicate SeenBefore(ws: seq<Write>, c: Option<int>, d: Option<int>) {
    exists k :: 0 <= k < |ws| && Some(ws[k].cell) == c && forall m :: 0 <= m <= k ==> Some(ws[m].cell) != d
  }

  /** No array is named "Cell No", so no assignment overwrites a row's cell number. */
  predicate NoCellNoWrites(ws: seq<Write>) {
    forall k :: 0 <= k < |ws| ==> ws[k].field != CellNoKey
  }

  /** The cell numbers of the rows, in row order. */
  function Numbers(rows: seq<CellEntry>): (ns: seq<Option<int>>)
    ensures |ns| == |rows|
    ensures forall i :: 0 <= i < |rows| ==> ns[i] == CellNumber(rows[i])
  {
    seq(|rows|, i requires 0 <= i < |rows| => CellNumber(rows[i]))
  }

  /** The row order the assignments `ws` call for: every number present, each
      once, exactly the mentioned ones, in order of first mention. */
  ghost predicate NumberedFrom(ws: seq<Write>, ns: seq<Option<int>>) {
    && (forall i :: 0 <= i < |ns| ==> ns[i].Some?)
    && Unique(ns)
    && (forall c :: Occurs(ws, c) <==> Some(c) in ns)
    && (forall i, j :: 0 <= i < j < |ns| ==> SeenBefore(ws, ns[i], ns[j]))
  }

  /** Every field other than "Cell No" holds the last value assigned to it for that cell. */
  ghost predicate RowsLastWrite(ws: seq<Write>, rows: seq<CellEntry>) {
    forall i, f :: 0 <= i < |rows| && f != CellNoKey && CellNumber(rows[i]).Some? ==>
      Get(rows[i], f) == LastWrite(ws, CellNumber(rows[i]).value, f)
  }

  /** What the merged rows are, in terms of the assignments alone. */
  ghost predicate MergedFrom(ws: seq<Write>, rows: seq<CellEntry>) {
    && NumberedFrom(ws, Numbers(rows))
    && (forall i :: 0 <= i < |rows| ==> Distinct(rows[i]))
    && RowsLastWrite(ws, rows)
  }

  // ----- Proof of the merge invariant -----

  lemma NewRowFacts(c: int)
    ensures Get(NewRow(c), CellNoKey) == Some(Int(c))
    ensures forall g :: g != CellNoKey ==> Get(NewRow(c), g).None?
    ensures CellNumber(NewRow(c)) == Some(c)
    ensures Distinct(NewRow(c))
  {
    assert Keys(NewRow(c)) == [CellNoKey];
  }

  lemma OccursSnoc(p: seq<Write>, w: Write)
    ensures forall c :: Occurs(p + [w], c) <==> Occurs(p, c) || w.cell == c
  {
    var ws := p + [w];
    forall c
      ensures Occurs(ws, c) <==> Occurs(p, c) || w.cell == c
    {
      if Occurs(p, c) {
        var k :| 0 <= k < |p| && p[k].cell == c;
        assert ws[k] == p[k];
      }
      if w.cell == c {
        assert ws[|p|] == w;
      }
      if Occurs(ws, c) {
        var k :| 0 <= k < |ws| && ws[k].cell == c;
        if k < |p| {
          assert ws[k] == p[k];
        }
      }
    }
  }

  lemma SeenBeforeSnoc(p: seq<Write>, w: Write, c: Option<int>, d: Option<int>)
    requires SeenBefore(p, c, d)
    ensures SeenBefore(p + [w], c, d)
  {
    var ws := p + [w];
    var k :| 0 <= k < |p| && Some(p[k].cell) == c && forall m :: 0 <= m <= k ==> Some(p[m].cell) != d;
    assert ws[k] == p[k];
    assert forall m :: 0 <= m <= k ==> ws[m] == p[m];
  }

  lemma LastWriteSnoc(p: seq<Write>, w: Write)
    ensures forall c, f :: LastWrite(p + [w], c, f) == if w.cell == c && w.field == f then Some(Str(w.value)) else LastWrite(p, c, f)
  {
    assert (p + [w])[..|p|] == p;
  }

  /** An assignment to a cell that already has a row leaves the row order as it is. */
  lemma NumbersKnownCell(p: seq<Write>, w: Write, ns: seq<Option<int>>)
    requires NumberedFrom(p, ns)
    requires Some(w.cell) in ns
    ensures NumberedFrom(p + [w], ns)
  {
    OccursSnoc(p, w);
    forall i, j | 0 <= i < j < |ns|
      ensures SeenBefore(p + [w], ns[i], ns[j])
    {
      SeenBeforeSnoc(p, w, ns[i], ns[j]);
    }
  }

  /** An assignment to a cell without a row appends that cell at the end of the order. */
  lemma NumbersNewCell(p: seq<Write>, w: Write, ns: seq<Option<int>>)
    requires NumberedFrom(p, ns)
    requires Some(w.cell) !in ns
    ensures NumberedFrom(p + [w], ns + [Some(w.cell)])
  {
    var ws := p + [w];
    var ns' := ns + [Some(w.cell)];
    OccursSnoc(p, w);
    assert forall i :: 0 <= i < |ns| ==> ns'[i] == ns[i];
    assert forall c :: Some(c) in ns' <==> Some(c) in ns || c == w.cell;
    forall i, j | 0 <= i < j < |ns'|
      ensures SeenBefore(ws, ns'[i], ns'[j])
    {
      if j < |ns| {
        SeenBeforeSnoc(p, w, ns[i], ns[j]);
      } else {
        var c := ns[i].value;
        assert Occurs(p, c);
        var k :| 0 <= k < |p| && p[k].cell == c;
        assert ws[k] == p[k];
        assert forall m :: 0 <= m <= k ==> ws[m] == p[m] && p[m].cell != w.cell;
      }
    }
  }

  lemma {:induction false} MergeStepFound(p: seq<Write>, w: Write, i: nat)
    requires MergedFrom(p, Merge(p))
    requires w.field != CellNoKey
    requires FindRow(Merge(p), w.cell) == Some(i)
    ensures MergedFrom(p + [w], Upsert(Merge(p), w))
  {
    var ws := p + [w];
    var rows := Merge(p);
    var row' := Set(rows[i], w.field, Str(w.value));
    var r := rows[i := row'];
    assert Upsert(rows, w) == r;
    assert CellNumber(row') == CellNumber(rows[i]);
    assert Numbers(r) == Numbers(rows);
    NumbersKnownCell(p, w, Numbers(rows));
    LastWriteSnoc(p, w);
    forall j, f | 0 <= j < |r| && f != CellNoKey && CellNumber(r[j]).Some?
      ensures Get(r[j], f) == LastWrite(ws, CellNumber(r[j]).value, f)
    {
      if j != i {
        assert Numbers(rows)[j] != Numbers(rows)[i];
      }
    }
  }

  lemma {:induction false} MergeStepNew(p: seq<Write>, w: Write)
    requires MergedFrom(p, Merge(p))
    requires w.field != CellNoKey
    requires FindRow(Merge(p), w.cell).None?
    ensures MergedFrom(p + [w], Upsert(Merge(p), w))
  {
    var rows := Merge(p);
    var row' := Set(NewRow(w.cell), w.field, Str(w.value));
    var r := rows + [row'];
    assert Upsert(rows, w) == r;
    NewRowFacts(w.cell);
    assert CellNumber(row') == Some(w.cell);
    NumbersSnoc(rows, row');
    NumbersNewCell(p, w, Numbers(rows));
    NewRowLastWrite(p, w);
    RowsLastWriteSnoc(p, w, rows, row');
    assert forall j :: 0 <= j < |rows| ==> r[j] == rows[j];
  }

  /** Rows of other cells keep their last writes when a row for `w`'s cell is added after them. */
  lemma RowsLastWriteSnoc(p: seq<Write>, w: Write, rows: seq<CellEntry>, row: CellEntry)
    requires RowsLastWrite(p, rows)
    requires forall j :: 0 <= j < |rows| ==> CellNumber(rows[j]) != Some(w.cell)
    requires CellNumber(row) == Some(w.cell)
    requires forall f :: f != CellNoKey ==> Get(row, f) == LastWrite(p + [w], w.cell, f)
    ensures RowsLastWrite(p + [w], rows + [row])
  {
    var r := rows + [row];
    LastWriteSnoc(p, w);
    forall j, f | 0 <= j < |r| && f != CellNoKey && CellNumber(r[j]).Some?
      ensures Get(r[j], f) == LastWrite(p + [w], CellNumber(r[j]).value, f)
    {
      if j < |rows| {
        assert r[j] == rows[j];
      }
    }
  }

  lemma NumbersSnoc(rows: seq<CellEntry>, row: CellEntry)
    ensures Numbers(rows + [row]) == Numbers(rows) + [CellNumber(row)]
  {
    assert forall i :: 0 <= i < |rows| ==> (rows + [row])[i] == rows[i];
  }

  /** The row a first assignment to a cell creates holds the last write of each of its fields. */
  lemma NewRowLastWrite(p: seq<Write>, w: Write)
    requires MergedFrom(p, Merge(p)) && w.field != CellNoKey
    requires FindRow(Merge(p), w.cell).None?
    ensures forall f :: f != CellNoKey ==> Get(Set(NewRow(w.cell), w.field, Str(w.value)), f) == LastWrite(p + [w], w.cell, f)
  {
    var row' := Set(NewRow(w.cell), w.field, Str(w.value));
    NewRowFacts(w.cell);
    assert !Occurs(p, w.cell);
    LastWriteSnoc(p, w);
    forall f | f != CellNoKey
      ensures Get(row', f) == LastWrite(p + [w], w.cell, f)
    {
      if f != w.field {
        assert LastWrite(p, w.cell, f).None?;
      }
    }
  }

  lemma {:induction false} MergeInvariant(ws: seq<Write>)
    requires NoCellNoWrites(ws)
    ensures MergedFrom(ws, Merge(ws))
    decreases |ws|
  {
    if |ws| > 0 {
      var p := ws[..|ws| - 1];
      var w := ws[|ws| - 1];
      MergeInvariant(p);
      assert p + [w] == ws;
      if FindRow(Merge(p), w.cell).Some? {
        MergeStepFound(p, w, FindRow(Merge(p), w.cell).value);
      } else {
        MergeStepNew(p, w);
      }
    }
  }

  // ----- The properties of the merge -----

  /** Exactly one row per distinct index: every row carries an integer cell
      number, no two rows share one, and a number has a row iff some item has
      that index. */
  lemma OneRowPerIndex(ws: seq<Write>)
    requires NoCellNoWrites(ws)
    ensures forall i :: 0 <= i < |Merge(ws)| ==> CellNumber(Merge(ws)[i]).Some?
    ensures forall i, j :: 0 <= i < j < |Merge(ws)| ==> CellNumber(Merge(ws)[i]) != CellNumber(Merge(ws)[j])
    ensures forall c :: Occurs(ws, c) <==> exists i :: 0 <= i < |Merge(ws)| && CellNumber(Merge(ws)[i]) == Some(c)
  {
    MergeInvariant(ws);
  }

  /** Rows appear in the order their indices are first seen, across all arrays. */
  lemma FirstSeenOrder(ws: seq<Write>)
    requires NoCellNoWrites(ws)
    ensures forall i, j :: 0 <= i < j < |Merge(ws)| ==> SeenBefore(ws, CellNumber(Merge(ws)[i]), CellNumber(Merge(ws)[j]))
  {
    MergeInvariant(ws);
  }

  /** Each field of a row holds the last value written for that (index, array name). */
  lemma LastWriteWins(ws: seq<Write>)
    requires NoCellNoWrites(ws)
    ensures forall i, f :: 0 <= i < |Merge(ws)| && f != CellNoKey ==>
              CellNumber(Merge(ws)[i]).Some? &&
              Get(Merge(ws)[i], f) == LastWrite(ws, CellNumber(Merge(ws)[i]).value, f)
    ensures forall i :: 0 <= i < |Merge(ws)| ==> Distinct(Merge(ws)[i])
  {
    MergeInvariant(ws);
  }

  /** Even when an array is named "Cell No", no two rows carry the same integer cell number. */
  lemma {:induction false} IntegerCellNumbersDistinct(ws: seq<Write>)
    ensures forall i, j :: 0 <= i < j < |Merge(ws)| && CellNumber(Merge(ws)[i]).Some? ==>
              CellNumber(Merge(ws)[i]) != CellNumber(Merge(ws)[j])
    decreases |ws|
  {
    if |ws| > 0 {
      var p := ws[..|ws| - 1];
      var w := ws[|ws| - 1];
      IntegerCellNumbersDistinct(p);
      var rows := Merge(p);
      var r := Merge(ws);
      assert r == Upsert(rows, w);
      if FindRow(rows, w.cell).Some? {
        var i := FindRow(rows, w.cell).value;
        var row' := Set(rows[i], w.field, Str(w.value));
        assert r == rows[i := row'];
        if w.field == CellNoKey {
          assert CellNumber(row').None?;
        } else {
          assert CellNumber(row') == CellNumber(rows[i]);
        }
        assert forall j :: 0 <= j < |r| && j != i ==> r[j] == rows[j];
      } else {
        NewRowFacts(w.cell);
        var row' := Set(NewRow(w.cell), w.field, Str(w.value));
        assert r == rows + [row'];
        if w.field == CellNoKey {
          assert CellNumber(row').None?;
        } else {
          assert CellNumber(row') == Some(w.cell);
        }
        assert forall j :: 0 <= j < |rows| ==> r[j] == rows[j];
      }
    }
  }

  /** As written, an array named "Cell No" replaces a row's number by a
      string, so the next item with the same index (for another array)
      starts a second row for that index: after any assignments without such
      an array, the pair adds one row when the index already had one and two
      otherwise, and the index's integer number survives only on the fresh
      last row. */
  lemma CellNoArraySplitsRow(pre: seq<Write>, c: int, t: string, f: Field, v: string)
    requires NoCellNoWrites(pre) && f != CellNoKey
    ensures var rows := Merge(pre + [Write(c, CellNoKey, t), Write(c, f, v)]);
            && |rows| == |Merge(pre)| + (if Occurs(pre, c) then 1 else 2)
            && rows[|rows| - 1] == Set(NewRow(c), f, Str(v))
            && forall j :: 0 <= j < |rows| - 1 ==> CellNumber(rows[j]) != Some(c)
  {
    var w1 := Write(c, CellNoKey, t);
    var w2 := Write(c, f, v);
    var ws := pre + [w1, w2];
    assert ws[..|ws| - 1] == pre + [w1];
    assert (pre + [w1])[..|pre|] == pre;
    var rows := Merge(pre);
    MergeInvariant(pre);
    var r1 := Upsert(rows, w1);
    assert Merge(pre + [w1]) == r1;
    CellNoWriteUnnumbers(rows, c, t, Occurs(pre, c));
    assert Merge(ws) == Upsert(r1, w2);
    NewRowFacts(c);
  }

  /** Writing "Cell No" for cell `c` into rows with distinct integer numbers,
      where `c` has a row iff `present`: afterwards no row is numbered `c`, and
      a row was added iff `c` had none. */
  lemma CellNoWriteUnnumbers(rows: seq<CellEntry>, c: int, t: string, present: bool)
    requires forall i, j :: 0 <= i < j < |rows| ==> Numbers(rows)[i] != Numbers(rows)[j]
    requires present <==> Some(c) in Numbers(rows)
    ensures var r1 := Upsert(rows, Write(c, CellNoKey, t));
            && |r1| == |rows| + (if present then 0 else 1)
            && forall j :: 0 <= j < |r1| ==> CellNumber(r1[j]) != Some(c)
  {
    var r1 := Upsert(rows, Write(c, CellNoKey, t));
    if present {
      var i := FindRow(rows, c).value;
      var row' := Set(rows[i], CellNoKey, Str(t));
      assert r1 == rows[i := row'];
      assert CellNumber(row').None?;
      forall j | 0 <= j < |r1| && j != i
        ensures CellNumber(r1[j]) != Some(c)
      {
        if j < i {
          assert Numbers(rows)[j] != Numbers(rows)[i];
        } else {
          assert Numbers(rows)[i] != Numbers(rows)[j];
        }
      }
    } else {
      var row' := Set(NewRow(c), CellNoKey, Str(t));
      assert r1 == rows + [row'];
      assert CellNumber(row').None?;
      assert forall j :: 0 <= j < |rows| ==> Numbers(rows)[j] != Some(c);
    }
  }

  /** The cell rows of a test whose arrays (at any depth) are not named "Cell No"
      satisfy all the merge properties, over the items' assignments. */
  lemma CellDataMerged(test: Element)
    requires forall a :: a in Descendants(test, "array") ==> Attr(a, "name") != CellNoKey
    ensures CellData(test).Ok? <==> ArrayWrites(Descendants(test, "array")).Ok?
    ensures CellData(test).Ok? ==> MergedFrom(ArrayWrites(Descendants(test, "array")).value, CellData(test).value)
  {
    var r := ArrayWrites(Descendants(test, "array"));
    if r.Ok? {
      ArrayWritesFields(Descendants(test, "array"));
      MergeInvariant(r.value);
    }
  }
}

=== FILE: coercion.dfy ===
/** `convert_to_number` and `round_to_sig_figs` of multifile.py. */
module Coercion {
  import opened Wrappers
  import opened NumberSyntax
  import opened Values

  /** `f"{float(lit):.{n}g}"` for a float literal `lit`, which this model does not compute. */
  type Formatter = (string, nat) -> string

  /** `convert_to_number(v)`: a string with a `.` is tried as a float, any other
      string as an int; a failed parse (ValueError) or a non-string argument
      (TypeError, e.g. `None` or an `int`) returns the argument unchanged. */
  function ConvertToNumber(v: Value): Value {
    match v
    case Str(s) =>
      if '.' in s then
        if IsFloatLiteral(s) then Float(s) else v
      else if ParseInt(s).Some? then Int(ParseInt(s).value)
      else v
    case _ => v
  }

  /** What `convert_to_number` returns, case by case. */
  lemma ConvertSpec(v: Value)
    ensures var r := ConvertToNumber(v);
            && (r.Float? <==> v.Float? || (v.Str? && '.' in v.s && IsFloatLiteral(v.s)))
            && (r.Float? && v.Str? ==> r.literal == v.s)
            && (r.Int? && v.Str? ==> '.' !in v.s && ParseInt(v.s) == Some(r.n))
            && (v.Str? && '.' !in v.s && ParseInt(v.s).Some? ==> r == Int(ParseInt(v.s).value))
            && (r.Str? || r.Null? || !v.Str? ==> r == v)
  {
  }

  /** Converting twice is converting once: the result is never a string that would convert further. */
  lemma ConvertIdempotent(v: Value)
    ensures ConvertToNumber(ConvertToNumber(v)) == ConvertToNumber(v)
  {
  }

  /** A string without a `.` never becomes a float: "1e5" stays the string "1e5". */
  lemma DotFreeNeverFloat(s: string)
    requires '.' !in s
    ensures !ConvertToNumber(Str(s)).Float?
    ensures !IsIntLiteral(s) ==> ConvertToNumber(Str(s)) == Str(s)
  {
  }

  /** The printed form of an integer converts back to that integer. */
  lemma ConvertPrintedInt(n: int)
    ensures ConvertToNumber(Str(IntToString(n))) == Int(n)
  {
    ParseIntRoundTrip(n);
    assert '.' !in IntToString(n) by {
      var t := IntToString(n);
      forall i | 0 <= i < |t|
        ensures t[i] != '.'
      {
        if n < 0 && i > 0 {
          assert t[i] == NatToString(-n)[i - 1];
        }
      }
    }
  }

  /** `round_to_sig_figs(v, sigFigs)`: zero becomes the string "0", another
      number becomes its `%g` text, an unparseable string is returned as it
      is (ValueError is caught), and `None` raises (TypeError is not caught). */
  function RoundToSigFigs(v: Value, sigFigs: nat, fmtG: Formatter): (r: Result<Value>)
    ensures r.Err? <==> v.Null?
    ensures r.Ok? ==> r.value.Str?
    ensures v.Str? && !IsFloatLiteral(v.s) ==> r == Ok(v)
    ensures v.Str? && IsZeroLiteral(v.s) ==> r == Ok(Str("0"))
    ensures v.Str? && IsFloatLiteral(v.s) && !IsZeroLiteral(v.s) ==> r == Ok(Str(fmtG(v.s, sigFigs)))
  {
    match v
    case Null => Err(RoundOfNone)
    case Str(s) =>
      if !IsFloatLiteral(s) then Ok(v)
      else if IsZeroLiteral(s) then Ok(Str("0"))
      else Ok(Str(fmtG(s, sigFigs)))
    case Int(n) => if n == 0 then Ok(Str("0")) else Ok(Str(fmtG(IntToString(n), sigFigs)))
    case Float(lit) => if IsZeroLiteral(lit) then Ok(Str("0")) else Ok(Str(fmtG(lit, sigFigs)))
  }

  /** Integer text: zero rounds to "0" and any other integer goes through `%g`. */
  lemma RoundIntegerText(s: string, sigFigs: nat, fmtG: Formatter)
    requires IsIntLiteral(s)
    ensures ParseInt(s) == Some(0) ==> RoundToSigFigs(Str(s), sigFigs, fmtG) == Ok(Str("0"))
    ensures ParseInt(s) != Some(0) ==> RoundToSigFigs(Str(s), sigFigs, fmtG) == Ok(Str(fmtG(s, sigFigs)))
  {
    IntLiteralIsFloatLiteral(s);
    IntLiteralZero(s);
  }
}

=== FILE: element.dfy ===
/** The parsed XML document as ElementTree presents it, and the three ways
    the extractors search it: `findall` on direct children, `.//name` over
    all descendants, and `find` / first-match lookups. */
module ElementTree {
  import opened Wrappers
  import Text

  /** One element: its tag, its attribute map, its text (`None` when the
      element has no text) and its child elements in document order. */
  datatype Element = Element(tag: string, attrs: map<string, string>, text: Option<string>, children: seq<Element>)

  /** `e.get(name)`. */
  function Attr(e: Element, name: string): (r: Option<string>)
    ensures r.Some? <==> name in e.attrs
    ensures r.Some? ==> r.value == e.attrs[name]
  {
    if name in e.attrs then Some(e.attrs[name]) else None
  }

  /** The elements of `cs` with tag `t`, in their order. */
  function Filter(cs: seq<Element>, t: string): (r: seq<Element>)
    ensures |r| <= |cs|
    ensures forall i :: 0 <= i < |r| ==> r[i].tag == t && r[i] in cs
    ensures forall i :: 0 <= i < |cs| && cs[i].tag == t ==> cs[i] in r
    decreases |cs|
  {
    if |cs| == 0 then []
    else (if cs[0].tag == t then [cs[0]] else []) + Filter(cs[1..], t)
  }

  /** Filtering a concatenation filters each part and keeps them in order. */
  lemma {:induction false} FilterAppend(a: seq<Element>, b: seq<Element>, t: string)
    ensures Filter(a + b, t) == Filter(a, t) + Filter(b, t)
    decreases |a|
  {
    if |a| > 0 {
      assert (a + b)[1..] == a[1..] + b;
      FilterAppend(a[1..], b, t);
    } else {
      assert a + b == b;
    }
  }

  /** How many elements of `cs` carry tag `t`. */
  function CountTag(cs: seq<Element>, t: string): (n: nat)
    ensures n <= |cs|
    decreases |cs|
  {
    if |cs| == 0 then 0
    else (if cs[0].tag == t then 1 else 0) + CountTag(cs[1..], t)
  }

  /** Filtering keeps every tagged element once: as many as there are. */
  lemma {:induction false} FilterCount(cs: seq<Element>, t: string)
    ensures |Filter(cs, t)| == CountTag(cs, t)
    decreases |cs|
  {
    if |cs| > 0 {
      FilterCount(cs[1..], t);
    }
  }

  /** A tagged element lands after exactly the tagged elements before it. */
  lemma FilterAt(cs: seq<Element>, t: string, i: int)
    requires 0 <= i < |cs| && cs[i].tag == t
    ensures CountTag(cs[..i], t) < |Filter(cs, t)|
    ensures Filter(cs, t)[CountTag(cs[..i], t)] == cs[i]
  {
    assert cs == cs[..i] + cs[i..];
    FilterAppend(cs[..i], cs[i..], t);
    FilterCount(cs[..i], t);
    assert cs[i..][0] == cs[i];
  }

  /** `e.findall(t)` for a plain tag name: the direct children with that tag. */
  function FindAll(e: Element, t: string): (r: seq<Element>)
    ensures |r| <= |e.children|
    ensures forall i :: 0 <= i < |r| ==> r[i].tag == t && r[i] in e.children
    ensures forall i :: 0 <= i < |e.children| && e.children[i].tag == t ==> e.children[i] in r
  {
    Filter(e.children, t)
  }

  /** `findall` lists the tagged children in document order, each once: the
      child at index `i` is preceded by exactly the tagged children before it. */
  lemma FindAllOrder(e: Element, t: string)
    ensures |FindAll(e, t)| == CountTag(e.children, t)
    ensures forall i :: 0 <= i < |e.children| && e.children[i].tag == t ==>
              CountTag(e.children[..i], t) < |FindAll(e, t)| && FindAll(e, t)[CountTag(e.children[..i], t)] == e.children[i]
  {
    FilterCount(e.children, t);
    forall i | 0 <= i < |e.children| && e.children[i].tag == t
      ensures CountTag(e.children[..i], t) < |FindAll(e, t)| && FindAll(e, t)[CountTag(e.children[..i], t)] == e.children[i]
    {
      FilterAt(e.children, t, i);
    }
  }

  /** `e.find(t)`: the first direct child with that tag, or `None`. */
  function Find(e: Element, t: string): (r: Option<Element>)
    ensures r.None? <==> forall i :: 0 <= i < |e.children| ==> e.children[i].tag != t
    ensures r.Some? ==> exists i :: 0 <= i < |e.children| && e.children[i] == r.value && r.value.tag == t
                                 && forall j :: 0 <= j < i ==> e.children[j].tag != t
  {
    FirstWithTag(e.children, t)
  }

  function FirstWithTag(cs: seq<Element>, t: string): (r: Option<Element>)
    ensures r.None? <==> forall i :: 0 <= i < |cs| ==> cs[i].tag != t
    ensures r.Some? ==> exists i :: 0 <= i < |cs| && cs[i] == r.value && r.value.tag == t
                                 && forall j :: 0 <= j < i ==> cs[j].tag != t
    decreases |cs|
  {
    if |cs| == 0 then None
    else if cs[0].tag == t then Some(cs[0])
    else
      var r := FirstWithTag(cs[1..], t);
      assert forall i :: 1 <= i < |cs| ==> cs[i] == cs[1..][i - 1];
      r
  }

  /** `find` returns the first element `findall` would list. */
  lemma {:induction false} FindIsHeadOfFindAll(e: Element, t: string)
    ensures Find(e, t) == if |FindAll(e, t)| == 0 then None else Some(FindAll(e, t)[0])
  {
    FirstIsHeadOfFilter(e.children, t);
  }

  lemma {:induction false} FirstIsHeadOfFilter(cs: seq<Element>, t: string)
    ensures FirstWithTag(cs, t) == if |Filter(cs, t)| == 0 then None else Some(Filter(cs, t)[0])
    decreases |cs|
  {
    if |cs| > 0 && cs[0].tag != t {
      FirstIsHeadOfFilter(cs[1..], t);
    }
  }

  /** `e.findall(".//" + t)`: every element below `e` (not `e` itself) with tag
      `t`, in document order (each element before its own descendants). */
  function Descendants(e: Element, t: string): seq<Element>
    decreases e, 1
  {
    DescendantsIn(e.children, t)
  }

  /** The tag-`t` elements of the forest `cs`, each tree's root before its descendants. */
  function DescendantsIn(cs: seq<Element>, t: string): seq<Element>
    decreases cs, 0
  {
    if |cs| == 0 then []
    else (if cs[0].tag == t then [cs[0]] else []) + Descendants(cs[0], t) + DescendantsIn(cs[1..], t)
  }

  /** `x` occurs somewhere strictly below `e`. */
  ghost predicate Below(x: Element, e: Element)
    decreases e
  {
    exists i :: 0 <= i < |e.children| && (x == e.children[i] || Below(x, e.children[i]))
  }

  /** `x` is one of the trees of `cs` or lies below one of them. */
  ghost predicate InForest(x: Element, cs: seq<Element>) {
    exists i :: 0 <= i < |cs| && (x == cs[i] || Below(x, cs[i]))
  }

  /** The descendant search finds exactly the elements below `e` that carry tag `t`. */
  lemma {:induction false} DescendantsSpec(e: Element, t: string)
    ensures forall x :: x in Descendants(e, t) <==> x.tag == t && Below(x, e)
    decreases e, 1
  {
    DescendantsInSpec(e.children, t);
  }

  lemma {:induction false} DescendantsInSpec(cs: seq<Element>, t: string)
    ensures forall x :: x in DescendantsIn(cs, t) <==> x.tag == t && InForest(x, cs)
    decreases cs, 0
  {
    if |cs| > 0 {
      DescendantsSpec(cs[0], t);
      DescendantsInSpec(cs[1..], t);
      forall x
        ensures InForest(x, cs) <==> x == cs[0] || Below(x, cs[0]) || InForest(x, cs[1..])
      {
        if InForest(x, cs) {
          var i :| 0 <= i < |cs| && (x == cs[i] || Below(x, cs[i]));
          if i > 0 {
            assert cs[1..][i - 1] == cs[i];
          }
        }
        if InForest(x, cs[1..]) {
          var i :| 0 <= i < |cs[1..]| && (x == cs[1..][i] || Below(x, cs[1..][i]));
          assert cs[i + 1] == cs[1..][i];
        }
      }
    }
  }

  /** Every direct child with tag `t` is also found by the descendant search. */
  lemma ChildrenAreDescendants(e: Element, t: string)
    ensures forall x :: x in FindAll(e, t) ==> x in Descendants(e, t)
  {
    DescendantsSpec(e, t);
    forall x | x in FindAll(e, t)
      ensures Below(x, e)
    {
      var i :| 0 <= i < |e.children| && e.children[i] == x;
    }
  }

  /** The key a `tag` element is matched by: its `name` attribute, lower-cased,
      with a missing attribute read as `""` (`tag.get("name", "").lower()`). */
  function NameKey(x: Element): string {
    Text.Lower(Attr(x, "name").GetOr(""))
  }

  /** `next((tag for tag in e.findall("tag") if NameKey(tag) == target), None)`. */
  function FindTag(e: Element, target: string): (r: Option<Element>)
    ensures r.None? <==> forall x :: x in FindAll(e, "tag") ==> NameKey(x) != target
    ensures r.Some? ==> r.value in FindAll(e, "tag") && NameKey(r.value) == target
    ensures r.Some? ==> exists i :: 0 <= i < |FindAll(e, "tag")| && FindAll(e, "tag")[i] == r.value
                                 && forall j :: 0 <= j < i ==> NameKey(FindAll(e, "tag")[j]) != target
    ensures r.Some? && target != "" ==> "name" in r.value.attrs
  {
    FirstNamed(FindAll(e, "tag"), target)
  }

  function FirstNamed(cs: seq<Element>, target: string): (r: Option<Element>)
    ensures r.None? <==> forall x :: x in cs ==> NameKey(x) != target
    ensures r.Some? ==> exists i :: 0 <= i < |cs| && cs[i] == r.value && NameKey(r.value) == target
                                 && forall j :: 0 <= j < i ==> NameKey(cs[j]) != target
    decreases |cs|
  {
    if |cs| == 0 then None
    else if NameKey(cs[0]) == target then Some(cs[0])
    else
      var r := FirstNamed(cs[1..], target);
      assert forall i :: 1 <= i < |cs| ==> cs[i] == cs[1..][i - 1];
      assert forall x :: x in cs ==> x == cs[0] || x in cs[1..];
      r
  }
}

=== FILE: layout.dfy ===
/** `write_excel`: how the records of a form become the "Battery Test" sheet.
    Per test, the sheet gets an information block, a deviation block, a
    "Table Summary" block and the cell table, each anchored to the sheet's
    `max_row` or append cursor as it stands after the previous block. */
module ReportLayout {
  import opened Wrappers
  import Text
  import opened Values
  import opened Coercion
  import opened AssocList
  import opened CellMerge
  import opened MultifileExtract
  import opened Worksheet

  const SheetName := "Battery Test"
  const FallbackTitle := "Battery Test Report"
  const TableSummaryLabel := "Table Summary"
  const BaselineLabel := "Baseline Impedance (mΩ)"

  /** The significant figures deviation and summary values are rounded to. */
  const SigFigs: nat := 5

  const CellHeaders: seq<string> := ["Cell No.", "Impedance (mΩ)", "% Deviation (Baseline)", "% Variation (String)",
                                     "Voltage (V)", "Time", "Temperature (°C)"]

  /** The lower-cased cell-row fields shown under each header. */
  const CellFields: seq<string> := ["cell no", "impedence", "v", "d", "voltage", "time", "tem_1"]

  /** The one column shown as found, without `convert_to_number`. */
  const TimeColumn := 5

  /** Cell A1: the form name unless it is the empty string. */
  function Title(formName: Value): Value {
    if formName != Str("") then formName else Str(FallbackTitle)
  }

  // ----- Placements of the blocks -----

  /** Rows `r0..r1` by columns `c0..c1`. */
  datatype Box = Box(r0: int, r1: int, c0: int, c1: int)

  ghost predicate InBox(ps: seq<Placement>, b: Box) {
    forall j :: 0 <= j < |ps| ==> b.r0 <= ps[j].row <= b.r1 && b.c0 <= ps[j].col <= b.c1
  }

  predicate Apart(a: Box, b: Box) {
    a.r1 < b.r0 || b.r1 < a.r0 || a.c1 < b.c0 || b.c1 < a.c0
  }

  /** Two runs of placements in boxes that do not meet aim at different cells. */
  lemma DisjointConcat(a: seq<Placement>, b: seq<Placement>, ba: Box, bb: Box)
    requires DistinctPositions(a) && DistinctPositions(b) && InBox(a, ba) && InBox(b, bb) && Apart(ba, bb)
    ensures DistinctPositions(a + b)
  {
    var ab := a + b;
    forall i, j | 0 <= i < j < |ab|
      ensures (ab[i].row, ab[i].col) != (ab[j].row, ab[j].col)
    {
      if j < |a| {
        assert ab[i] == a[i] && ab[j] == a[j];
      } else if i >= |a| {
        assert ab[i] == b[i - |a|] && ab[j] == b[j - |a|];
      } else {
        assert ab[i] == a[i] && ab[j] == b[j - |a|];
      }
    }
  }

  lemma BoxConcat(a: seq<Placement>, b: seq<Placement>, bx: Box)
    requires InBox(a, bx) && InBox(b, bx)
    ensures InBox(a + b, bx)
  {
    forall j | 0 <= j < |a + b|
      ensures bx.r0 <= (a + b)[j].row <= bx.r1 && bx.c0 <= (a + b)[j].col <= bx.c1
    {
      if j >= |a| {
        assert (a + b)[j] == b[j - |a|];
      }
    }
  }

  lemma BoxConcat3(a: seq<Placement>, b: seq<Placement>, c: seq<Placement>, bx: Box)
    requires InBox(a, bx) && InBox(b, bx) && InBox(c, bx)
    ensures InBox(a + b + c, bx)
  {
    BoxConcat(a, b, bx);
    BoxConcat(a + b, c, bx);
  }

  /** A dict's keys, as cell values. */
  function KeyCells(d: Info): (ks: seq<Value>)
    ensures |ks| == |d|
    ensures forall i :: 0 <= i < |d| ==> ks[i] == Str(d[i].0)
  {
    seq(|d|, i requires 0 <= i < |d| => Str(d[i].0))
  }

  /** A dict's values, in order. */
  function ValuesOf(d: Info): (vs: seq<Value>)
    ensures |vs| == |d|
    ensures forall i :: 0 <= i < |d| ==> vs[i] == d[i].1
  {
    seq(|d|, i requires 0 <= i < |d| => d[i].1)
  }

  /** `convert_to_number` applied to each value. */
  function Converted(vs: seq<Value>): (cs: seq<Value>)
    ensures |cs| == |vs|
    ensures forall i :: 0 <= i < |vs| ==> cs[i] == ConvertToNumber(vs[i])
  {
    seq(|vs|, i requires 0 <= i < |vs| => ConvertToNumber(vs[i]))
  }

  /** Key i at (row0 + i, col) and its value beside it, pair by pair in order. */
  function DownPairs(keys: seq<Value>, vals: seq<Value>, row0: int, col: int): (ps: seq<Placement>)
    requires |keys| == |vals|
    ensures |ps| == 2 * |keys|
    decreases |keys|
  {
    if |keys| == 0 then []
    else [Placement(row0, col, keys[0]), Placement(row0, col + 1, vals[0])] + DownPairs(keys[1..], vals[1..], row0 + 1, col)
  }

  /** A run inside a box is inside any box around it. */
  lemma InBoxWiden(ps: seq<Placement>, b: Box, w: Box)
    requires InBox(ps, b) && w.r0 <= b.r0 && b.r1 <= w.r1 && w.c0 <= b.c0 && b.c1 <= w.c1
    ensures InBox(ps, w)
  {
  }

  /** A run is its first pair followed by the others. */
  lemma PairThenRest(x: Placement, y: Placement, rest: seq<Placement>, bx: Box, b: Box, w: Box)
    requires x.row == y.row == bx.r0 == bx.r1 && x.col == bx.c0 && y.col == bx.c1 && x.col < y.col
    requires InBox(rest, b) && DistinctPositions(rest) && Apart(bx, b)
    requires w.r0 <= bx.r0 && w.r0 <= b.r0 && bx.r1 <= w.r1 && b.r1 <= w.r1
    requires w.c0 <= bx.c0 && w.c0 <= b.c0 && bx.c1 <= w.c1 && b.c1 <= w.c1
    ensures InBox([x, y] + rest, w) && DistinctPositions([x, y] + rest)
  {
    DisjointConcat([x, y], rest, bx, b);
    InBoxWiden([x, y], bx, w);
    InBoxWiden(rest, b, w);
    BoxConcat([x, y], rest, w);
  }

  /** The pairs fill two adjacent columns from `row0` down, each cell once. */
  lemma {:induction false} DownPairsShape(keys: seq<Value>, vals: seq<Value>, row0: int, col: int)
    requires |keys| == |vals|
    ensures InBox(DownPairs(keys, vals, row0, col), Box(row0, row0 + |keys| - 1, col, col + 1))
    ensures DistinctPositions(DownPairs(keys, vals, row0, col))
    decreases |keys|
  {
    if |keys| > 0 {
      var rest := DownPairs(keys[1..], vals[1..], row0 + 1, col);
      DownPairsShape(keys[1..], vals[1..], row0 + 1, col);
      PairThenRest(Placement(row0, col, keys[0]), Placement(row0, col + 1, vals[0]), rest,
                   Box(row0, row0, col, col + 1), Box(row0 + 1, row0 + |keys| - 1, col, col + 1),
                   Box(row0, row0 + |keys| - 1, col, col + 1));
    }
  }

  lemma {:induction false} DownPairsAt(keys: seq<Value>, vals: seq<Value>, row0: int, col: int, i: int)
    requires |keys| == |vals| && 0 <= i < |keys|
    ensures DownPairs(keys, vals, row0, col)[2 * i] == Placement(row0 + i, col, keys[i])
    ensures DownPairs(keys, vals, row0, col)[2 * i + 1] == Placement(row0 + i, col + 1, vals[i])
    decreases |keys|
  {
    if i > 0 {
      var rest := DownPairs(keys[1..], vals[1..], row0 + 1, col);
      DownPairsAt(keys[1..], vals[1..], row0 + 1, col, i - 1);
      assert DownPairs(keys, vals, row0, col)[2 * i] == rest[2 * (i - 1)];
      assert DownPairs(keys, vals, row0, col)[2 * i + 1] == rest[2 * (i - 1) + 1];
    }
  }

  /** Pair `j` of a run of down-pairs sitting between `pre` and `post`. */
  lemma RunAt(ps: seq<Placement>, pre: seq<Placement>, keys: seq<Value>, vals: seq<Value>, post: seq<Placement>,
              row0: int, col: int, j: int, at: int, row: int, col2: int, key: Value, val: Value)
    requires |keys| == |vals| && 0 <= j < |keys|
    requires ps == pre + DownPairs(keys, vals, row0, col) + post
    requires at == |pre| + 2 * j && row == row0 + j && col2 == col + 1 && key == keys[j] && val == vals[j]
    ensures 0 <= at && at + 1 < |ps|
    ensures ps[at] == Placement(row, col, key) && ps[at + 1] == Placement(row, col2, val)
  {
    var run := DownPairs(keys, vals, row0, col);
    DownPairsAt(keys, vals, row0, col, j);
    assert ps[at] == run[2 * j];
    assert ps[at + 1] == run[2 * j + 1];
  }

  /** Key i at (row0, col0 + i) and its value below it, pair by pair in order. */
  function AcrossPairs(keys: seq<Value>, vals: seq<Value>, row0: int, col0: int): (ps: seq<Placement>)
    requires |keys| == |vals|
    ensures |ps| == 2 * |keys|
    decreases |keys|
  {
    if |keys| == 0 then []
    else [Placement(row0, col0, keys[0]), Placement(row0 + 1, col0, vals[0])] + AcrossPairs(keys[1..], vals[1..], row0, col0 + 1)
  }

  /** The pairs fill two adjacent rows from `col0` rightwards, each cell once. */
  lemma {:induction false} AcrossPairsShape(keys: seq<Value>, vals: seq<Value>, row0: int, col0: int)
    requires |keys| == |vals|
    ensures InBox(AcrossPairs(keys, vals, row0, col0), Box(row0, row0 + 1, col0, col0 + |keys| - 1))
    ensures DistinctPositions(AcrossPairs(keys, vals, row0, col0))
    decreases |keys|
  {
    if |keys| > 0 {
      var x := Placement(row0, col0, keys[0]);
      var y := Placement(row0 + 1, col0, vals[0]);
      var rest := AcrossPairs(keys[1..], vals[1..], row0, col0 + 1);
      var bx := Box(row0, row0 + 1, col0, col0);
      var b := Box(row0, row0 + 1, col0 + 1, col0 + |keys| - 1);
      var w := Box(row0, row0 + 1, col0, col0 + |keys| - 1);
      AcrossPairsShape(keys[1..], vals[1..], row0, col0 + 1);
      assert DistinctPositions([x, y]) && InBox([x, y], bx);
      DisjointConcat([x, y], rest, bx, b);
      InBoxWiden([x, y], bx, w);
      InBoxWiden(rest, b, w);
      BoxConcat([x, y], rest, w);
    }
  }

  lemma {:induction false} AcrossPairsAt(keys: seq<Value>, vals: seq<Value>, row0: int, col0: int, i: int)
    requires |keys| == |vals| && 0 <= i < |keys|
    ensures AcrossPairs(keys, vals, row0, col0)[2 * i] == Placement(row0, col0 + i, keys[i])
    ensures AcrossPairs(keys, vals, row0, col0)[2 * i + 1] == Placement(row0 + 1, col0 + i, vals[i])
    decreases |keys|
  {
    if i > 0 {
      var rest := AcrossPairs(keys[1..], vals[1..], row0, col0 + 1);
      AcrossPairsAt(keys[1..], vals[1..], row0, col0 + 1, i - 1);
      assert AcrossPairs(keys, vals, row0, col0)[2 * i] == rest[2 * (i - 1)];
      assert AcrossPairs(keys, vals, row0, col0)[2 * i + 1] == rest[2 * (i - 1) + 1];
    }
  }


  /** A general-information value: only the ambient temperature goes through `convert_to_number`. */
  function GeneralValue(entry: (string, Value)): Value {
    if entry.0 == AmbientTempLabel then ConvertToNumber(entry.1) else entry.1
  }

  function GeneralValues(gi: Info): (vs: seq<Value>)
    ensures |vs| == |gi|
    ensures forall i :: 0 <= i < |gi| ==> vs[i] == GeneralValue(gi[i])
  {
    seq(|gi|, i requires 0 <= i < |gi| => GeneralValue(gi[i]))
  }

  /** Two rows of general info at most: more would run into the string info. */
  predicate Compact(rec: Record) {
    |rec.generalInfo| <= 2
  }

  /** General info down columns A/B from row `s`, the string info from row
      `s + 2`, and the jar counts (converted) down columns C/D from row `s`. */
  function InfoCells(rec: Record, s: int): (ps: seq<Placement>)
    ensures forall j :: 0 <= j < |ps| ==> s <= ps[j].row && 1 <= ps[j].col <= 4
  {
    var gi := rec.generalInfo;
    var a := DownPairs(KeyCells(gi), GeneralValues(gi), s, 1);
    var b := DownPairs(KeyCells(rec.stringInfo), ValuesOf(rec.stringInfo), s + 2, 1);
    var c := DownPairs(KeyCells(rec.jarCells), Converted(ValuesOf(rec.jarCells)), s, 3);
    DownPairsShape(KeyCells(gi), GeneralValues(gi), s, 1);
    DownPairsShape(KeyCells(rec.stringInfo), ValuesOf(rec.stringInfo), s + 2, 1);
    DownPairsShape(KeyCells(rec.jarCells), Converted(ValuesOf(rec.jarCells)), s, 3);
    BoxConcat3(a, b, c, Box(s, s + |gi| + |rec.stringInfo| + |rec.jarCells| + 2, 1, 4));
    a + b + c
  }

  /** The deviation values as placed: converted, and those after the second converted once more. */
  function DeviationShown(rounded: seq<Value>): (vs: seq<Value>)
    ensures |vs| == |rounded|
  {
    seq(|rounded|, i requires 0 <= i < |rounded| =>
      if i < 2 then ConvertToNumber(rounded[i]) else ConvertToNumber(ConvertToNumber(rounded[i])))
  }

  /** The i-th shown threshold: converted once for the first two, twice after. */
  lemma DeviationShownAt(rounded: seq<Value>, i: int)
    requires 0 <= i < |rounded|
    ensures i < 2 ==> DeviationShown(rounded)[i] == ConvertToNumber(rounded[i])
    ensures 2 <= i ==> DeviationShown(rounded)[i] == ConvertToNumber(ConvertToNumber(rounded[i]))
  {
  }

  /** The deviation thresholds from row `s`: the first two down columns A/B,
      the rest down columns C/D from row `s` again (converted once more). */
  function DeviationCells(dev: Info, rounded: seq<Value>, s: int): (ps: seq<Placement>)
    requires |rounded| == |dev|
    ensures forall j :: 0 <= j < |ps| ==> s <= ps[j].row && 1 <= ps[j].col <= 4
  {
    var n := if |dev| < 2 then |dev| else 2;
    var shown := DeviationShown(rounded);
    var a := DownPairs(KeyCells(dev)[..n], shown[..n], s, 1);
    var b := DownPairs(KeyCells(dev)[n..], shown[n..], s, 3);
    DownPairsShape(KeyCells(dev)[..n], shown[..n], s, 1);
    DownPairsShape(KeyCells(dev)[n..], shown[n..], s, 3);
    BoxConcat(a, b, Box(s, s + |dev|, 1, 4));
    a + b
  }

  /** The baseline label and value in column A, rows `s` and `s + 1`, then the
      summary keys along row `s` from column B with their values below. */
  function SummaryCells(rec: Record, rounded: seq<Value>, s: int): (ps: seq<Placement>)
    requires |rounded| == |rec.tableSummary|
    ensures forall j :: 0 <= j < |ps| ==> s <= ps[j].row <= s + 1 && 1 <= ps[j].col
    ensures s >= 1 ==> OnSheet(ps)
  {
    var b := AcrossPairs(KeyCells(rec.tableSummary), Converted(rounded), s, 2);
    AcrossPairsShape(KeyCells(rec.tableSummary), Converted(rounded), s, 2);
    [Placement(s, 1, Str(BaselineLabel)), Placement(s + 1, 1, ConvertToNumber(rec.baseline))] + b
  }

  /** The header line of the cell table. */
  function HeaderCells(): (hs: seq<Value>)
    ensures |hs| == |CellHeaders|
    ensures forall j :: 0 <= j < |CellHeaders| ==> hs[j] == Str(CellHeaders[j])
  {
    seq(|CellHeaders|, j requires 0 <= j < |CellHeaders| => Str(CellHeaders[j]))
  }

  // ----- Cell rows -----

  /** `(k.lower(), v)` for every pair of a row whose keys are all present. */
  function LoweredPairs(entry: CellEntry): (ps: seq<(string, Value)>)
    requires forall i :: 0 <= i < |entry| ==> entry[i].0.Some?
    ensures |ps| == |entry|
    ensures forall i :: 0 <= i < |entry| ==> ps[i] == (Text.Lower(entry[i].0.value), entry[i].1)
  {
    seq(|entry|, i requires 0 <= i < |entry| => (Text.Lower(entry[i].0.value), entry[i].1))
  }

  /** How column `j` of the table shows a field's value. */
  function ShowField(j: int, v: Value): Value {
    if j == TimeColumn then v else ConvertToNumber(v)
  }

  /** One line of the cell table: the row with lower-cased keys, read at the
      seven fields (`""` when missing), every column but Time converted. */
  function CellRow(entry: CellEntry): (r: Result<seq<Value>>)
    ensures r.Err? <==> exists i :: 0 <= i < |entry| && entry[i].0.None?
    ensures r.Err? ==> r.error == UnnamedField
    ensures r.Ok? ==> |r.value| == |CellFields|
  {
    if exists i :: 0 <= i < |entry| && entry[i].0.None? then Err(UnnamedField)
    else
      var row := SetAll([], LoweredPairs(entry));
      Ok(seq(|CellFields|, j requires 0 <= j < |CellFields| =>
        ShowField(j, Get(row, CellFields[j]).GetOr(Str("")))))
  }

  // ----- One test -----

  /** The values of a test that are computed before they are placed and can fail. */
  datatype Prepared = Prepared(deviation: seq<Value>, summary: seq<Value>, rows: seq<seq<Value>>)

  function RoundValue(fmtG: Formatter): Value -> Result<Value> {
    v => RoundToSigFigs(v, SigFigs, fmtG)
  }

  /** The rounded deviation and summary values and the table lines of a record;
      a `None` value to round, or an unnamed field in a cell row, raises. */
  function Prepare(rec: Record, fmtG: Formatter): (r: Result<Prepared>)
    ensures r.Ok? <==>
              && (forall i :: 0 <= i < |rec.deviation| ==> !rec.deviation[i].1.Null?)
              && (forall i :: 0 <= i < |rec.tableSummary| ==> !rec.tableSummary[i].1.Null?)
              && (forall i :: 0 <= i < |rec.cellData| ==> CellRow(rec.cellData[i]).Ok?)
    ensures r.Ok? ==> PreparedFrom(rec, fmtG, r.value)
    ensures r.Err? ==> r.error == if (exists i :: 0 <= i < |rec.deviation| && rec.deviation[i].1.Null?)
                                    || (exists i :: 0 <= i < |rec.tableSummary| && rec.tableSummary[i].1.Null?)
                                 then RoundOfNone else UnnamedField
  {
    var dev :- MapAllOk(ValuesOf(rec.deviation), RoundValue(fmtG));
    var summary :- MapAllOk(ValuesOf(rec.tableSummary), RoundValue(fmtG));
    var rows :- MapAllOk(rec.cellData, CellRow);
    Ok(Prepared(dev, summary, rows))
  }

  /** `p` holds the record's rounded values and table lines, position by position. */
  ghost predicate PreparedFrom(rec: Record, fmtG: Formatter, p: Prepared) {
    && |p.deviation| == |rec.deviation|
    && (forall i :: 0 <= i < |rec.deviation| ==> RoundToSigFigs(rec.deviation[i].1, SigFigs, fmtG) == Ok(p.deviation[i]))
    && |p.summary| == |rec.tableSummary|
    && (forall i :: 0 <= i < |rec.tableSummary| ==> RoundToSigFigs(rec.tableSummary[i].1, SigFigs, fmtG) == Ok(p.summary[i]))
    && |p.rows| == |rec.cellData|
    && (forall i :: 0 <= i < |rec.cellData| ==> CellRow(rec.cellData[i]) == Ok(p.rows[i]))
  }

  /** The shape `Lay` needs of prepared values. */
  predicate Fits(rec: Record, p: Prepared) {
    && |p.deviation| == |rec.deviation| && |p.summary| == |rec.tableSummary|
    && forall k :: 0 <= k < |p.rows| ==> |p.rows[k]| == |CellFields|
  }

  /** General info, string info and jar counts two rows below `max_row`, then an empty `append`. */
  function InfoStep(sh: Sheet, rec: Record): (res: Sheet)
    requires sh.maxRow >= 0
    ensures res.maxRow >= sh.maxRow && res.maxCol >= sh.maxCol
  {
    Append(Puts(sh, InfoCells(rec, sh.maxRow + 2)), [])
  }

  /** The deviation thresholds two rows below `max_row`. */
  function DeviationStep(sh: Sheet, rec: Record, rounded: seq<Value>): (res: Sheet)
    requires sh.maxRow >= 0 && |rounded| == |rec.deviation|
    ensures res.maxRow >= sh.maxRow && res.maxCol >= sh.maxCol
  {
    Puts(sh, DeviationCells(rec.deviation, rounded, sh.maxRow + 2))
  }

  /** An empty row, the "Table Summary" row, and the baseline and summary figures below it. */
  function SummaryStep(sh: Sheet, rec: Record, rounded: seq<Value>): (res: Sheet)
    requires sh.maxRow >= 0 && |rounded| == |rec.tableSummary|
    ensures res.maxRow >= sh.maxRow && res.maxCol >= sh.maxCol
  {
    Puts(Titled(sh), SummaryCells(rec, rounded, Titled(sh).maxRow + 1))
  }

  /** The sheet after the empty row and the "Table Summary" row. */
  function Titled(sh: Sheet): Sheet {
    Append(Append(sh, []), [Str(TableSummaryLabel)])
  }

  /** An empty row, the header row and the table lines, then `ws.columns` (which fills the rectangle). */
  function TableStep(sh: Sheet, rows: seq<seq<Value>>): (res: Sheet)
    ensures res.maxRow >= sh.maxRow && res.maxCol >= sh.maxCol
  {
    FillColumns(AppendAll(Append(Append(sh, []), HeaderCells()), rows))
  }

  /** The body of the per-test loop, on the sheet the previous tests left. */
  function Lay(sh: Sheet, rec: Record, p: Prepared): (res: Sheet)
    requires sh.maxRow >= 0 && Fits(rec, p)
    ensures res.maxRow >= sh.maxRow && res.maxCol >= sh.maxCol
  {
    var info := InfoStep(sh, rec);
    var dev := DeviationStep(info, rec, p.deviation);
    TableStep(SummaryStep(dev, rec, p.summary), p.rows)
  }

  /** The tests in order, each on the sheet the ones before it left. */
  function LayAll(sh: Sheet, recs: seq<Record>, ps: seq<Prepared>): (res: Sheet)
    requires sh.maxRow >= 0 && |ps| == |recs|
    requires forall i :: 0 <= i < |recs| ==> Fits(recs[i], ps[i])
    ensures res.maxRow >= sh.maxRow && res.maxCol >= sh.maxCol
    decreases |recs|
  {
    if |recs| == 0 then sh
    else
      var n := |recs| - 1;
      Lay(LayAll(sh, recs[..n], ps[..n]), recs[n], ps[n])
  }

  // ----- The workbook -----

  /** Every test prepared in order, before anything is placed: the prepared
      values of all, or the error of the first that fails. */
  function PrepareAll(records: seq<Record>, fmtG: Formatter): (r: Result<seq<Prepared>>)
    ensures r.Ok? <==> forall i :: 0 <= i < |records| ==> Prepare(records[i], fmtG).Ok?
    ensures r.Ok? ==> |r.value| == |records| && forall i :: 0 <= i < |records| ==> Prepare(records[i], fmtG) == Ok(r.value[i])
    ensures r.Err? ==> exists i :: 0 <= i < |records| && Prepare(records[i], fmtG) == Err(r.error)
                                && forall j :: 0 <= j < i ==> Prepare(records[j], fmtG).Ok?
  {
    MapAllOk(records, rec => Prepare(rec, fmtG))
  }

  /** The sheet after cell A1 and the empty row below it. */
  function Start(formName: Value): Sheet {
    Append(Put(Fresh, 1, 1, Title(formName)), [])
  }

  /** `write_excel(formname, all_tests, …)`. The column widths are recomputed
      over the whole sheet after every test, so the last computation is the
      one saved. */
  function WriteExcel(formName: Value, records: seq<Record>, fmtG: Formatter, reprFloat: FloatRepr): (r: Result<Report>)
    ensures r.Ok? <==> forall i :: 0 <= i < |records| ==> Prepare(records[i], fmtG).Ok?
    ensures r.Err? ==> exists i :: 0 <= i < |records| && Prepare(records[i], fmtG) == Err(r.error)
                                && forall j :: 0 <= j < i ==> Prepare(records[j], fmtG).Ok?
    ensures r.Ok? ==> r.value.sheetName == SheetName
  {
    var ps :- PrepareAll(records, fmtG);
    var sh := LayAll(Start(formName), records, ps);
    Ok(Report(SheetName, sh, if |records| == 0 then [] else ColumnWidths(sh, reprFloat)))
  }
}

=== FILE: layout_props.dfy ===
/** Where `write_excel` puts things: each block of a test at its rows, blank
    rows between the blocks, nothing written earlier ever overwritten, the
    title kept in A1, and column widths that fit every cell. */
module LayoutProperties {
  import opened Wrappers
  import Text
  import opened Values
  import opened Coercion
  import opened AssocList
  import opened CellMerge
  import opened MultifileExtract
  import opened Worksheet
  import opened ReportLayout

  /** Cell (r, c) exists and holds `v`. */
  ghost predicate Holds(sh: Sheet, r: int, c: int, v: Value) {
    (r, c) in sh.cells && sh.cells[(r, c)] == v
  }

  /** From row `s`: general info keys and values in columns A/B (the ambient
      temperature converted), string info two rows further down, and the jar
      counts, converted, in columns C/D. */
  ghost predicate InfoBlockAt(sh: Sheet, rec: Record, s: int) {
    GeneralAt(sh, rec.generalInfo, s) && StringAt(sh, rec.stringInfo, s + 2) && JarAt(sh, rec.jarCells, s)
  }

  ghost predicate GeneralAt(sh: Sheet, gi: Info, s: int) {
    forall i :: 0 <= i < |gi| ==> Holds(sh, s + i, 1, Str(gi[i].0)) && Holds(sh, s + i, 2, GeneralValue(gi[i]))
  }

  ghost predicate StringAt(sh: Sheet, si: Info, s: int) {
    forall i :: 0 <= i < |si| ==> Holds(sh, s + i, 1, Str(si[i].0)) && Holds(sh, s + i, 2, si[i].1)
  }

  ghost predicate JarAt(sh: Sheet, jar: Info, s: int) {
    forall i :: 0 <= i < |jar| ==> Holds(sh, s + i, 3, Str(jar[i].0)) && Holds(sh, s + i, 4, ConvertToNumber(jar[i].1))
  }

  /** From row `s`: the first two deviation keys and converted rounded values
      in columns A/B, the others from row `s` again in columns C/D. */
  ghost predicate DeviationBlockAt(sh: Sheet, dev: Info, rounded: seq<Value>, s: int)
    requires |rounded| == |dev|
  {
    && (forall i :: 0 <= i < |dev| && i < 2 ==>
          Holds(sh, s + i, 1, Str(dev[i].0)) && Holds(sh, s + i, 2, DeviationShown(rounded)[i]))
    && (forall i :: 2 <= i < |dev| ==>
          Holds(sh, s + i - 2, 3, Str(dev[i].0)) && Holds(sh, s + i - 2, 4, DeviationShown(rounded)[i]))
  }

  /** Row `s`: the baseline label, then the summary keys from column B; row
      `s + 1`: the converted baseline, then the converted rounded values. */
  ghost predicate SummaryBlockAt(sh: Sheet, rec: Record, rounded: seq<Value>, s: int)
    requires |rounded| == |rec.tableSummary|
  {
    && Holds(sh, s, 1, Str(BaselineLabel)) && Holds(sh, s + 1, 1, ConvertToNumber(rec.baseline))
    && (forall i :: 0 <= i < |rec.tableSummary| ==>
          Holds(sh, s, 2 + i, Str(rec.tableSummary[i].0)) && Holds(sh, s + 1, 2 + i, ConvertToNumber(rounded[i])))
  }

  /** Row `r` holds the seven table headers. */
  ghost predicate HeaderRowAt(sh: Sheet, r: int) {
    forall j :: 0 <= j < |CellHeaders| ==> Holds(sh, r, j + 1, Str(CellHeaders[j]))
  }

  /** The table lines on consecutive rows from `r0`. */
  ghost predicate CellRowsAt(sh: Sheet, rows: seq<seq<Value>>, r0: int) {
    forall k :: 0 <= k < |rows| ==> RowHolds(sh, r0 + k, rows[k])
  }

  // ----- The placements, position by position -----

  lemma ConcatLeft<T>(a: seq<T>, b: seq<T>, k: int)
    requires 0 <= k < |a|
    ensures (a + b)[k] == a[k]
  {
  }

  lemma ConcatRight<T>(a: seq<T>, b: seq<T>, k: int)
    requires 0 <= k < |b|
    ensures (a + b)[|a| + k] == b[k]
  {
  }

  /** The three down-pair runs that make up the info block. */
  lemma InfoCellsSplit(rec: Record, s: int)
    ensures var a := DownPairs(KeyCells(rec.generalInfo), GeneralValues(rec.generalInfo), s, 1);
            var b := DownPairs(KeyCells(rec.stringInfo), ValuesOf(rec.stringInfo), s + 2, 1);
            var c := DownPairs(KeyCells(rec.jarCells), Converted(ValuesOf(rec.jarCells)), s, 3);
            && InfoCells(rec, s) == (a + b) + c
            && |a| == 2 * |rec.generalInfo| && |a + b| == 2 * |rec.generalInfo| + 2 * |rec.stringInfo|
            && |InfoCells(rec, s)| == 2 * |rec.generalInfo| + 2 * |rec.stringInfo| + 2 * |rec.jarCells|
  {
  }

  /** Where the i-th general info entry is placed. */
  lemma InfoGeneralAt(rec: Record, s: int, i: int)
    requires 0 <= i < |rec.generalInfo|
    ensures 2 * i + 1 < |InfoCells(rec, s)|
    ensures InfoCells(rec, s)[2 * i] == Placement(s + i, 1, Str(rec.generalInfo[i].0))
    ensures InfoCells(rec, s)[2 * i + 1] == Placement(s + i, 2, GeneralValue(rec.generalInfo[i]))
  {
    var gi := rec.generalInfo;
    var a := DownPairs(KeyCells(gi), GeneralValues(gi), s, 1);
    var b := DownPairs(KeyCells(rec.stringInfo), ValuesOf(rec.stringInfo), s + 2, 1);
    var c := DownPairs(KeyCells(rec.jarCells), Converted(ValuesOf(rec.jarCells)), s, 3);
    InfoCellsSplit(rec, s);
    ConcatLeft(a + b, c, 2 * i);
    ConcatLeft(a + b, c, 2 * i + 1);
    ConcatLeft(a, b, 2 * i);
    ConcatLeft(a, b, 2 * i + 1);
    DownPairsAt(KeyCells(gi), GeneralValues(gi), s, 1, i);
  }

  /** Where the i-th string info entry is placed. */
  lemma InfoStringAt(rec: Record, s: int, i: int)
    requires 0 <= i < |rec.stringInfo|
    ensures var k := 2 * |rec.generalInfo| + 2 * i;
            && k + 1 < |InfoCells(rec, s)|
            && InfoCells(rec, s)[k] == Placement(s + 2 + i, 1, Str(rec.stringInfo[i].0))
            && InfoCells(rec, s)[k + 1] == Placement(s + 2 + i, 2, rec.stringInfo[i].1)
  {
    var gi := rec.generalInfo;
    var a := DownPairs(KeyCells(gi), GeneralValues(gi), s, 1);
    var b := DownPairs(KeyCells(rec.stringInfo), ValuesOf(rec.stringInfo), s + 2, 1);
    var c := DownPairs(KeyCells(rec.jarCells), Converted(ValuesOf(rec.jarCells)), s, 3);
    InfoCellsSplit(rec, s);
    ConcatLeft(a + b, c, |a| + 2 * i);
    ConcatLeft(a + b, c, |a| + 2 * i + 1);
    ConcatRight(a, b, 2 * i);
    ConcatRight(a, b, 2 * i + 1);
    DownPairsAt(KeyCells(rec.stringInfo), ValuesOf(rec.stringInfo), s + 2, 1, i);
  }

  /** Where the i-th jar entry is placed. */
  lemma InfoJarAt(rec: Record, s: int, i: int)
    requires 0 <= i < |rec.jarCells|
    ensures var k := 2 * |rec.generalInfo| + 2 * |rec.stringInfo| + 2 * i;
            && k + 1 < |InfoCells(rec, s)|
            && InfoCells(rec, s)[k] == Placement(s + i, 3, Str(rec.jarCells[i].0))
            && InfoCells(rec, s)[k + 1] == Placement(s + i, 4, ConvertToNumber(rec.jarCells[i].1))
  {
    var gi := rec.generalInfo;
    var a := DownPairs(KeyCells(gi), GeneralValues(gi), s, 1);
    var b := DownPairs(KeyCells(rec.stringInfo), ValuesOf(rec.stringInfo), s + 2, 1);
    var c := DownPairs(KeyCells(rec.jarCells), Converted(ValuesOf(rec.jarCells)), s, 3);
    InfoCellsSplit(rec, s);
    ConcatRight(a + b, c, 2 * i);
    ConcatRight(a + b, c, 2 * i + 1);
    DownPairsAt(KeyCells(rec.jarCells), Converted(ValuesOf(rec.jarCells)), s, 3, i);
  }

  lemma InfoCellsDistinct(rec: Record, s: int)
    requires Compact(rec)
    ensures DistinctPositions(InfoCells(rec, s))
  {
    var gi := rec.generalInfo;
    var a := DownPairs(KeyCells(gi), GeneralValues(gi), s, 1);
    var b := DownPairs(KeyCells(rec.stringInfo), ValuesOf(rec.stringInfo), s + 2, 1);
    var c := DownPairs(KeyCells(rec.jarCells), Converted(ValuesOf(rec.jarCells)), s, 3);
    assert InfoCells(rec, s) == a + b + c;
    DownPairsShape(KeyCells(gi), GeneralValues(gi), s, 1);
    DownPairsShape(KeyCells(rec.stringInfo), ValuesOf(rec.stringInfo), s + 2, 1);
    DownPairsShape(KeyCells(rec.jarCells), Converted(ValuesOf(rec.jarCells)), s, 3);
    DisjointConcat(a, b, Box(s, s + |gi| - 1, 1, 2), Box(s + 2, s + 2 + |rec.stringInfo| - 1, 1, 2));
    var hi := s + 2 + |rec.stringInfo|;
    BoxConcat(a, b, Box(s, hi, 1, 2));
    DisjointConcat(a + b, c, Box(s, hi, 1, 2), Box(s, s + |rec.jarCells| - 1, 3, 4));
  }

  /** Where the i-th deviation entry is placed. */
  lemma DeviationCellsAt(dev: Info, rounded: seq<Value>, s: int, i: int)
    requires |rounded| == |dev| && 0 <= i < |dev|
    ensures var ps := DeviationCells(dev, rounded, s);
            && |ps| == 2 * |dev|
            && (i < 2 ==>
                  ps[2 * i] == Placement(s + i, 1, Str(dev[i].0))
                  && ps[2 * i + 1] == Placement(s + i, 2, DeviationShown(rounded)[i]))
            && (2 <= i ==>
                  ps[2 * i] == Placement(s + i - 2, 3, Str(dev[i].0))
                  && ps[2 * i + 1] == Placement(s + i - 2, 4, DeviationShown(rounded)[i]))
  {
    if i < 2 {
      DeviationNearAt(dev, rounded, s, i);
    } else {
      DeviationFarAt(dev, rounded, s, i);
    }
  }

  /** The split of the deviation placements into the A/B run and the C/D run. */
  lemma DeviationCellsSplit(dev: Info, rounded: seq<Value>, s: int)
    requires |rounded| == |dev|
    ensures var n := if |dev| < 2 then |dev| else 2;
            var shown := DeviationShown(rounded);
            && DeviationCells(dev, rounded, s) == [] + DownPairs(KeyCells(dev)[..n], shown[..n], s, 1) + DownPairs(KeyCells(dev)[n..], shown[n..], s, 3)
            && DeviationCells(dev, rounded, s) == DownPairs(KeyCells(dev)[..n], shown[..n], s, 1) + DownPairs(KeyCells(dev)[n..], shown[n..], s, 3) + []
            && |DeviationCells(dev, rounded, s)| == 2 * |dev|
  {
    var n := if |dev| < 2 then |dev| else 2;
    var shown := DeviationShown(rounded);
    var a := DownPairs(KeyCells(dev)[..n], shown[..n], s, 1);
    var b := DownPairs(KeyCells(dev)[n..], shown[n..], s, 3);
    assert [] + a + b == a + b;
    assert a + b + [] == a + b;
  }

  lemma DeviationNearAt(dev: Info, rounded: seq<Value>, s: int, i: int)
    requires |rounded| == |dev| && 0 <= i < |dev| && i < 2
    ensures 2 * i + 1 < |DeviationCells(dev, rounded, s)|
    ensures DeviationCells(dev, rounded, s)[2 * i] == Placement(s + i, 1, Str(dev[i].0))
    ensures DeviationCells(dev, rounded, s)[2 * i + 1] == Placement(s + i, 2, DeviationShown(rounded)[i])
  {
    var n := if |dev| < 2 then |dev| else 2;
    var shown := DeviationShown(rounded);
    DeviationCellsSplit(dev, rounded, s);
    assert KeyCells(dev)[..n][i] == Str(dev[i].0);
    assert shown[..n][i] == DeviationShown(rounded)[i];
    RunAt(DeviationCells(dev, rounded, s), [], KeyCells(dev)[..n], shown[..n], DownPairs(KeyCells(dev)[n..], shown[n..], s, 3),
          s, 1, i, 2 * i, s + i, 2, Str(dev[i].0), DeviationShown(rounded)[i]);
  }

  lemma DeviationFarAt(dev: Info, rounded: seq<Value>, s: int, i: int)
    requires |rounded| == |dev| && 2 <= i < |dev|
    ensures 2 * i + 1 < |DeviationCells(dev, rounded, s)|
    ensures DeviationCells(dev, rounded, s)[2 * i] == Placement(s + i - 2, 3, Str(dev[i].0))
    ensures DeviationCells(dev, rounded, s)[2 * i + 1] == Placement(s + i - 2, 4, DeviationShown(rounded)[i])
  {
    var shown := DeviationShown(rounded);
    var j := i - 2;
    DeviationCellsSplit(dev, rounded, s);
    assert KeyCells(dev)[2..][j] == Str(dev[i].0);
    assert shown[2..][j] == DeviationShown(rounded)[i];
    RunAt(DeviationCells(dev, rounded, s), DownPairs(KeyCells(dev)[..2], shown[..2], s, 1), KeyCells(dev)[2..], shown[2..], [],
          s, 3, j, 2 * i, s + i - 2, 4, Str(dev[i].0), DeviationShown(rounded)[i]);
  }

  lemma DeviationCellsDistinct(dev: Info, rounded: seq<Value>, s: int)
    requires |rounded| == |dev|
    ensures DistinctPositions(DeviationCells(dev, rounded, s))
  {
    var n := if |dev| < 2 then |dev| else 2;
    var shown := DeviationShown(rounded);
    var a := DownPairs(KeyCells(dev)[..n], shown[..n], s, 1);
    var b := DownPairs(KeyCells(dev)[n..], shown[n..], s, 3);
    assert DeviationCells(dev, rounded, s) == a + b;
    DownPairsShape(KeyCells(dev)[..n], shown[..n], s, 1);
    DownPairsShape(KeyCells(dev)[n..], shown[n..], s, 3);
    DisjointConcat(a, b, Box(s, s + n - 1, 1, 2), Box(s, s + |dev| - n - 1, 3, 4));
  }

  /** The baseline pair first, then the i-th summary entry. */
  lemma SummaryCellsAt(rec: Record, rounded: seq<Value>, s: int, i: int)
    requires |rounded| == |rec.tableSummary| && 0 <= i
    ensures var ps := SummaryCells(rec, rounded, s);
            && |ps| == 2 + 2 * |rec.tableSummary|
            && ps[0] == Placement(s, 1, Str(BaselineLabel)) && ps[1] == Placement(s + 1, 1, ConvertToNumber(rec.baseline))
            && (i < |rec.tableSummary| ==>
                  ps[2 + 2 * i] == Placement(s, 2 + i, Str(rec.tableSummary[i].0))
                  && ps[3 + 2 * i] == Placement(s + 1, 2 + i, ConvertToNumber(rounded[i])))
  {
    var b := AcrossPairs(KeyCells(rec.tableSummary), Converted(rounded), s, 2);
    var a := [Placement(s, 1, Str(BaselineLabel)), Placement(s + 1, 1, ConvertToNumber(rec.baseline))];
    assert SummaryCells(rec, rounded, s) == a + b;
    if i < |rec.tableSummary| {
      ConcatRight(a, b, 2 * i);
      ConcatRight(a, b, 2 * i + 1);
      AcrossPairsAt(KeyCells(rec.tableSummary), Converted(rounded), s, 2, i);
    }
  }

  lemma SummaryCellsDistinct(rec: Record, rounded: seq<Value>, s: int)
    requires |rounded| == |rec.tableSummary|
    ensures DistinctPositions(SummaryCells(rec, rounded, s))
  {
    var b := AcrossPairs(KeyCells(rec.tableSummary), Converted(rounded), s, 2);
    var a := [Placement(s, 1, Str(BaselineLabel)), Placement(s + 1, 1, ConvertToNumber(rec.baseline))];
    assert SummaryCells(rec, rounded, s) == a + b;
    AcrossPairsShape(KeyCells(rec.tableSummary), Converted(rounded), s, 2);
    DisjointConcat(a, b, Box(s, s + 1, 1, 1), Box(s, s + 1, 2, 2 + |rec.tableSummary| - 1));
  }

  /** A placement aimed at a fresh cell is what that cell holds afterwards. */
  lemma PlacedHolds(sh: Sheet, ps: seq<Placement>, k: int, r: int, c: int, v: Value)
    requires FreshTargets(sh, ps) && 0 <= k < |ps| && ps[k] == Placement(r, c, v)
    ensures Holds(Puts(sh, ps), r, c, v)
  {
    PlacedAt(sh, ps, k);
  }

  // ----- What later writes keep -----

  lemma HoldsKept(a: Sheet, b: Sheet, r: int, c: int, v: Value)
    requires Extends(a, b) && Holds(a, r, c, v)
    ensures Holds(b, r, c, v)
  {
  }

  lemma InfoBlockKept(a: Sheet, b: Sheet, rec: Record, s: int)
    requires Extends(a, b) && InfoBlockAt(a, rec, s)
    ensures InfoBlockAt(b, rec, s)
  {
    forall i | 0 <= i < |rec.generalInfo|
      ensures Holds(b, s + i, 1, Str(rec.generalInfo[i].0)) && Holds(b, s + i, 2, GeneralValue(rec.generalInfo[i]))
    {
      HoldsKept(a, b, s + i, 1, Str(rec.generalInfo[i].0));
      HoldsKept(a, b, s + i, 2, GeneralValue(rec.generalInfo[i]));
    }
    forall i | 0 <= i < |rec.stringInfo|
      ensures Holds(b, s + 2 + i, 1, Str(rec.stringInfo[i].0)) && Holds(b, s + 2 + i, 2, rec.stringInfo[i].1)
    {
      HoldsKept(a, b, s + 2 + i, 1, Str(rec.stringInfo[i].0));
      HoldsKept(a, b, s + 2 + i, 2, rec.stringInfo[i].1);
    }
    forall i | 0 <= i < |rec.jarCells|
      ensures Holds(b, s + i, 3, Str(rec.jarCells[i].0)) && Holds(b, s + i, 4, ConvertToNumber(rec.jarCells[i].1))
    {
      HoldsKept(a, b, s + i, 3, Str(rec.jarCells[i].0));
      HoldsKept(a, b, s + i, 4, ConvertToNumber(rec.jarCells[i].1));
    }
  }

  lemma DeviationBlockKept(a: Sheet, b: Sheet, dev: Info, rounded: seq<Value>, s: int)
    requires |rounded| == |dev| && Extends(a, b) && DeviationBlockAt(a, dev, rounded, s)
    ensures DeviationBlockAt(b, dev, rounded, s)
  {
    forall i | 0 <= i < |dev| && i < 2
      ensures Holds(b, s + i, 1, Str(dev[i].0)) && Holds(b, s + i, 2, DeviationShown(rounded)[i])
    {
      HoldsKept(a, b, s + i, 1, Str(dev[i].0));
      HoldsKept(a, b, s + i, 2, DeviationShown(rounded)[i]);
    }
    forall i | 2 <= i < |dev|
      ensures Holds(b, s + i - 2, 3, Str(dev[i].0)) && Holds(b, s + i - 2, 4, DeviationShown(rounded)[i])
    {
      HoldsKept(a, b, s + i - 2, 3, Str(dev[i].0));
      HoldsKept(a, b, s + i - 2, 4, DeviationShown(rounded)[i]);
    }
  }

  lemma SummaryBlockKept(a: Sheet, b: Sheet, rec: Record, rounded: seq<Value>, s: int)
    requires |rounded| == |rec.tableSummary| && Extends(a, b) && SummaryBlockAt(a, rec, rounded, s)
    ensures SummaryBlockAt(b, rec, rounded, s)
  {
    HoldsKept(a, b, s, 1, Str(BaselineLabel));
    HoldsKept(a, b, s + 1, 1, ConvertToNumber(rec.baseline));
    forall i | 0 <= i < |rec.tableSummary|
      ensures Holds(b, s, 2 + i, Str(rec.tableSummary[i].0)) && Holds(b, s + 1, 2 + i, ConvertToNumber(rounded[i]))
    {
      HoldsKept(a, b, s, 2 + i, Str(rec.tableSummary[i].0));
      HoldsKept(a, b, s + 1, 2 + i, ConvertToNumber(rounded[i]));
    }
  }

  lemma HeaderRowKept(a: Sheet, b: Sheet, r: int)
    requires Extends(a, b) && HeaderRowAt(a, r)
    ensures HeaderRowAt(b, r)
  {
    forall j | 0 <= j < |CellHeaders|
      ensures Holds(b, r, j + 1, Str(CellHeaders[j]))
    {
      HoldsKept(a, b, r, j + 1, Str(CellHeaders[j]));
    }
  }

  lemma CellRowsKept(a: Sheet, b: Sheet, rows: seq<seq<Value>>, r0: int)
    requires Extends(a, b) && CellRowsAt(a, rows, r0)
    ensures CellRowsAt(b, rows, r0)
  {
    forall k | 0 <= k < |rows|
      ensures RowHolds(b, r0 + k, rows[k])
    {
      RowHoldsKept(a, b, r0 + k, rows[k]);
    }
  }

  // ----- Table lines -----

  /** Some pair of the row has a key that lower-cases to `f`. */
  predicate HasField(entry: CellEntry, f: string)
    requires forall i :: 0 <= i < |entry| ==> entry[i].0.Some?
  {
    exists i :: 0 <= i < |entry| && Text.Lower(entry[i].0.value) == f
  }

  /** Column `j` of a table line shows the value of the LAST pair whose key
      lower-cases to the column's field (later keys overwrite earlier ones in
      the lower-cased dict), or `""` when there is none; converted unless it
      is the Time column. */
  lemma CellRowReads(entry: CellEntry, j: int)
    requires CellRow(entry).Ok? && 0 <= j < |CellFields|
    ensures forall i :: 0 <= i < |entry| ==> entry[i].0.Some?
    ensures HasField(entry, CellFields[j]) ==>
              exists i :: && 0 <= i < |entry| && Text.Lower(entry[i].0.value) == CellFields[j]
                          && CellRow(entry).value[j] == ShowField(j, entry[i].1)
                          && forall k :: i < k < |entry| ==> Text.Lower(entry[k].0.value) != CellFields[j]
    ensures !HasField(entry, CellFields[j]) ==> CellRow(entry).value[j] == ShowField(j, Str(""))
  {
    var f := CellFields[j];
    CellRowAt(entry, j);
    LoweredRead(entry, f);
    if HasField(entry, f) {
      var i :| && 0 <= i < |entry| && Text.Lower(entry[i].0.value) == f
               && Get(SetAll([], LoweredPairs(entry)), f) == Some(entry[i].1)
               && forall k :: i < k < |entry| ==> Text.Lower(entry[k].0.value) != f;
      assert CellRow(entry).value[j] == ShowField(j, entry[i].1);
    }
  }

  /** Column `j` of a table line reads the lower-cased row at the column's field. */
  lemma CellRowAt(entry: CellEntry, j: int)
    requires CellRow(entry).Ok? && 0 <= j < |CellFields|
    ensures forall i :: 0 <= i < |entry| ==> entry[i].0.Some?
    ensures CellRow(entry).value[j] == ShowField(j, Get(SetAll([], LoweredPairs(entry)), CellFields[j]).GetOr(Str("")))
  {
  }

  /** The lower-cased row holds, at `f`, the value of the last pair whose key
      lower-cases to `f`, and nothing when no key does. */
  lemma LoweredRead(entry: CellEntry, f: string)
    requires forall i :: 0 <= i < |entry| ==> entry[i].0.Some?
    ensures HasField(entry, f) ==>
              exists i :: && 0 <= i < |entry| && Text.Lower(entry[i].0.value) == f
                          && Get(SetAll([], LoweredPairs(entry)), f) == Some(entry[i].1)
                          && forall k :: i < k < |entry| ==> Text.Lower(entry[k].0.value) != f
    ensures !HasField(entry, f) ==> Get(SetAll([], LoweredPairs(entry)), f) == None
  {
    var ps := LoweredPairs(entry);
    if HasField(entry, f) {
      var w :| 0 <= w < |entry| && Text.Lower(entry[w].0.value) == f;
      assert ps[w].0 == f;
      assert f in Keys(ps);
      var v := GetLast(ps, f).value;
      var i :| 0 <= i < |ps| && ps[i] == (f, v) && forall k :: i < k < |ps| ==> ps[k].0 != f;
      assert Get(SetAll([], ps), f) == Some(entry[i].1);
    } else {
      assert forall i :: 0 <= i < |ps| ==> Keys(ps)[i] != f;
    }
  }
}

=== FILE: layout_steps.dfy ===
/** The steps of one test's layout, each on the sheet the previous one left. */
module LayoutSteps {
  import opened Wrappers
  import opened Values
  import opened Coercion
  import opened AssocList
  import opened CellMerge
  import opened MultifileExtract
  import opened Worksheet
  import opened ReportLayout
  import opened LayoutProperties

  /** The info block of a compact record aims at cells not yet written. */
  lemma InfoFresh(sh: Sheet, rec: Record, s: int)
    requires Wf(sh) && Compact(rec) && s > sh.maxRow
    ensures FreshTargets(sh, InfoCells(rec, s))
  {
    InfoCellsDistinct(rec, s);
    FreshBelow(sh, InfoCells(rec, s));
  }

  lemma GeneralPlaced(sh: Sheet, rec: Record, s: int)
    requires FreshTargets(sh, InfoCells(rec, s))
    ensures GeneralAt(Puts(sh, InfoCells(rec, s)), rec.generalInfo, s)
  {
    var ps := InfoCells(rec, s);
    forall i | 0 <= i < |rec.generalInfo|
      ensures Holds(Puts(sh, ps), s + i, 1, Str(rec.generalInfo[i].0))
      ensures Holds(Puts(sh, ps), s + i, 2, GeneralValue(rec.generalInfo[i]))
    {
      InfoGeneralAt(rec, s, i);
      PlacedHolds(sh, ps, 2 * i, s + i, 1, Str(rec.generalInfo[i].0));
      PlacedHolds(sh, ps, 2 * i + 1, s + i, 2, GeneralValue(rec.generalInfo[i]));
    }
  }

  lemma StringPlaced(sh: Sheet, rec: Record, s: int)
    requires FreshTargets(sh, InfoCells(rec, s))
    ensures StringAt(Puts(sh, InfoCells(rec, s)), rec.stringInfo, s + 2)
  {
    var ps := InfoCells(rec, s);
    forall i | 0 <= i < |rec.stringInfo|
      ensures Holds(Puts(sh, ps), s + 2 + i, 1, Str(rec.stringInfo[i].0))
      ensures Holds(Puts(sh, ps), s + 2 + i, 2, rec.stringInfo[i].1)
    {
      var k := 2 * |rec.generalInfo| + 2 * i;
      InfoStringAt(rec, s, i);
      PlacedHolds(sh, ps, k, s + 2 + i, 1, Str(rec.stringInfo[i].0));
      PlacedHolds(sh, ps, k + 1, s + 2 + i, 2, rec.stringInfo[i].1);
    }
  }

  lemma JarPlaced(sh: Sheet, rec: Record, s: int)
    requires FreshTargets(sh, InfoCells(rec, s))
    ensures JarAt(Puts(sh, InfoCells(rec, s)), rec.jarCells, s)
  {
    var ps := InfoCells(rec, s);
    forall i | 0 <= i < |rec.jarCells|
      ensures Holds(Puts(sh, ps), s + i, 3, Str(rec.jarCells[i].0))
      ensures Holds(Puts(sh, ps), s + i, 4, ConvertToNumber(rec.jarCells[i].1))
    {
      var k := 2 * |rec.generalInfo| + 2 * |rec.stringInfo| + 2 * i;
      InfoJarAt(rec, s, i);
      PlacedHolds(sh, ps, k, s + i, 3, Str(rec.jarCells[i].0));
      PlacedHolds(sh, ps, k + 1, s + i, 4, ConvertToNumber(rec.jarCells[i].1));
    }
  }

  lemma InfoBlockSameCells(a: Sheet, b: Sheet, rec: Record, s: int)
    requires a.cells == b.cells && InfoBlockAt(a, rec, s)
    ensures InfoBlockAt(b, rec, s)
  {
  }

  lemma InfoStepIs(sh: Sheet, rec: Record, s: int)
    requires sh.maxRow >= 0 && s == sh.maxRow + 2
    ensures InfoStep(sh, rec) == Append(Puts(sh, InfoCells(rec, s)), [])
  {
  }

  /** The info step writes only from two rows below `max_row` on, and
      nothing already written changes. */
  lemma InfoStepSheet(sh: Sheet, rec: Record, s: int)
    requires Wf(sh) && s == sh.maxRow + 2
    ensures Wf(InfoStep(sh, rec)) && AddsFrom(sh, InfoStep(sh, rec), s)
    ensures InfoStep(sh, rec).cursor > sh.cursor
  {
    InfoStepIs(sh, rec, s);
    PutsThenBlankRow(sh, InfoCells(rec, s), s);
  }

  /** A compact record's info block lands two rows below `max_row`. */
  lemma InfoStepBlock(sh: Sheet, rec: Record, s: int)
    requires Wf(sh) && Compact(rec) && s == sh.maxRow + 2
    ensures InfoBlockAt(InfoStep(sh, rec), rec, s)
  {
    InfoStepIs(sh, rec, s);
    PutsThenBlankRow(sh, InfoCells(rec, s), s);
    InfoFresh(sh, rec, s);
    GeneralPlaced(sh, rec, s);
    StringPlaced(sh, rec, s);
    JarPlaced(sh, rec, s);
    InfoBlockSameCells(Puts(sh, InfoCells(rec, s)), InfoStep(sh, rec), rec, s);
  }

  /** The info step adds nothing outside its placements but empty cells. */
  lemma InfoStepOnly(sh: Sheet, rec: Record, s: int)
    requires sh.maxRow >= 0 && s == sh.maxRow + 2
    ensures AddsOnly(sh, InfoStep(sh, rec), Positions(InfoCells(rec, s)))
  {
    InfoStepIs(sh, rec, s);
    PutsOnly(sh, InfoCells(rec, s));
  }

  // ----- Deviation thresholds -----

  lemma DeviationStepIs(sh: Sheet, rec: Record, rounded: seq<Value>, s: int)
    requires sh.maxRow >= 0 && |rounded| == |rec.deviation| && s == sh.maxRow + 2
    ensures DeviationStep(sh, rec, rounded) == Puts(sh, DeviationCells(rec.deviation, rounded, s))
  {
  }

  /** The deviation step writes only from two rows below `max_row` on. */
  lemma DeviationStepSheet(sh: Sheet, rec: Record, rounded: seq<Value>, s: int)
    requires Wf(sh) && |rounded| == |rec.deviation| && s == sh.maxRow + 2
    ensures Wf(DeviationStep(sh, rec, rounded)) && AddsFrom(sh, DeviationStep(sh, rec, rounded), s)
    ensures DeviationStep(sh, rec, rounded).cursor >= sh.cursor
  {
    DeviationStepIs(sh, rec, rounded, s);
    PutsAdds(sh, DeviationCells(rec.deviation, rounded, s), s);
  }

  /** The first two thresholds, in columns A/B. */
  lemma DeviationNearPlaced(sh: Sheet, dev: Info, rounded: seq<Value>, s: int, i: int)
    requires |rounded| == |dev| && FreshTargets(sh, DeviationCells(dev, rounded, s))
    requires 0 <= i < |dev| && i < 2
    ensures Holds(Puts(sh, DeviationCells(dev, rounded, s)), s + i, 1, Str(dev[i].0))
    ensures Holds(Puts(sh, DeviationCells(dev, rounded, s)), s + i, 2, DeviationShown(rounded)[i])
  {
    var ps := DeviationCells(dev, rounded, s);
    DeviationNearAt(dev, rounded, s, i);
    PlacedHolds(sh, ps, 2 * i, s + i, 1, Str(dev[i].0));
    PlacedHolds(sh, ps, 2 * i + 1, s + i, 2, DeviationShown(rounded)[i]);
  }

  /** The others, from the same row on, in columns C/D. */
  lemma DeviationFarPlaced(sh: Sheet, dev: Info, rounded: seq<Value>, s: int, i: int)
    requires |rounded| == |dev| && FreshTargets(sh, DeviationCells(dev, rounded, s))
    requires 2 <= i < |dev|
    ensures Holds(Puts(sh, DeviationCells(dev, rounded, s)), s + i - 2, 3, Str(dev[i].0))
    ensures Holds(Puts(sh, DeviationCells(dev, rounded, s)), s + i - 2, 4, DeviationShown(rounded)[i])
  {
    var ps := DeviationCells(dev, rounded, s);
    DeviationFarAt(dev, rounded, s, i);
    PlacedHolds(sh, ps, 2 * i, s + i - 2, 3, Str(dev[i].0));
    PlacedHolds(sh, ps, 2 * i + 1, s + i - 2, 4, DeviationShown(rounded)[i]);
  }

  /** Placing the deviation block on cells not yet written. */
  lemma DeviationPlaced(sh: Sheet, dev: Info, rounded: seq<Value>, s: int)
    requires |rounded| == |dev| && FreshTargets(sh, DeviationCells(dev, rounded, s))
    ensures DeviationBlockAt(Puts(sh, DeviationCells(dev, rounded, s)), dev, rounded, s)
  {
    forall i | 0 <= i < |dev| && i < 2
      ensures Holds(Puts(sh, DeviationCells(dev, rounded, s)), s + i, 1, Str(dev[i].0))
      ensures Holds(Puts(sh, DeviationCells(dev, rounded, s)), s + i, 2, DeviationShown(rounded)[i])
    {
      DeviationNearPlaced(sh, dev, rounded, s, i);
    }
    forall i | 2 <= i < |dev|
      ensures Holds(Puts(sh, DeviationCells(dev, rounded, s)), s + i - 2, 3, Str(dev[i].0))
      ensures Holds(Puts(sh, DeviationCells(dev, rounded, s)), s + i - 2, 4, DeviationShown(rounded)[i])
    {
      DeviationFarPlaced(sh, dev, rounded, s, i);
    }
  }

  /** The deviation block lands two rows below `max_row`. */
  lemma DeviationStepBlock(sh: Sheet, rec: Record, rounded: seq<Value>, s: int)
    requires Wf(sh) && |rounded| == |rec.deviation| && s == sh.maxRow + 2
    ensures DeviationBlockAt(DeviationStep(sh, rec, rounded), rec.deviation, rounded, s)
  {
    DeviationStepIs(sh, rec, rounded, s);
    DeviationCellsDistinct(rec.deviation, rounded, s);
    FreshBelow(sh, DeviationCells(rec.deviation, rounded, s));
    DeviationPlaced(sh, rec.deviation, rounded, s);
  }

  /** The deviation step adds nothing outside its placements but empty cells. */
  lemma DeviationStepOnly(sh: Sheet, rec: Record, rounded: seq<Value>, s: int)
    requires sh.maxRow >= 0 && |rounded| == |rec.deviation| && s == sh.maxRow + 2
    ensures AddsOnly(sh, DeviationStep(sh, rec, rounded), Positions(DeviationCells(rec.deviation, rounded, s)))
  {
    DeviationStepIs(sh, rec, rounded, s);
    PutsOnly(sh, DeviationCells(rec.deviation, rounded, s));
  }

  // ----- Table summary -----

  /** The label sits two rows past the cursor, which it becomes, as does `max_row`. */
  lemma TitledFacts(sh: Sheet, t: int)
    requires Wf(sh) && t == sh.cursor + 2
    ensures Wf(Titled(sh)) && AddsFrom(sh, Titled(sh), t)
    ensures Titled(sh).cursor == t && Titled(sh).maxRow == t
    ensures Holds(Titled(sh), t, 1, Str(TableSummaryLabel))
  {
    var blank := Append(sh, []);
    var vals := [Str(TableSummaryLabel)];
    AppendWf(sh, []);
    AppendWf(blank, vals);
    assert vals[0] == Str(TableSummaryLabel);
    AppendAdds(blank, vals);
  }

  /** The i-th summary entry: its key on the first row, its value below. */
  lemma SummaryEntryPlaced(sh: Sheet, rec: Record, rounded: seq<Value>, s: int, i: int)
    requires |rounded| == |rec.tableSummary| && FreshTargets(sh, SummaryCells(rec, rounded, s))
    requires 0 <= i < |rec.tableSummary|
    ensures Holds(Puts(sh, SummaryCells(rec, rounded, s)), s, 2 + i, Str(rec.tableSummary[i].0))
    ensures Holds(Puts(sh, SummaryCells(rec, rounded, s)), s + 1, 2 + i, ConvertToNumber(rounded[i]))
  {
    SummaryCellsAt(rec, rounded, s, i);
    PlacedAt(sh, SummaryCells(rec, rounded, s), 2 + 2 * i);
    PlacedAt(sh, SummaryCells(rec, rounded, s), 3 + 2 * i);
  }

  /** Placing the summary block on cells not yet written. */
  lemma SummaryPlaced(sh: Sheet, rec: Record, rounded: seq<Value>, s: int)
    requires |rounded| == |rec.tableSummary| && FreshTargets(sh, SummaryCells(rec, rounded, s))
    ensures SummaryBlockAt(Puts(sh, SummaryCells(rec, rounded, s)), rec, rounded, s)
  {
    SummaryCellsAt(rec, rounded, s, 0);
    PlacedAt(sh, SummaryCells(rec, rounded, s), 0);
    PlacedAt(sh, SummaryCells(rec, rounded, s), 1);
    forall i | 0 <= i < |rec.tableSummary|
      ensures Holds(Puts(sh, SummaryCells(rec, rounded, s)), s, 2 + i, Str(rec.tableSummary[i].0))
      ensures Holds(Puts(sh, SummaryCells(rec, rounded, s)), s + 1, 2 + i, ConvertToNumber(rounded[i]))
    {
      SummaryEntryPlaced(sh, rec, rounded, s, i);
    }
  }

  /** The summary block below `max_row` aims at cells not yet written. */
  lemma SummaryFresh(sh: Sheet, rec: Record, rounded: seq<Value>, s: int)
    requires Wf(sh) && |rounded| == |rec.tableSummary| && s > sh.maxRow
    ensures FreshTargets(sh, SummaryCells(rec, rounded, s))
  {
    SummaryCellsDistinct(rec, rounded, s);
    FreshBelow(sh, SummaryCells(rec, rounded, s));
  }

  lemma SummaryAdds(sh: Sheet, rec: Record, rounded: seq<Value>, s: int)
    requires Wf(sh) && |rounded| == |rec.tableSummary| && s > sh.maxRow
    ensures AddsFrom(sh, Puts(sh, SummaryCells(rec, rounded, s)), s) && Wf(Puts(sh, SummaryCells(rec, rounded, s)))
  {
    PutsAdds(sh, SummaryCells(rec, rounded, s), s);
  }

  /** The summary block's lowest row is its second. */
  lemma SummaryReach(rec: Record, rounded: seq<Value>, s: int)
    requires |rounded| == |rec.tableSummary| && s >= 1
    ensures MaxRowOf(SummaryCells(rec, rounded, s)) == s + 1
  {
    SummaryCellsAt(rec, rounded, s, 0);
  }

  /** With `t` two rows past the cursor, nothing above `t` but empty cells
      is added; stated on the unfolded step, with `s == t + 1`. */
  lemma SummaryStepSheet(sh: Sheet, rec: Record, rounded: seq<Value>, t: int, s: int)
    requires Wf(sh) && |rounded| == |rec.tableSummary| && t == sh.cursor + 2 && s == t + 1
    ensures Wf(Puts(Titled(sh), SummaryCells(rec, rounded, s)))
    ensures AddsFrom(sh, Puts(Titled(sh), SummaryCells(rec, rounded, s)), t)
  {
    var ps := SummaryCells(rec, rounded, s);
    TitledFacts(sh, t);
    SummaryAdds(Titled(sh), rec, rounded, s);
    AddsFromTrans(sh, Titled(sh), Puts(Titled(sh), ps), t, s);
  }

  /** The same, on the step itself. */
  lemma SummaryStepAdds(sh: Sheet, rec: Record, rounded: seq<Value>, t: int)
    requires Wf(sh) && |rounded| == |rec.tableSummary| && t == sh.cursor + 2
    ensures Wf(SummaryStep(sh, rec, rounded)) && AddsFrom(sh, SummaryStep(sh, rec, rounded), t)
  {
    TitledFacts(sh, t);
    SummaryStepSheet(sh, rec, rounded, t, Titled(sh).maxRow + 1);
  }

  /** ... and the label sits at row `t`. */
  lemma SummaryStepLabel(sh: Sheet, rec: Record, rounded: seq<Value>, t: int)
    requires Wf(sh) && |rounded| == |rec.tableSummary| && t == sh.cursor + 2
    ensures Holds(SummaryStep(sh, rec, rounded), t, 1, Str(TableSummaryLabel))
  {
    var s := Titled(sh).maxRow + 1;
    var ps := SummaryCells(rec, rounded, s);
    TitledFacts(sh, t);
    SummaryAdds(Titled(sh), rec, rounded, s);
    HoldsKept(Titled(sh), Puts(Titled(sh), ps), t, 1, Str(TableSummaryLabel));
  }

  /** ... and the cursor ends two rows below the label. */
  lemma SummaryStepCursor(sh: Sheet, rec: Record, rounded: seq<Value>, t: int)
    requires Wf(sh) && |rounded| == |rec.tableSummary| && t == sh.cursor + 2
    ensures SummaryStep(sh, rec, rounded).cursor == t + 2
  {
    TitledFacts(sh, t);
    SummaryPutsCursor(Titled(sh), rec, rounded, t);
  }

  /** Placing the summary block on the row below the cursor leaves the
      cursor on the block's second row. */
  lemma SummaryPutsCursor(sh: Sheet, rec: Record, rounded: seq<Value>, t: int)
    requires Wf(sh) && |rounded| == |rec.tableSummary| && sh.cursor == t && sh.maxRow == t
    ensures Puts(sh, SummaryCells(rec, rounded, sh.maxRow + 1)).cursor == t + 2
  {
    var s := sh.maxRow + 1;
    SummaryFresh(sh, rec, rounded, s);
    PutsFreshBounds(sh, SummaryCells(rec, rounded, s));
    SummaryReach(rec, rounded, s);
  }

  /** The baseline and summary figures on the two rows below the label. */
  lemma SummaryStepBlock(sh: Sheet, rec: Record, rounded: seq<Value>, t: int)
    requires Wf(sh) && |rounded| == |rec.tableSummary| && t == sh.cursor + 2
    ensures SummaryBlockAt(SummaryStep(sh, rec, rounded), rec, rounded, t + 1)
  {
    var s := Titled(sh).maxRow + 1;
    TitledFacts(sh, t);
    SummaryFresh(Titled(sh), rec, rounded, s);
    SummaryPlaced(Titled(sh), rec, rounded, s);
  }

  /** The empty row and the label row add only the label's cell. */
  lemma TitledOnly(sh: Sheet, t: int)
    requires t == sh.cursor + 2
    ensures AddsOnly(sh, Titled(sh), {(t, 1)})
  {
    var blank := Append(sh, []);
    AppendOnly(blank, [Str(TableSummaryLabel)]);
  }

  /** The summary step adds nothing but the label, its placements and empty cells. */
  lemma SummaryStepOnly(sh: Sheet, rec: Record, rounded: seq<Value>, t: int)
    requires Wf(sh) && |rounded| == |rec.tableSummary| && t == sh.cursor + 2
    ensures AddsOnly(sh, SummaryStep(sh, rec, rounded), {(t, 1)} + Positions(SummaryCells(rec, rounded, t + 1)))
  {
    var ps := SummaryCells(rec, rounded, t + 1);
    TitledFacts(sh, t);
    TitledOnly(sh, t);
    SummaryPutsOnly(Titled(sh), rec, rounded, t + 1);
    AddsOnlyTrans(sh, Titled(sh), Puts(Titled(sh), ps), {(t, 1)}, Positions(ps));
    SummaryStepIs(sh, rec, rounded, t);
  }

  /** The summary figures go on the row below the label. */
  lemma SummaryStepIs(sh: Sheet, rec: Record, rounded: seq<Value>, t: int)
    requires Wf(sh) && |rounded| == |rec.tableSummary| && t == sh.cursor + 2
    ensures SummaryStep(sh, rec, rounded) == Puts(Titled(sh), SummaryCells(rec, rounded, t + 1))
  {
    TitledFacts(sh, t);
  }

  /** Below `max_row`, the summary figures add nothing but their placements
      and empty cells. */
  lemma SummaryPutsOnly(sh: Sheet, rec: Record, rounded: seq<Value>, s: int)
    requires Wf(sh) && |rounded| == |rec.tableSummary| && s > sh.maxRow
    ensures Extends(sh, Puts(sh, SummaryCells(rec, rounded, s)))
    ensures AddsOnly(sh, Puts(sh, SummaryCells(rec, rounded, s)), Positions(SummaryCells(rec, rounded, s)))
  {
    SummaryAdds(sh, rec, rounded, s);
    PutsOnly(sh, SummaryCells(rec, rounded, s));
  }



  // ----- Cell table -----

  /** The sheet after the empty row and the header row. */
  function Headed(sh: Sheet): Sheet {
    Append(Append(sh, []), HeaderCells())
  }

  /** The headers sit two rows past the cursor, which they become, as does `max_row`. */
  lemma HeadedFacts(sh: Sheet, h: int)
    requires Wf(sh) && h == sh.cursor + 2
    ensures Wf(Headed(sh)) && AddsFrom(sh, Headed(sh), h)
    ensures Headed(sh).cursor == h && Headed(sh).maxRow == h
    ensures HeaderRowAt(Headed(sh), h)
  {
    var blank := Append(sh, []);
    AppendWf(sh, []);
    AppendWf(blank, HeaderCells());
    AppendAdds(blank, HeaderCells());
  }

  lemma TableStepIs(sh: Sheet, rows: seq<seq<Value>>)
    ensures TableStep(sh, rows) == FillColumns(AppendAll(Headed(sh), rows))
  {
  }

  /** With `h` two rows past the cursor: the table ends `|rows|` rows below
      `h`, at the cursor and at `max_row`; nothing above `h` but empty cells
      is added. */
  lemma TableStepSheet(sh: Sheet, rows: seq<seq<Value>>, h: int)
    requires Wf(sh) && h == sh.cursor + 2
    requires forall k :: 0 <= k < |rows| ==> |rows[k]| == |CellFields|
    ensures var res := TableStep(sh, rows);
            && Wf(res) && AddsFrom(sh, res, h)
            && res.cursor == h + |rows| && res.maxRow == h + |rows|
  {
    var hd := Headed(sh);
    HeadedFacts(sh, h);
    TableStepIs(sh, rows);
    AppendAllWf(hd, rows);
    AppendAllAdds(hd, rows);
    AddsFromTrans(sh, hd, AppendAll(hd, rows), h, h + 1);
    FillAdds(AppendAll(hd, rows), h);
    AddsFromTrans(sh, AppendAll(hd, rows), TableStep(sh, rows), h, h);
  }

  /** The header row at `h`. */
  lemma TableStepHeader(sh: Sheet, rows: seq<seq<Value>>, h: int)
    requires Wf(sh) && h == sh.cursor + 2
    ensures HeaderRowAt(TableStep(sh, rows), h)
  {
    HeadedFacts(sh, h);
    TableStepIs(sh, rows);
    FilledHeader(Headed(sh), rows, h);
  }

  /** A row at the cursor survives the appends below it and `ws.columns`. */
  lemma FilledHeader(hd: Sheet, rows: seq<seq<Value>>, h: int)
    requires h == hd.cursor && HeaderRowAt(hd, h)
    ensures HeaderRowAt(FillColumns(AppendAll(hd, rows)), h)
  {
    var app := AppendAll(hd, rows);
    AppendAllKeeps(hd, rows);
    forall j | 0 <= j < |CellHeaders|
      ensures Holds(app, h, j + 1, Str(CellHeaders[j]))
    {
      assert Holds(hd, h, j + 1, Str(CellHeaders[j]));
    }
    FillExtends(app);
    HeaderRowKept(app, FillColumns(app), h);
  }

  /** Appended lines followed by `ws.columns` sit on consecutive rows after the cursor. */
  lemma FilledRows(hd: Sheet, rows: seq<seq<Value>>, r0: int)
    requires r0 == hd.cursor + 1
    ensures CellRowsAt(FillColumns(AppendAll(hd, rows)), rows, r0)
  {
    forall k | 0 <= k < |rows|
      ensures RowHolds(FillColumns(AppendAll(hd, rows)), r0 + k, rows[k])
    {
      FilledRow(hd, rows, k, r0 + k);
    }
  }

  /** The table lines on the rows below the header row. */
  lemma TableStepRows(sh: Sheet, rows: seq<seq<Value>>, h: int)
    requires h == sh.cursor + 2
    ensures CellRowsAt(TableStep(sh, rows), rows, h + 1)
  {
    TableStepIs(sh, rows);
    FilledRows(Headed(sh), rows, h + 1);
  }

  /** The empty row and the header row add only the header cells. */
  lemma HeadedOnly(sh: Sheet, h: int)
    requires h == sh.cursor + 2
    ensures AddsOnly(sh, Headed(sh), RowSpan(h, |CellHeaders|))
  {
    AppendOnly(Append(sh, []), HeaderCells());
  }

  /** The headers and the appended lines add nothing but their cells and empty ones. */
  lemma {:induction false} HeadedRowsOnly(sh: Sheet, rows: seq<seq<Value>>, h: int)
    requires Wf(sh) && h == sh.cursor + 2
    ensures AddsOnly(sh, AppendAll(Headed(sh), rows), RowSpan(h, |CellHeaders|) + RowsSpan(h + 1, rows))
  {
    var hd := Headed(sh);
    HeadedFacts(sh, h);
    HeadedOnly(sh, h);
    AppendAllOnlyAt(hd, rows);
    AppendAllAdds(hd, rows);
    AddsOnlyTrans(sh, hd, AppendAll(hd, rows), RowSpan(h, |CellHeaders|), RowsSpan(h + 1, rows));
  }

  /** The table step adds nothing but the headers, the lines and empty cells. */
  lemma {:induction false} TableStepOnly(sh: Sheet, rows: seq<seq<Value>>, h: int)
    requires Wf(sh) && h == sh.cursor + 2
    ensures AddsOnly(sh, TableStep(sh, rows), RowSpan(h, |CellHeaders|) + RowsSpan(h + 1, rows))
  {
    var app := AppendAll(Headed(sh), rows);
    HeadedRowsOnly(sh, rows, h);
    TableStepIs(sh, rows);
    FillOnly(app);
    FillExtends(app);
    AddsOnlyTrans(sh, app, FillColumns(app), RowSpan(h, |CellHeaders|) + RowsSpan(h + 1, rows), {});
    assert RowSpan(h, |CellHeaders|) + RowsSpan(h + 1, rows) + {} == RowSpan(h, |CellHeaders|) + RowsSpan(h + 1, rows);
  }
}

=== FILE: layout_test.dfy ===
/** One pass of `write_excel`'s per-test loop, start to end: where each of
    the four blocks lands, the empty rows that separate them, and the sheet
    the next test starts from. */
module LayoutTest {
  import opened Wrappers
  import opened Values
  import opened Coercion
  import opened AssocList
  import opened CellMerge
  import opened MultifileExtract
  import opened Worksheet
  import opened ReportLayout
  import opened LayoutProperties
  import opened LayoutSteps

  /** A test's blocks on sheet `sh`: the info block from row `s1`, the
      deviation block from `s2`, the "Table Summary" label at `t` with the
      summary figures on the two rows below it, the headers at `t + 4` and
      the table lines under them; an empty row above each block, each
      block's rows above the next block, and every other cell from the row
      above `s1` to the table's last line empty. */
  ghost predicate TestLaidOutAt(sh: Sheet, rec: Record, p: Prepared, s1: int, s2: int, t: int)
    requires Fits(rec, p)
  {
    BlocksAt(sh, rec, p, s1, s2, t) && OnlyAt(sh, s1 - 1, t + 4 + |p.rows|, TestCells(rec, p, s1, s2, t))
  }

  /** The blocks and the empty rows between them, as `TestLaidOutAt` places them. */
  ghost predicate BlocksAt(sh: Sheet, rec: Record, p: Prepared, s1: int, s2: int, t: int)
    requires Fits(rec, p)
  {
    && s1 <= s2 <= t
    && Blank(sh, s1 - 1) && InfoBlockAt(sh, rec, s1) && InfoAbove(rec, s1, s2)
    && Blank(sh, s2 - 1) && DeviationBlockAt(sh, rec.deviation, p.deviation, s2) && DeviationAbove(rec.deviation, s2, t)
    && Blank(sh, t - 1) && Holds(sh, t, 1, Str(TableSummaryLabel)) && SummaryBlockAt(sh, rec, p.summary, t + 1)
    && Blank(sh, t + 3) && HeaderRowAt(sh, t + 4) && CellRowsAt(sh, p.rows, t + 5)
  }

  /** The cells a test writes a value to: the info and deviation blocks, the
      label and the summary figures, the headers and the table lines. */
  ghost function TestCells(rec: Record, p: Prepared, s1: int, s2: int, t: int): set<Pos>
    requires Fits(rec, p)
  {
    Positions(InfoCells(rec, s1)) + Positions(DeviationCells(rec.deviation, p.deviation, s2))
    + ({(t, 1)} + Positions(SummaryCells(rec, p.summary, t + 1)))
    + (RowSpan(t + 4, |CellHeaders|) + RowsSpan(t + 5, p.rows))
  }

  /** Every row of the info block from `s1` lies above row `s2 - 1`. */
  predicate InfoAbove(rec: Record, s1: int, s2: int) {
    && (|rec.generalInfo| == 0 || s1 + |rec.generalInfo| < s2)
    && (|rec.stringInfo| == 0 || s1 + 2 + |rec.stringInfo| < s2)
    && (|rec.jarCells| == 0 || s1 + |rec.jarCells| < s2)
  }

  /** Every row of the deviation block from `s2` lies above row `t - 1`. */
  predicate DeviationAbove(dev: Info, s2: int, t: int) {
    && (|dev| == 0 || s2 < t - 1)
    && (|dev| < 2 || s2 + 1 < t - 1)
    && (|dev| < 3 || s2 + |dev| - 3 < t - 1)
  }

  // ----- What each step leaves -----

  /** The info step from `sh`: its block from two rows below `max_row`, the
      deviation block's row `s2` two rows below the new `max_row`. */
  ghost predicate InfoStaged(sh: Sheet, info: Sheet, rec: Record, s2: int) {
    && Wf(info) && AddsFrom(sh, info, sh.maxRow + 2) && info.cursor > sh.cursor
    && info.maxRow >= sh.maxRow && s2 == info.maxRow + 2
    && InfoBlockAt(info, rec, sh.maxRow + 2)
  }

  /** The deviation step: its block from `s2`, the label row `t` two rows
      past the cursor it leaves. */
  ghost predicate DeviationStaged(info: Sheet, dev: Sheet, rec: Record, p: Prepared, s2: int, t: int) {
    && |p.deviation| == |rec.deviation|
    && Wf(dev) && AddsFrom(info, dev, s2) && dev.cursor >= info.cursor && t == dev.cursor + 2
    && DeviationBlockAt(dev, rec.deviation, p.deviation, s2)
  }

  /** The summary step: the label at `t`, the figures on the two rows below. */
  ghost predicate SummaryStaged(dev: Sheet, summary: Sheet, rec: Record, p: Prepared, t: int) {
    && |p.summary| == |rec.tableSummary|
    && Wf(summary) && AddsFrom(dev, summary, t) && summary.cursor == t + 2
    && Holds(summary, t, 1, Str(TableSummaryLabel)) && SummaryBlockAt(summary, rec, p.summary, t + 1)
  }

  /** The table step: headers at `t + 4`, the lines below, the sheet ending
      with them. */
  ghost predicate TableStaged(summary: Sheet, after: Sheet, p: Prepared, t: int) {
    && Wf(after) && AddsFrom(summary, after, t + 4)
    && after.cursor == t + 4 + |p.rows| && after.maxRow == t + 4 + |p.rows|
    && HeaderRowAt(after, t + 4) && CellRowsAt(after, p.rows, t + 5)
  }

  /** What else each step adds: nothing outside its own cells but empty cells. */
  ghost predicate InfoOnly(sh: Sheet, info: Sheet, rec: Record) {
    AddsOnly(sh, info, Positions(InfoCells(rec, sh.maxRow + 2)))
  }

  ghost predicate DeviationOnly(info: Sheet, dev: Sheet, rec: Record, p: Prepared, s2: int)
    requires Fits(rec, p)
  {
    AddsOnly(info, dev, Positions(DeviationCells(rec.deviation, p.deviation, s2)))
  }

  ghost predicate SummaryOnly(dev: Sheet, summary: Sheet, rec: Record, p: Prepared, t: int)
    requires Fits(rec, p)
  {
    AddsOnly(dev, summary, {(t, 1)} + Positions(SummaryCells(rec, p.summary, t + 1)))
  }

  ghost predicate TableOnly(summary: Sheet, after: Sheet, p: Prepared, t: int) {
    AddsOnly(summary, after, RowSpan(t + 4, |CellHeaders|) + RowsSpan(t + 5, p.rows))
  }

  lemma InfoStaging(sh: Sheet, rec: Record)
    requires Wf(sh) && Compact(rec)
    ensures InfoStaged(sh, InfoStep(sh, rec), rec, InfoStep(sh, rec).maxRow + 2)
    ensures InfoOnly(sh, InfoStep(sh, rec), rec)
  {
    InfoStepSheet(sh, rec, sh.maxRow + 2);
    InfoStepBlock(sh, rec, sh.maxRow + 2);
    InfoStepOnly(sh, rec, sh.maxRow + 2);
  }

  lemma DeviationStaging(info: Sheet, rec: Record, p: Prepared, s2: int)
    requires Wf(info) && Fits(rec, p) && s2 == info.maxRow + 2
    ensures DeviationStaged(info, DeviationStep(info, rec, p.deviation), rec, p, s2, DeviationStep(info, rec, p.deviation).cursor + 2)
    ensures DeviationOnly(info, DeviationStep(info, rec, p.deviation), rec, p, s2)
  {
    DeviationStepSheet(info, rec, p.deviation, s2);
    DeviationStepBlock(info, rec, p.deviation, s2);
    DeviationStepOnly(info, rec, p.deviation, s2);
  }

  lemma SummaryStaging(dev: Sheet, rec: Record, p: Prepared, t: int)
    requires Wf(dev) && Fits(rec, p) && t == dev.cursor + 2
    ensures SummaryStaged(dev, SummaryStep(dev, rec, p.summary), rec, p, t)
    ensures SummaryOnly(dev, SummaryStep(dev, rec, p.summary), rec, p, t)
  {
    SummaryStepAdds(dev, rec, p.summary, t);
    SummaryStepCursor(dev, rec, p.summary, t);
    SummaryStepLabel(dev, rec, p.summary, t);
    SummaryStepBlock(dev, rec, p.summary, t);
    SummaryStepOnly(dev, rec, p.summary, t);
  }

  lemma TableStaging(summary: Sheet, p: Prepared, t: int)
    requires Wf(summary) && summary.cursor == t + 2
    requires forall k :: 0 <= k < |p.rows| ==> |p.rows[k]| == |CellFields|
    ensures TableStaged(summary, TableStep(summary, p.rows), p, t)
    ensures TableOnly(summary, TableStep(summary, p.rows), p, t)
  {
    TableStepSheet(summary, p.rows, t + 4);
    TableStepHeader(summary, p.rows, t + 4);
    TableStepRows(summary, p.rows, t + 4);
    TableStepOnly(summary, p.rows, t + 4);
  }

  // ----- Putting the steps together -----

  /** A well-formed sheet's `max_row` is at most its cursor, unless it is 1. */
  lemma MaxRowAtCursor(sh: Sheet)
    requires Wf(sh)
    ensures sh.maxRow <= sh.cursor || sh.maxRow == 1
  {
  }

  /** A cell of a well-formed sheet lies on or above `max_row` and the cursor. */
  lemma HoldsOnSheet(sh: Sheet, r: int, c: int, v: Value)
    requires Wf(sh) && Holds(sh, r, c, v)
    ensures r <= sh.maxRow && r <= sh.cursor
  {
  }

  lemma ComposedOrder(sh: Sheet, info: Sheet, dev: Sheet, rec: Record, p: Prepared, s2: int, t: int)
    requires Wf(sh) && InfoStaged(sh, info, rec, s2) && DeviationStaged(info, dev, rec, p, s2, t)
    ensures sh.maxRow + 2 <= s2 <= t
  {
    MaxRowAtCursor(info);
  }

  /** Everything each step adds lies at or below the row that step starts at. */
  lemma ComposedAdds(sh: Sheet, info: Sheet, dev: Sheet, summary: Sheet, after: Sheet, rec: Record, p: Prepared, s2: int, t: int)
    requires Wf(sh) && InfoStaged(sh, info, rec, s2) && DeviationStaged(info, dev, rec, p, s2, t)
    requires SummaryStaged(dev, summary, rec, p, t) && TableStaged(summary, after, p, t)
    ensures AddsFrom(dev, after, t) && AddsFrom(info, after, s2) && AddsFrom(sh, after, sh.maxRow + 2)
  {
    ComposedOrder(sh, info, dev, rec, p, s2, t);
    AddsFromTrans(dev, summary, after, t, t + 4);
    AddsFromTrans(info, dev, after, s2, t);
    AddsFromTrans(sh, info, after, sh.maxRow + 2, s2);
  }

  lemma ComposedBlocks(sh: Sheet, info: Sheet, dev: Sheet, summary: Sheet, after: Sheet, rec: Record, p: Prepared, s2: int, t: int)
    requires Wf(sh) && InfoStaged(sh, info, rec, s2) && DeviationStaged(info, dev, rec, p, s2, t)
    requires SummaryStaged(dev, summary, rec, p, t) && TableStaged(summary, after, p, t)
    ensures InfoBlockAt(after, rec, sh.maxRow + 2) && DeviationBlockAt(after, rec.deviation, p.deviation, s2)
    ensures Holds(after, t, 1, Str(TableSummaryLabel)) && SummaryBlockAt(after, rec, p.summary, t + 1)
  {
    ComposedAdds(sh, info, dev, summary, after, rec, p, s2, t);
    InfoBlockKept(info, after, rec, sh.maxRow + 2);
    DeviationBlockKept(dev, after, rec.deviation, p.deviation, s2);
    HoldsKept(summary, after, t, 1, Str(TableSummaryLabel));
    SummaryBlockKept(summary, after, rec, p.summary, t + 1);
  }

  lemma ComposedBlanks(sh: Sheet, info: Sheet, dev: Sheet, summary: Sheet, after: Sheet, rec: Record, p: Prepared, s2: int, t: int)
    requires Wf(sh) && InfoStaged(sh, info, rec, s2) && DeviationStaged(info, dev, rec, p, s2, t)
    requires SummaryStaged(dev, summary, rec, p, t) && TableStaged(summary, after, p, t)
    ensures Blank(after, sh.maxRow + 1) && Blank(after, s2 - 1) && Blank(after, t - 1) && Blank(after, t + 3)
  {
    ComposedAdds(sh, info, dev, summary, after, rec, p, s2, t);
    BlankPast(sh, sh.maxRow + 1);
    BlankKept(sh, after, sh.maxRow + 2, sh.maxRow + 1);
    BlankPast(info, s2 - 1);
    BlankKept(info, after, s2, s2 - 1);
    BlankPast(dev, t - 1);
    BlankKept(dev, after, t, t - 1);
    BlankPast(summary, t + 3);
    BlankKept(summary, after, t + 4, t + 3);
  }

  /** The info block's rows end above `s2 - 1`: its last cells are on the
      sheet the info step leaves, whose `max_row` is `s2 - 2`. */
  lemma ComposedInfoAbove(sh: Sheet, info: Sheet, rec: Record, s2: int)
    requires InfoStaged(sh, info, rec, s2)
    ensures InfoAbove(rec, sh.maxRow + 2, s2)
  {
    var s1 := sh.maxRow + 2;
    var gi, si, jar := rec.generalInfo, rec.stringInfo, rec.jarCells;
    if |gi| > 0 {
      HoldsOnSheet(info, s1 + (|gi| - 1), 1, Str(gi[|gi| - 1].0));
    }
    if |si| > 0 {
      HoldsOnSheet(info, s1 + 2 + (|si| - 1), 1, Str(si[|si| - 1].0));
    }
    if |jar| > 0 {
      HoldsOnSheet(info, s1 + (|jar| - 1), 3, Str(jar[|jar| - 1].0));
    }
  }

  /** The deviation block's rows end above `t - 1`: its cells are on the
      sheet the deviation step leaves, whose cursor is `t - 2`. */
  lemma ComposedDeviationAbove(info: Sheet, dev: Sheet, rec: Record, p: Prepared, s2: int, t: int)
    requires DeviationStaged(info, dev, rec, p, s2, t)
    ensures DeviationAbove(rec.deviation, s2, t)
  {
    var d := rec.deviation;
    if |d| > 0 {
      HoldsOnSheet(dev, s2 + 0, 1, Str(d[0].0));
    }
    if |d| > 1 {
      HoldsOnSheet(dev, s2 + 1, 1, Str(d[1].0));
    }
    if |d| > 2 {
      HoldsOnSheet(dev, s2 + (|d| - 1) - 2, 3, Str(d[|d| - 1].0));
    }
  }

  /** Between them the four steps add nothing but the test's cells and empty
      ones, so from the row above the info block to the table's last line
      every other cell is empty. */
  lemma ComposedOnly(sh: Sheet, info: Sheet, dev: Sheet, summary: Sheet, after: Sheet, rec: Record, p: Prepared, s2: int, t: int)
    requires Wf(sh) && Fits(rec, p) && InfoStaged(sh, info, rec, s2) && DeviationStaged(info, dev, rec, p, s2, t)
    requires SummaryStaged(dev, summary, rec, p, t) && TableStaged(summary, after, p, t)
    requires InfoOnly(sh, info, rec) && DeviationOnly(info, dev, rec, p, s2) && SummaryOnly(dev, summary, rec, p, t) && TableOnly(summary, after, p, t)
    ensures OnlyAt(after, sh.maxRow + 1, t + 4 + |p.rows|, TestCells(rec, p, sh.maxRow + 2, s2, t))
  {
    var a1 := Positions(InfoCells(rec, sh.maxRow + 2));
    var a2 := Positions(DeviationCells(rec.deviation, p.deviation, s2));
    var a3 := {(t, 1)} + Positions(SummaryCells(rec, p.summary, t + 1));
    var a4 := RowSpan(t + 4, |CellHeaders|) + RowsSpan(t + 5, p.rows);
    AddsOnlyTrans(sh, info, dev, a1, a2);
    AddsOnlyTrans(sh, dev, summary, a1 + a2, a3);
    AddsOnlyTrans(sh, summary, after, a1 + a2 + a3, a4);
    AddsOnlyBelow(sh, after, a1 + a2 + a3 + a4, t + 4 + |p.rows|);
  }

  /** The four steps, each on the sheet the previous one left, lay the test
      out as `TestLaidOutAt` says, with `s1` two rows below the starting
      `max_row`. */
  lemma Composed(sh: Sheet, info: Sheet, dev: Sheet, summary: Sheet, after: Sheet, rec: Record, p: Prepared, s2: int, t: int)
    requires Wf(sh) && Fits(rec, p) && InfoStaged(sh, info, rec, s2) && DeviationStaged(info, dev, rec, p, s2, t)
    requires SummaryStaged(dev, summary, rec, p, t) && TableStaged(summary, after, p, t)
    requires InfoOnly(sh, info, rec) && DeviationOnly(info, dev, rec, p, s2) && SummaryOnly(dev, summary, rec, p, t) && TableOnly(summary, after, p, t)
    ensures TestLaidOutAt(after, rec, p, sh.maxRow + 2, s2, t)
  {
    ComposedOrder(sh, info, dev, rec, p, s2, t);
    ComposedBlocks(sh, info, dev, summary, after, rec, p, s2, t);
    ComposedBlanks(sh, info, dev, summary, after, rec, p, s2, t);
    ComposedInfoAbove(sh, info, rec, s2);
    ComposedDeviationAbove(info, dev, rec, p, s2, t);
    ComposedOnly(sh, info, dev, summary, after, rec, p, s2, t);
  }

  /** `after` is `sh` with one more test laid out: its blocks from two rows
      below `sh`'s `max_row`, nothing above that row but empty cells added,
      and the cursor and `max_row` together on the table's last line. */
  ghost predicate Passed(sh: Sheet, after: Sheet, rec: Record, p: Prepared) {
    && Fits(rec, p)
    && Wf(after) && AddsFrom(sh, after, sh.maxRow + 2) && after.cursor == after.maxRow
    && TestLaidOut(after, rec, p, sh.maxRow + 2, after.maxRow)
  }

  /** The test's blocks lie on `sh` from row `s1`, its table ending at row `e`. */
  ghost predicate TestLaidOut(sh: Sheet, rec: Record, p: Prepared, s1: int, e: int)
    requires Fits(rec, p)
  {
    exists s2, t :: TestLaidOutAt(sh, rec, p, s1, s2, t) && e == t + 4 + |p.rows|
  }

  /** The sheet after the four steps, as the next test finds it. */
  lemma ComposedSheet(sh: Sheet, info: Sheet, dev: Sheet, summary: Sheet, after: Sheet, rec: Record, p: Prepared, s2: int, t: int)
    requires Wf(sh) && Fits(rec, p) && InfoStaged(sh, info, rec, s2) && DeviationStaged(info, dev, rec, p, s2, t)
    requires SummaryStaged(dev, summary, rec, p, t) && TableStaged(summary, after, p, t)
    requires InfoOnly(sh, info, rec) && DeviationOnly(info, dev, rec, p, s2) && SummaryOnly(dev, summary, rec, p, t) && TableOnly(summary, after, p, t)
    ensures Passed(sh, after, rec, p)
  {
    ComposedAdds(sh, info, dev, summary, after, rec, p, s2, t);
    Composed(sh, info, dev, summary, after, rec, p, s2, t);
  }

  // ----- One pass of the loop -----

  lemma FromTable(sh: Sheet, info: Sheet, dev: Sheet, summary: Sheet, rec: Record, p: Prepared, s2: int, t: int)
    requires Wf(sh) && Fits(rec, p) && InfoStaged(sh, info, rec, s2) && DeviationStaged(info, dev, rec, p, s2, t)
    requires SummaryStaged(dev, summary, rec, p, t)
    requires InfoOnly(sh, info, rec) && DeviationOnly(info, dev, rec, p, s2) && SummaryOnly(dev, summary, rec, p, t)
    ensures Passed(sh, TableStep(summary, p.rows), rec, p)
  {
    TableStaging(summary, p, t);
    ComposedSheet(sh, info, dev, summary, TableStep(summary, p.rows), rec, p, s2, t);
  }

  lemma FromSummary(sh: Sheet, info: Sheet, dev: Sheet, rec: Record, p: Prepared, s2: int, t: int)
    requires Wf(sh) && Fits(rec, p) && InfoStaged(sh, info, rec, s2) && DeviationStaged(info, dev, rec, p, s2, t)
    requires InfoOnly(sh, info, rec) && DeviationOnly(info, dev, rec, p, s2)
    ensures Passed(sh, TableStep(SummaryStep(dev, rec, p.summary), p.rows), rec, p)
  {
    SummaryStaging(dev, rec, p, t);
    FromTable(sh, info, dev, SummaryStep(dev, rec, p.summary), rec, p, s2, t);
  }

  lemma FromDeviation(sh: Sheet, info: Sheet, rec: Record, p: Prepared, s2: int)
    requires Wf(sh) && Fits(rec, p) && InfoStaged(sh, info, rec, s2) && InfoOnly(sh, info, rec)
    ensures Passed(sh, TableStep(SummaryStep(DeviationStep(info, rec, p.deviation), rec, p.summary), p.rows), rec, p)
  {
    var dev := DeviationStep(info, rec, p.deviation);
    DeviationStaging(info, rec, p, s2);
    FromSummary(sh, info, dev, rec, p, s2, dev.cursor + 2);
  }

  /** What one pass of the per-test loop does to the sheet the earlier tests
      left. */
  lemma LayLaidOut(sh: Sheet, rec: Record, p: Prepared)
    requires Wf(sh) && Compact(rec) && Fits(rec, p)
    ensures Passed(sh, Lay(sh, rec, p), rec, p)
  {
    InfoStaging(sh, rec);
    FromDeviation(sh, InfoStep(sh, rec), rec, p, InfoStep(sh, rec).maxRow + 2);
  }

  // ----- All the tests -----

  /** A laid-out test stays as it is while later writes go below its last row. */
  lemma TestLaidOutKept(a: Sheet, b: Sheet, rec: Record, p: Prepared, s1: int, e: int, lo: int)
    requires Fits(rec, p) && TestLaidOut(a, rec, p, s1, e) && AddsFrom(a, b, lo) && e < lo
    ensures TestLaidOut(b, rec, p, s1, e)
  {
    var s2, t :| TestLaidOutAt(a, rec, p, s1, s2, t) && e == t + 4 + |p.rows|;
    BlocksKept(a, b, rec, p, s1, s2, t, lo);
    OnlyAtKept(a, b, s1 - 1, e, TestCells(rec, p, s1, s2, t), lo);
    assert TestLaidOutAt(b, rec, p, s1, s2, t);
  }

  lemma BlocksKept(a: Sheet, b: Sheet, rec: Record, p: Prepared, s1: int, s2: int, t: int, lo: int)
    requires Fits(rec, p) && BlocksAt(a, rec, p, s1, s2, t) && AddsFrom(a, b, lo) && t + 4 + |p.rows| < lo
    ensures BlocksAt(b, rec, p, s1, s2, t)
  {
    BlankKept(a, b, lo, s1 - 1);
    BlankKept(a, b, lo, s2 - 1);
    BlankKept(a, b, lo, t - 1);
    BlankKept(a, b, lo, t + 3);
    InfoBlockKept(a, b, rec, s1);
    DeviationBlockKept(a, b, rec.deviation, p.deviation, s2);
    HoldsKept(a, b, t, 1, Str(TableSummaryLabel));
    SummaryBlockKept(a, b, rec, p.summary, t + 1);
    HeaderRowKept(a, b, t + 4);
    CellRowsKept(a, b, p.rows, t + 5);
  }

  /** The same rows, however they are written. */
  lemma TestLaidOutRows(sh: Sheet, rec: Record, p: Prepared, s1: int, e: int, s1': int, e': int)
    requires Fits(rec, p) && TestLaidOut(sh, rec, p, s1, e) && s1' == s1 && e' == e
    ensures TestLaidOut(sh, rec, p, s1', e')
  {
  }

  /** The records `write_excel` can lay out: compact, with prepared values that fit. */
  ghost predicate AllFit(recs: seq<Record>, ps: seq<Prepared>) {
    |ps| == |recs| && forall i :: 0 <= i < |recs| ==> Compact(recs[i]) && Fits(recs[i], ps[i])
  }

  lemma AllFitPrefix(recs: seq<Record>, ps: seq<Prepared>, j: int)
    requires AllFit(recs, ps) && 0 <= j <= |recs|
    ensures AllFit(recs[..j], ps[..j])
  {
    assert forall i :: 0 <= i < j ==> recs[..j][i] == recs[i] && ps[..j][i] == ps[i];
  }

  lemma PrefixOfPrefix<T>(s: seq<T>, i: int, j: int)
    requires 0 <= i <= j <= |s|
    ensures s[..j][..i] == s[..i]
  {
  }

  lemma PrefixFull<T>(s: seq<T>, j: int)
    requires j == |s|
    ensures s[..j] == s
  {
  }

  lemma PrefixLast<T>(s: seq<T>, i: int)
    requires 0 <= i < |s|
    ensures s[..i + 1][i] == s[i] && |s[..i + 1]| - 1 == i
  {
  }

  /** The first `i + 1` tests are the first `i` and then test `i`. */
  lemma LayAllStep(sh: Sheet, recs: seq<Record>, ps: seq<Prepared>, i: int)
    requires sh.maxRow >= 0 && AllFit(recs, ps) && 0 <= i < |recs|
    ensures AllFit(recs[..i], ps[..i])
    ensures LayAll(sh, recs[..i + 1], ps[..i + 1]) == Lay(LayAll(sh, recs[..i], ps[..i]), recs[i], ps[i])
  {
    AllFitPrefix(recs, ps, i + 1);
    AllFitPrefix(recs, ps, i);
    PrefixOfPrefix(recs, i, i + 1);
    PrefixOfPrefix(ps, i, i + 1);
    PrefixLast(recs, i);
    PrefixLast(ps, i);
  }

  /** The tests are the ones before the last, then the last. */
  lemma LayAllLast(sh: Sheet, recs: seq<Record>, ps: seq<Prepared>)
    requires sh.maxRow >= 0 && AllFit(recs, ps) && |recs| > 0
    ensures AllFit(recs[..|recs| - 1], ps[..|recs| - 1])
    ensures LayAll(sh, recs, ps) == Lay(LayAll(sh, recs[..|recs| - 1], ps[..|recs| - 1]), recs[|recs| - 1], ps[|recs| - 1])
  {
    AllFitPrefix(recs, ps, |recs| - 1);
  }

  /** The last test is one pass of the loop on the sheet the others left. */
  lemma LayAllPassed(sh: Sheet, recs: seq<Record>, ps: seq<Prepared>)
    requires sh.maxRow >= 0 && AllFit(recs, ps) && |recs| > 0
    requires AllFit(recs[..|recs| - 1], ps[..|recs| - 1]) && Wf(LayAll(sh, recs[..|recs| - 1], ps[..|recs| - 1]))
    ensures Passed(LayAll(sh, recs[..|recs| - 1], ps[..|recs| - 1]), LayAll(sh, recs, ps), recs[|recs| - 1], ps[|recs| - 1])
  {
    var n := |recs| - 1;
    LayAllLast(sh, recs, ps);
    LayLaidOut(LayAll(sh, recs[..n], ps[..n]), recs[n], ps[n]);
  }

  /** `fin` is a well-formed sheet grown from `sh`: every cell of `sh` kept,
      nothing new above two rows below `sh`'s `max_row` but empty cells. */
  ghost predicate Grown(sh: Sheet, fin: Sheet) {
    Wf(fin) && AddsFrom(sh, fin, sh.maxRow + 2) && fin.maxRow >= sh.maxRow
  }

  lemma GrownRefl(sh: Sheet)
    requires Wf(sh)
    ensures Grown(sh, sh)
  {
  }

  /** A pass after a grown sheet leaves a grown sheet, cursor on `max_row`. */
  lemma PassedGrown(sh: Sheet, prev: Sheet, next: Sheet, rec: Record, p: Prepared)
    requires Grown(sh, prev) && Passed(prev, next, rec, p)
    ensures Grown(sh, next) && next.cursor == next.maxRow
  {
    AddsFromTrans(sh, prev, next, sh.maxRow + 2, prev.maxRow + 2);
  }

  /** After any number of tests the sheet has grown from the starting one,
      and the cursor and `max_row` agree once a test has been laid out. */
  lemma {:induction false} LayAllGrown(sh: Sheet, recs: seq<Record>, ps: seq<Prepared>)
    requires Wf(sh) && AllFit(recs, ps)
    ensures Grown(sh, LayAll(sh, recs, ps))
    ensures |recs| > 0 ==> LayAll(sh, recs, ps).cursor == LayAll(sh, recs, ps).maxRow
    decreases |recs|
  {
    if |recs| == 0 {
      GrownRefl(sh);
    } else {
      var n := |recs| - 1;
      AllFitPrefix(recs, ps, n);
      LayAllGrown(sh, recs[..n], ps[..n]);
      LayAllPassed(sh, recs, ps);
      PassedGrown(sh, LayAll(sh, recs[..n], ps[..n]), LayAll(sh, recs, ps), recs[n], ps[n]);
    }
  }

  /** Test `k` turns `sheets[k]` into `sheets[k + 1]`. */
  ghost predicate Link(sheets: seq<Sheet>, recs: seq<Record>, ps: seq<Prepared>, k: int) {
    0 <= k < |recs| && k + 1 < |sheets| && k < |ps| && Passed(sheets[k], sheets[k + 1], recs[k], ps[k])
  }

  /** The sheets the loop passes through, one per test and the starting one. */
  ghost predicate Chain(sheets: seq<Sheet>, recs: seq<Record>, ps: seq<Prepared>) {
    && |sheets| == |recs| + 1 && |ps| == |recs| && Wf(sheets[0])
    && forall k :: 0 <= k < |recs| ==> Link(sheets, recs, ps, k)
  }

  /** Along a chain every later sheet has grown from every earlier one. */
  lemma {:induction false} ChainGrown(sheets: seq<Sheet>, recs: seq<Record>, ps: seq<Prepared>, j: int, k: int)
    requires Chain(sheets, recs, ps) && 0 <= j <= k < |sheets|
    ensures Grown(sheets[j], sheets[k])
    decreases k
  {
    if j == k {
      if j > 0 {
        assert Link(sheets, recs, ps, j - 1);
      }
      GrownRefl(sheets[j]);
    } else {
      ChainGrown(sheets, recs, ps, j, k - 1);
      assert Link(sheets, recs, ps, k - 1);
      PassedGrown(sheets[j], sheets[k - 1], sheets[k], recs[k - 1], ps[k - 1]);
    }
  }

  lemma LinkPassed(sheets: seq<Sheet>, recs: seq<Record>, ps: seq<Prepared>, i: int)
    requires Chain(sheets, recs, ps) && 0 <= i < |recs|
    ensures Passed(sheets[i], sheets[i + 1], recs[i], ps[i])
  {
    assert Link(sheets, recs, ps, i);
  }

  /** The sheet after the first `k` tests, for each `k`. */
  function Prefixes(sh: Sheet, recs: seq<Record>, ps: seq<Prepared>): (sheets: seq<Sheet>)
    requires sh.maxRow >= 0 && AllFit(recs, ps)
    ensures |sheets| == |recs| + 1
  {
    seq(|recs| + 1, k requires 0 <= k <= |recs| =>
      AllFitPrefix(recs, ps, k); LayAll(sh, recs[..k], ps[..k]))
  }

  lemma PrefixesAt(sh: Sheet, recs: seq<Record>, ps: seq<Prepared>, k: int)
    requires sh.maxRow >= 0 && AllFit(recs, ps) && 0 <= k <= |recs|
    ensures AllFit(recs[..k], ps[..k])
    ensures Prefixes(sh, recs, ps)[k] == LayAll(sh, recs[..k], ps[..k])
  {
    AllFitPrefix(recs, ps, k);
  }

  /** Test `k` is one pass of the loop on the sheet the first `k` tests left. */
  lemma PrefixPassed(sh: Sheet, recs: seq<Record>, ps: seq<Prepared>, k: int)
    requires Wf(sh) && AllFit(recs, ps) && 0 <= k < |recs|
    ensures AllFit(recs[..k], ps[..k]) && AllFit(recs[..k + 1], ps[..k + 1])
    ensures Passed(LayAll(sh, recs[..k], ps[..k]), LayAll(sh, recs[..k + 1], ps[..k + 1]), recs[k], ps[k])
  {
    var r, q := recs[..k + 1], ps[..k + 1];
    AllFitPrefix(recs, ps, k);
    AllFitPrefix(recs, ps, k + 1);
    AllFitPrefix(r, q, k);
    PrefixOfPrefix(recs, k, k + 1);
    PrefixOfPrefix(ps, k, k + 1);
    PrefixLast(recs, k);
    PrefixLast(ps, k);
    LayAllGrown(sh, r[..k], q[..k]);
    LayAllPassed(sh, r, q);
  }

  lemma PrefixLink(sh: Sheet, recs: seq<Record>, ps: seq<Prepared>, k: int)
    requires Wf(sh) && AllFit(recs, ps) && 0 <= k < |recs|
    ensures Link(Prefixes(sh, recs, ps), recs, ps, k)
  {
    PrefixesAt(sh, recs, ps, k);
    PrefixesAt(sh, recs, ps, k + 1);
    PrefixPassed(sh, recs, ps, k);
  }

  lemma PrefixChain(sh: Sheet, recs: seq<Record>, ps: seq<Prepared>)
    requires Wf(sh) && AllFit(recs, ps)
    ensures Chain(Prefixes(sh, recs, ps), recs, ps)
    ensures Prefixes(sh, recs, ps)[|recs|] == LayAll(sh, recs, ps)
  {
    var sheets := Prefixes(sh, recs, ps);
    assert recs[..0] == [] && ps[..0] == [];
    PrefixFull(recs, |recs|);
    PrefixFull(ps, |recs|);
    forall k | 0 <= k < |recs|
      ensures Link(sheets, recs, ps, k)
    {
      PrefixLink(sh, recs, ps, k);
    }
  }

  /** Test `i` fits its prepared cells and lies on `fin` from two rows below
      `sheets[i]`'s `max_row` down to `sheets[i + 1]`'s. */
  ghost predicate LaidOutIn(fin: Sheet, sheets: seq<Sheet>, recs: seq<Record>, ps: seq<Prepared>, i: int) {
    && 0 <= i < |recs| && i + 1 < |sheets| && |ps| == |recs| && Fits(recs[i], ps[i])
    && TestLaidOut(fin, recs[i], ps[i], sheets[i].maxRow + 2, sheets[i + 1].maxRow)
  }

  /** Test `i` lies on whatever the chain ends in. */
  lemma ChainEnd(sheets: seq<Sheet>, fin: Sheet, recs: seq<Record>, ps: seq<Prepared>, i: int)
    requires Chain(sheets, recs, ps) && sheets[|recs|] == fin && 0 <= i < |recs|
    ensures LaidOutIn(fin, sheets, recs, ps, i)
  {
    LinkPassed(sheets, recs, ps, i);
    ChainGrown(sheets, recs, ps, i + 1, |recs|);
    GrownLaidOut(sheets, fin, recs, ps, i);
  }

  /** Test `i`, laid out by its pass, lies on any sheet grown from the one
      that pass left. */
  lemma GrownLaidOut(sheets: seq<Sheet>, fin: Sheet, recs: seq<Record>, ps: seq<Prepared>, i: int)
    requires 0 <= i < |recs| && i + 1 < |sheets| && |ps| == |recs|
    requires Passed(sheets[i], sheets[i + 1], recs[i], ps[i]) && Grown(sheets[i + 1], fin)
    ensures LaidOutIn(fin, sheets, recs, ps, i)
  {
    TestLaidOutKept(sheets[i + 1], fin, recs[i], ps[i], sheets[i].maxRow + 2, sheets[i + 1].maxRow, sheets[i + 1].maxRow + 2);
  }




  /** Test `i` lies on the final sheet from two rows below where the tests
      before it ended, and ends where the first `i + 1` tests end. */
  lemma EachTestLaidOut(sh: Sheet, recs: seq<Record>, ps: seq<Prepared>, i: int)
    requires Wf(sh) && AllFit(recs, ps) && 0 <= i < |recs|
    ensures LaidOutIn(LayAll(sh, recs, ps), Prefixes(sh, recs, ps), recs, ps, i)
  {
    PrefixChain(sh, recs, ps);
    ChainEnd(Prefixes(sh, recs, ps), LayAll(sh, recs, ps), recs, ps, i);
  }
}

=== FILE: multifile_extract.dfy ===
/** `parse_xml` of multifile.py: one 7-part record per `test` of the FIRST
    `form` (its `return` sits inside the form loop), each part filled by
    fixed (lower-cased tag name -> label) lookups in the test's `data`,
    `nameplate` and `copyhistory` children, plus the merged cell rows. */
module MultifileExtract {
  import opened Wrappers
  import opened Values
  import opened AssocList
  import opened ElementTree
  import opened CellMerge

  /** One fixed lookup: the lower-cased tag name searched for and the label its text is stored under. */
  datatype Lookup = Lookup(source: string, key: string)

  const TestDateLabel := "Test Date"
  const AmbientTempLabel := "Ambient Temp. (°C)"
  const BaselineSource := "instrbaselinez"
  const FormNameSource := "formname"
  const NoBaseline := "N/A"

  /** `data` children feed the general info ... */
  const GeneralLookups: seq<Lookup> := [Lookup("temperature", AmbientTempLabel)]

  /** ... and the table summary. */
  const SummaryLookups: seq<Lookup> := [
    Lookup("avgimpedence", "Average Impedance (mΩ)"),
    Lookup("voltagesum", "Total String Voltage (V)"),
    Lookup("deviationvoltage", "Deviation from Charger Voltage (%)"),
    Lookup("minvolts", "Min Voltage (V)"),
    Lookup("maxvolts", "Max Voltage (V)"),
    Lookup("avgtemp", "Average Temperature (°C)")
  ]

  /** `nameplate` children feed the string info ... */
  const StringLookups: seq<Lookup> := [
    Lookup("stringname", "String Name"),
    Lookup("pdbequipmenttype", "Battery Type")
  ]

  /** ... and the deviation thresholds. */
  const DeviationLookups: seq<Lookup> := [
    Lookup("warningdeviationohm", "Warning Deviation (mΩ)"),
    Lookup("alloweddeviationohm", "Alarm Deviation (mΩ)"),
    Lookup("warningdeviation", "Warning Deviation (%)"),
    Lookup("alloweddeviation", "Alarm Deviation (%)")
  ]

  /** `copyhistory` children feed the jar and cell counts (and the baseline). */
  const JarLookups: seq<Lookup> := [
    Lookup("numjars", "Number of Jars"),
    Lookup("numcells", "Number of Cells"),
    Lookup("cellsperjar", "Number of Cells/Jar"),
    Lookup("numstraps", "Number of Straps")
  ]

  type Info = Dict<string, Value>

  /** The tuple `(general_info, cell_data, stringname, jarcells, deviation, tablesummary, baseline)`. */
  datatype Record = Record(
    generalInfo: Info,
    cellData: seq<CellEntry>,
    stringInfo: Info,
    jarCells: Info,
    deviation: Info,
    tableSummary: Info,
    baseline: Value)

  /** The result `(formname, all_tests)`. */
  datatype Extracted = Extracted(formName: Value, tests: seq<Record>)

  function Labels(ls: seq<Lookup>): (r: seq<string>)
    ensures |r| == |ls|
    ensures forall i :: 0 <= i < |ls| ==> r[i] == ls[i].key
  {
    seq(|ls|, i requires 0 <= i < |ls| => ls[i].key)
  }

  /** The text of the first `tag` child of a section whose lower-cased name
      is `source`, if the section has one (the same tag `FindTag` picks). */
  function Found(sec: Element, source: string): Option<Value> {
    FirstNamedText(sec.children, source)
  }

  function FirstNamedText(cs: seq<Element>, source: string): Option<Value>
    decreases |cs|
  {
    if |cs| == 0 then None
    else if cs[0].tag == "tag" && NameKey(cs[0]) == source then Some(FromText(cs[0].text))
    else FirstNamedText(cs[1..], source)
  }

  /** `Found` reads the text of exactly the tag `FindTag` returns. */
  lemma FoundIsFindTagText(sec: Element, source: string)
    ensures Found(sec, source) == if FindTag(sec, source).Some? then Some(FromText(FindTag(sec, source).value.text)) else None
  {
    FirstNamedTextIsFirstNamed(sec.children, source);
  }

  lemma {:induction false} FirstNamedTextIsFirstNamed(cs: seq<Element>, source: string)
    ensures FirstNamedText(cs, source)
            == if FirstNamed(Filter(cs, "tag"), source).Some? then Some(FromText(FirstNamed(Filter(cs, "tag"), source).value.text)) else None
    decreases |cs|
  {
    if |cs| > 0 {
      FirstNamedTextIsFirstNamed(cs[1..], source);
      if cs[0].tag == "tag" {
        assert Filter(cs, "tag") == [cs[0]] + Filter(cs[1..], "tag");
        if NameKey(cs[0]) != source {
          assert Filter(cs, "tag")[1..] == Filter(cs[1..], "tag");
        }
      } else {
        assert Filter(cs, "tag") == Filter(cs[1..], "tag");
      }
    }
  }

  /** The assignments one section performs, lookup by lookup: a found tag
      assigns its text (possibly `None`) to the lookup's label. */
  function SectionAssignments(sec: Element, ls: seq<Lookup>): seq<(string, Value)>
    decreases |ls|
  {
    if |ls| == 0 then []
    else
      var here := if Found(sec, ls[0].source).Some? then [(ls[0].key, Found(sec, ls[0].source).value)] else [];
      here + SectionAssignments(sec, ls[1..])
  }

  /** The assignments of the whole loop over the sections, in execution order. */
  function Assignments(secs: seq<Element>, ls: seq<Lookup>): seq<(string, Value)>
    decreases |secs|
  {
    if |secs| == 0 then []
    else Assignments(secs[..|secs| - 1], ls) + SectionAssignments(secs[|secs| - 1], ls)
  }

  /** A dict after the loop: `init` updated by every assignment in order. */
  function FillInfo(init: Info, secs: seq<Element>, ls: seq<Lookup>): Info {
    SetAll(init, Assignments(secs, ls))
  }

  /** The text of the tag matching `source` in the last section that has one. */
  function LastText(secs: seq<Element>, source: string): (r: Option<Value>)
    ensures r.None? <==> forall i :: 0 <= i < |secs| ==> Found(secs[i], source).None?
    decreases |secs|
  {
    if |secs| == 0 then None
    else
      var here := Found(secs[|secs| - 1], source);
      if here.Some? then here
      else
        var r := LastText(secs[..|secs| - 1], source);
        assert forall i :: 0 <= i < |secs| - 1 ==> secs[..|secs| - 1][i] == secs[i];
        r
  }

  /** A found text comes from a section that has the tag, and no later section has it. */
  lemma {:induction false} LastTextIsLast(secs: seq<Element>, source: string)
    requires LastText(secs, source).Some?
    ensures exists i :: 0 <= i < |secs| && Found(secs[i], source) == LastText(secs, source)
                        && forall j :: i < j < |secs| ==> Found(secs[j], source).None?
    decreases |secs|
  {
    var n := |secs| - 1;
    if Found(secs[n], source).None? {
      var p := secs[..n];
      LastTextIsLast(p, source);
      var i :| 0 <= i < |p| && Found(p[i], source) == LastText(p, source)
                && forall j :: i < j < |p| ==> Found(p[j], source).None?;
      assert p[i] == secs[i];
      forall j | i < j < |secs|
        ensures Found(secs[j], source).None?
      {
        if j < n {
          assert p[j] == secs[j];
        }
      }
    }
  }

  /** The record of a test whose cell rows are `cells`. */
  function BuildRecord(test: Element, cells: seq<CellEntry>): Record {
    var data := FindAll(test, "data");
    var plates := FindAll(test, "nameplate");
    var copies := FindAll(test, "copyhistory");
    Record(
      generalInfo := FillInfo([(TestDateLabel, FromText(Attr(test, "date")))], data, GeneralLookups),
      cellData := cells,
      stringInfo := FillInfo([], plates, StringLookups),
      jarCells := FillInfo([], copies, JarLookups),
      deviation := FillInfo([], plates, DeviationLookups),
      tableSummary := FillInfo([], data, SummaryLookups),
      baseline := LastText(copies, BaselineSource).GetOr(Str(NoBaseline)))
  }

  /** The record of one test; fails exactly when its cell data does. */
  function ExtractTest(test: Element): (r: Result<Record>)
    ensures r.Ok? <==> CellData(test).Ok?
    ensures r.Ok? ==> r.value.cellData == CellData(test).value
  {
    var cells :- CellData(test);
    Ok(BuildRecord(test, cells))
  }

  /** The records of a sequence of tests, in order; the first failing test's error otherwise. */
  function ExtractTests(tests: seq<Element>): (r: Result<seq<Record>>)
    ensures r.Ok? <==> forall i :: 0 <= i < |tests| ==> ExtractTest(tests[i]).Ok?
    ensures r.Ok? ==> |r.value| == |tests| && forall i :: 0 <= i < |tests| ==> ExtractTest(tests[i]) == Ok(r.value[i])
    ensures r.Err? ==> exists i :: 0 <= i < |tests| && ExtractTest(tests[i]) == Err(r.error)
                                && forall j :: 0 <= j < i ==> ExtractTest(tests[j]).Ok?
  {
    MapAllOk(tests, ExtractTest)
  }

  /** The `data` children of the tests, test by test. */
  function DataSections(tests: seq<Element>): seq<Element>
    decreases |tests|
  {
    if |tests| == 0 then [] else DataSections(tests[..|tests| - 1]) + FindAll(tests[|tests| - 1], "data")
  }

  /** `parse_xml(root)`: `None` when the root has no `form`; otherwise the
      first form's records and the last `formname` text seen, `""` if none. */
  function ParseXml(root: Element): Result<Option<Extracted>> {
    var forms := FindAll(root, "form");
    if |forms| == 0 then Ok(None)
    else
      var tests := FindAll(forms[0], "test");
      var records :- ExtractTests(tests);
      Ok(Some(Extracted(LastText(DataSections(tests), FormNameSource).GetOr(Str("")), records)))
  }

  // ----- Lookups and labels -----

  /** Within one section, a label is assigned iff its tag is found there, and gets that tag's text. */
  lemma {:induction false} SectionAssignmentsSpec(sec: Element, ls: seq<Lookup>)
    requires Unique(Labels(ls))
    ensures forall k :: 0 <= k < |ls| ==>
              GetLast(SectionAssignments(sec, ls), ls[k].key)
              == Found(sec, ls[k].source)
    ensures forall key :: key !in Labels(ls) ==> GetLast(SectionAssignments(sec, ls), key).None?
    decreases |ls|
  {
    if |ls| > 0 {
      var here := if Found(sec, ls[0].source).Some? then [(ls[0].key, Found(sec, ls[0].source).value)] else [];
      var rest := SectionAssignments(sec, ls[1..]);
      assert Labels(ls[1..]) == Labels(ls)[1..];
      SectionAssignmentsSpec(sec, ls[1..]);
      forall key
        ensures GetLast(here + rest, key) == if GetLast(rest, key).Some? then GetLast(rest, key) else GetLast(here, key)
      {
        GetLastAppend(here, rest, key);
      }
      forall k | 1 <= k < |ls|
        ensures ls[k].key != ls[0].key && ls[k] == ls[1..][k - 1]
      {
        assert Labels(ls)[0] != Labels(ls)[k];
      }
      assert ls[0].key !in Labels(ls[1..]);
      assert forall key :: key !in Labels(ls) ==> key !in Labels(ls[1..]) && key != ls[0].key;
    }
  }

  /** Over all sections, a label is assigned iff its tag is found in some
      section, and its last assignment is the text from the last such section. */
  lemma {:induction false} AssignmentsSpec(secs: seq<Element>, ls: seq<Lookup>)
    requires Unique(Labels(ls))
    ensures forall k :: 0 <= k < |ls| ==> GetLast(Assignments(secs, ls), ls[k].key) == LastText(secs, ls[k].source)
    ensures forall key :: key !in Labels(ls) ==> GetLast(Assignments(secs, ls), key).None?
    decreases |secs|
  {
    if |secs| > 0 {
      var p := secs[..|secs| - 1];
      var last := secs[|secs| - 1];
      AssignmentsSpec(p, ls);
      SectionAssignmentsSpec(last, ls);
      forall key
        ensures GetLast(Assignments(secs, ls), key)
                == if GetLast(SectionAssignments(last, ls), key).Some? then GetLast(SectionAssignments(last, ls), key)
                   else GetLast(Assignments(p, ls), key)
      {
        GetLastAppend(Assignments(p, ls), SectionAssignments(last, ls), key);
      }
    }
  }

  /** A dict filled by lookups: existing keys keep their place, each label is
      present iff its tag was found in some section (or it was already there),
      its value is the text from the last section that has the tag, no key is
      repeated, and no key other than `init`'s and the labels appears. */
  lemma FillInfoSpec(init: Info, secs: seq<Element>, ls: seq<Lookup>)
    requires Distinct(init) && Unique(Labels(ls))
    ensures Distinct(FillInfo(init, secs, ls))
    ensures Keys(init) <= Keys(FillInfo(init, secs, ls))
    ensures forall k :: 0 <= k < |ls| ==>
              Get(FillInfo(init, secs, ls), ls[k].key)
              == if LastText(secs, ls[k].source).Some? then LastText(secs, ls[k].source) else Get(init, ls[k].key)
    ensures forall key :: key !in Labels(ls) ==> Get(FillInfo(init, secs, ls), key) == Get(init, key)
    ensures forall key :: key in Keys(FillInfo(init, secs, ls)) ==> key in Keys(init) || key in Labels(ls)
  {
    AssignmentsSpec(secs, ls);
    var r := FillInfo(init, secs, ls);
    forall key | key in Keys(r)
      ensures key in Keys(init) || key in Labels(ls)
    {
      if key !in Labels(ls) {
        assert GetLast(Assignments(secs, ls), key).None?;
      }
    }
  }

  /** The index of the first section in which the tag `source` is found, `|secs|` if none is. */
  function FirstFound(secs: seq<Element>, source: string): (i: nat)
    ensures i <= |secs|
    ensures i < |secs| ==> Found(secs[i], source).Some?
    ensures forall j :: 0 <= j < i ==> Found(secs[j], source).None?
    decreases |secs|
  {
    if |secs| == 0 then 0
    else
      var i := FirstFound(secs[..|secs| - 1], source);
      assert forall j :: 0 <= j < |secs| - 1 ==> secs[..|secs| - 1][j] == secs[j];
      if i < |secs| - 1 then i
      else if Found(secs[|secs| - 1], source).Some? then |secs| - 1
      else |secs|
  }

  /** Within one section, the found labels are assigned in the order of the lookup table. */
  lemma SectionOrder(sec: Element, ls: seq<Lookup>, i: nat, j: nat)
    requires Unique(Labels(ls)) && i < |ls| && j < |ls|
    requires Found(sec, ls[i].source).Some? && Found(sec, ls[j].source).Some?
    ensures IndexOfKey(SectionAssignments(sec, ls), ls[i].key) < |SectionAssignments(sec, ls)|
    ensures IndexOfKey(SectionAssignments(sec, ls), ls[i].key) < IndexOfKey(SectionAssignments(sec, ls), ls[j].key)
            <==> i < j
  {
    SectionAssigned(sec, ls, i);
    if i < j {
      SectionBefore(sec, ls, i, j);
    } else if j < i {
      SectionBefore(sec, ls, j, i);
    }
  }

  /** A label whose tag the section has is assigned there. */
  lemma {:induction false} SectionAssigned(sec: Element, ls: seq<Lookup>, i: nat)
    requires Unique(Labels(ls)) && i < |ls| && Found(sec, ls[i].source).Some?
    ensures IndexOfKey(SectionAssignments(sec, ls), ls[i].key) < |SectionAssignments(sec, ls)|
    decreases |ls|
  {
    UniqueLabelsTail(ls);
    if Found(sec, ls[0].source).Some? {
      SectionHead(sec, ls, ls[i].key);
    } else {
      SectionSkip(sec, ls);
    }
    if i > 0 {
      SectionAssigned(sec, ls[1..], i - 1);
    }
  }

  /** Of two labels whose tags the section has, the earlier lookup is assigned first. */
  lemma {:induction false} SectionBefore(sec: Element, ls: seq<Lookup>, i: nat, j: nat)
    requires Unique(Labels(ls)) && i < j < |ls|
    requires Found(sec, ls[i].source).Some? && Found(sec, ls[j].source).Some?
    ensures IndexOfKey(SectionAssignments(sec, ls), ls[i].key) < IndexOfKey(SectionAssignments(sec, ls), ls[j].key)
    decreases |ls|
  {
    UniqueLabelsTail(ls);
    if i == 0 {
      SectionHead(sec, ls, ls[0].key);
      SectionHead(sec, ls, ls[j].key);
    } else {
      SectionBefore(sec, ls[1..], i - 1, j - 1);
      if Found(sec, ls[0].source).Some? {
        SectionHead(sec, ls, ls[i].key);
        SectionHead(sec, ls, ls[j].key);
      } else {
        SectionSkip(sec, ls);
      }
    }
  }

  /** Dropping the first lookup keeps the labels unique, and its label is not among the rest. */
  lemma UniqueLabelsTail(ls: seq<Lookup>)
    requires Unique(Labels(ls)) && |ls| > 0
    ensures Unique(Labels(ls[1..]))
    ensures forall i :: 0 < i < |ls| ==> ls[i].key != ls[0].key && ls[i] == ls[1..][i - 1]
  {
    assert Labels(ls[1..]) == Labels(ls)[1..];
    forall i | 0 < i < |ls|
      ensures ls[i].key != ls[0].key
    {
      assert Labels(ls)[0] != Labels(ls)[i];
    }
  }

  /** A found first lookup is assigned first; every other key sits one place further than in the rest. */
  lemma SectionHead(sec: Element, ls: seq<Lookup>, k: string)
    requires |ls| > 0 && Found(sec, ls[0].source).Some?
    ensures k == ls[0].key ==> IndexOfKey(SectionAssignments(sec, ls), k) == 0 < |SectionAssignments(sec, ls)|
    ensures k != ls[0].key ==>
              IndexOfKey(SectionAssignments(sec, ls), k) == 1 + IndexOfKey(SectionAssignments(sec, ls[1..]), k)
              && |SectionAssignments(sec, ls)| == 1 + |SectionAssignments(sec, ls[1..])|
  {
    var here := [(ls[0].key, Found(sec, ls[0].source).value)];
    assert SectionAssignments(sec, ls) == here + SectionAssignments(sec, ls[1..]);
    assert Keys(here) == [ls[0].key];
    IndexOfKeyAppend(here, SectionAssignments(sec, ls[1..]), k);
  }

  /** A lookup whose tag is missing assigns nothing. */
  lemma SectionSkip(sec: Element, ls: seq<Lookup>)
    requires |ls| > 0 && Found(sec, ls[0].source).None?
    ensures SectionAssignments(sec, ls) == SectionAssignments(sec, ls[1..])
  {
  }

  /** A label occurs among the assignments iff its tag is found in some section. */
  lemma AssignedIffFound(secs: seq<Element>, ls: seq<Lookup>, i: nat)
    requires Unique(Labels(ls)) && i < |ls|
    ensures ls[i].key in Keys(Assignments(secs, ls)) <==> FirstFound(secs, ls[i].source) < |secs|
  {
    AssignmentsSpec(secs, ls);
    if FirstFound(secs, ls[i].source) < |secs| {
      assert Found(secs[FirstFound(secs, ls[i].source)], ls[i].source).Some?;
    }
  }

  /** Over all sections, labels are first assigned in the order of the first
      section holding their tag, and within one section in table order. */
  lemma {:induction false} AssignmentsOrder(secs: seq<Element>, ls: seq<Lookup>, i: nat, j: nat)
    requires Unique(Labels(ls)) && i < |ls| && j < |ls|
    requires FirstFound(secs, ls[i].source) < |secs| && FirstFound(secs, ls[j].source) < |secs|
    ensures IndexOfKey(Assignments(secs, ls), ls[i].key) < IndexOfKey(Assignments(secs, ls), ls[j].key)
            <==> FirstFound(secs, ls[i].source) < FirstFound(secs, ls[j].source)
                 || (FirstFound(secs, ls[i].source) == FirstFound(secs, ls[j].source) && i < j)
    decreases |secs|
  {
    var p := secs[..|secs| - 1];
    var last := secs[|secs| - 1];
    var a := Assignments(p, ls);
    var sa := SectionAssignments(last, ls);
    assert Assignments(secs, ls) == a + sa;
    IndexOfKeyAppend(a, sa, ls[i].key);
    IndexOfKeyAppend(a, sa, ls[j].key);
    AssignedIffFound(p, ls, i);
    AssignedIffFound(p, ls, j);
    IndexOfKeyIn(a, ls[i].key);
    IndexOfKeyIn(a, ls[j].key);
    var fi := FirstFound(p, ls[i].source);
    var fj := FirstFound(p, ls[j].source);
    if fi < |p| && fj < |p| {
      AssignmentsOrder(p, ls, i, j);
    } else if fi == |p| && fj == |p| {
      SectionOrder(last, ls, i, j);
    }
  }

  /** The order of a dict filled by lookups: `init`'s keys keep their
      positions, and the labels new to it follow, ordered by the first
      section that has their tag and, within that section, by the lookup
      table (a later section overwrites a value but not a position). */
  lemma FillInfoOrder(init: Info, secs: seq<Element>, ls: seq<Lookup>, i: nat, j: nat)
    requires Unique(Labels(ls)) && i < |ls| && j < |ls|
    requires ls[i].key !in Keys(init) && ls[j].key !in Keys(init)
    requires ls[i].key in Keys(FillInfo(init, secs, ls)) && ls[j].key in Keys(FillInfo(init, secs, ls))
    ensures forall k :: k in Keys(init) ==> IndexOfKey(FillInfo(init, secs, ls), k) == IndexOfKey(init, k)
    ensures |init| <= IndexOfKey(FillInfo(init, secs, ls), ls[i].key)
    ensures IndexOfKey(FillInfo(init, secs, ls), ls[i].key) < IndexOfKey(FillInfo(init, secs, ls), ls[j].key)
            <==> FirstFound(secs, ls[i].source) < FirstFound(secs, ls[j].source)
                 || (FirstFound(secs, ls[i].source) == FirstFound(secs, ls[j].source) && i < j)
  {
    var asg := Assignments(secs, ls);
    forall k | k in Keys(init)
      ensures IndexOfKey(FillInfo(init, secs, ls), k) == IndexOfKey(init, k)
    {
      SetAllKeepsPlace(init, asg, k);
    }
    AssignedIffFound(secs, ls, i);
    AssignedIffFound(secs, ls, j);
    SetAllOrder(init, asg, ls[i].key, ls[j].key);
    AssignmentsOrder(secs, ls, i, j);
  }

  /** When one section is the first to hold every tag of the table, a dict
      filled from empty has exactly the table's labels, in table order (so,
      for instance, the ohm thresholds come before the percent ones). */
  lemma FillInfoTableOrder(secs: seq<Element>, ls: seq<Lookup>, f: nat)
    requires Unique(Labels(ls)) && f < |secs|
    requires forall k :: 0 <= k < |ls| ==> FirstFound(secs, ls[k].source) == f
    ensures Keys(FillInfo([], secs, ls)) == Labels(ls)
  {
    var pos := TablePositions(secs, ls, f);
    IncreasingIsIdentity(pos, |ls|);
    PositionsGiveKeys(FillInfo([], secs, ls), ls, pos);
  }

  /** A dict in which label `k` first occurs at position `k`, for every `k`, has exactly the labels as keys. */
  lemma PositionsGiveKeys(r: Info, ls: seq<Lookup>, pos: seq<nat>)
    requires |pos| == |ls| == |r|
    requires forall k :: 0 <= k < |ls| ==> pos[k] == IndexOfKey(r, ls[k].key)
    requires forall k :: 0 <= k < |ls| ==> pos[k] == k
    ensures Keys(r) == Labels(ls)
  {
    forall k | 0 <= k < |r|
      ensures Keys(r)[k] == Labels(ls)[k]
    {
      assert IndexOfKey(r, ls[k].key) == k;
    }
  }

  /** The positions of the table's labels in the filled dict: all present,
      increasing along the table, and as many as the dict has keys. */
  lemma TablePositions(secs: seq<Element>, ls: seq<Lookup>, f: nat) returns (pos: seq<nat>)
    requires Unique(Labels(ls)) && f < |secs|
    requires forall k :: 0 <= k < |ls| ==> FirstFound(secs, ls[k].source) == f
    ensures |pos| == |ls| == |FillInfo([], secs, ls)|
    ensures forall k :: 0 <= k < |ls| ==> pos[k] == IndexOfKey(FillInfo([], secs, ls), ls[k].key) < |ls|
    ensures forall k, m :: 0 <= k < m < |ls| ==> pos[k] < pos[m]
  {
    var r := FillInfo([], secs, ls);
    forall k | 0 <= k < |ls|
      ensures IndexOfKey(r, ls[k].key) < |r|
    {
      LabelPresent(secs, ls, f, k);
      IndexOfKeyIn(r, ls[k].key);
    }
    forall k, m | 0 <= k < m < |ls|
      ensures IndexOfKey(r, ls[k].key) < IndexOfKey(r, ls[m].key)
    {
      LabelPresent(secs, ls, f, k);
      LabelPresent(secs, ls, f, m);
      FillInfoOrder([], secs, ls, k, m);
    }
    pos := seq(|ls|, k requires 0 <= k < |ls| => IndexOfKey(r, ls[k].key));
    FillInfoSize([], secs, ls);
    if |ls| > 0 {
      assert pos[|ls| - 1] < |r|;
      IncreasingLowerBound(pos, |ls| - 1);
    }
  }

  /** A label whose tag some section holds is a key of the filled dict. */
  lemma LabelPresent(secs: seq<Element>, ls: seq<Lookup>, f: nat, k: nat)
    requires Unique(Labels(ls)) && f < |secs| && k < |ls| && FirstFound(secs, ls[k].source) == f
    ensures ls[k].key in Keys(FillInfo([], secs, ls))
  {
    FillInfoSpec([], secs, ls);
    assert LastText(secs, ls[k].source).Some?;
  }

  /** In a strictly increasing sequence of naturals, the entry at `k` is at least `k`. */
  lemma {:induction false} IncreasingLowerBound(pos: seq<nat>, k: nat)
    requires k < |pos|
    requires forall i, j :: 0 <= i < j < |pos| ==> pos[i] < pos[j]
    ensures pos[k] >= k
    decreases k
  {
    if k > 0 {
      IncreasingLowerBound(pos, k - 1);
    }
  }

  /** A strictly increasing sequence of naturals below `n`, `n` long, is `0, 1, ..., n-1`. */
  lemma {:induction false} IncreasingIsIdentity(pos: seq<nat>, n: nat)
    requires |pos| == n
    requires forall k :: 0 <= k < n ==> pos[k] < n
    requires forall k, m :: 0 <= k < m < n ==> pos[k] < pos[m]
    ensures forall k :: 0 <= k < n ==> pos[k] == k
    decreases n
  {
    if n > 0 {
      var p := pos[..n - 1];
      forall k | 0 <= k < n - 1
        ensures p[k] < n - 1
      {
        assert p[k] == pos[k] < pos[n - 1];
      }
      IncreasingIsIdentity(p, n - 1);
      if n > 1 {
        assert pos[n - 2] == p[n - 2] == n - 2;
        assert pos[n - 2] < pos[n - 1];
      }
    }
  }

  /** A dict with distinct keys drawn from `init` and the labels has at most that many keys. */
  lemma FillInfoSize(init: Info, secs: seq<Element>, ls: seq<Lookup>)
    requires Distinct(init) && Unique(Labels(ls))
    ensures |FillInfo(init, secs, ls)| <= |init| + |ls|
  {
    FillInfoSpec(init, secs, ls);
    var r := FillInfo(init, secs, ls);
    var universe := ElemSet(Keys(init)) + ElemSet(Labels(ls));
    forall i | 0 <= i < |r|
      ensures Keys(r)[i] in universe
    {
      assert Keys(r)[i] in Keys(r);
    }
    UniqueBounded(Keys(r), universe);
    ElemSetSize(Keys(init));
    ElemSetSize(Labels(ls));
  }

  lemma LookupTablesHaveUniqueLabels()
    ensures Unique(Labels(GeneralLookups)) && Unique(Labels(SummaryLookups)) && Unique(Labels(StringLookups))
    ensures Unique(Labels(DeviationLookups)) && Unique(Labels(JarLookups))
    ensures TestDateLabel !in Labels(GeneralLookups)
  {
  }

  // ----- Records -----

  /** Filling a dict that starts with one key outside the labels: that key
      stays first with its value, and the labels are filled from the last sections. */
  lemma FillAfterOne(k: string, v: Value, secs: seq<Element>, ls: seq<Lookup>)
    requires Unique(Labels(ls)) && k !in Labels(ls)
    ensures var d := FillInfo([(k, v)], secs, ls);
            && |d| >= 1 && d[0].0 == k && Get(d, k) == Some(v)
            && (forall j :: 0 <= j < |ls| ==> Get(d, ls[j].key) == LastText(secs, ls[j].source))
            && (forall key :: key in Keys(d) ==> key == k || key in Labels(ls))
            && Distinct(d) && |d| <= 1 + |ls|
  {
    var init := [(k, v)];
    assert Keys(init) == [k];
    FillInfoSpec(init, secs, ls);
    FillInfoSize(init, secs, ls);
    var d := FillInfo(init, secs, ls);
    assert Keys(init)[0] == Keys(d)[0];
  }

  /** "Test Date" is always the first general-info key, holding the test's
      `date` attribute; the ambient temperature is present iff some `data`
      child has a `temperature` tag, with the last such text; nothing else is
      a key, so there are at most two. */
  lemma GeneralInfoShape(test: Element, cells: seq<CellEntry>)
    ensures var gi := BuildRecord(test, cells).generalInfo;
            && |gi| >= 1 && gi[0].0 == TestDateLabel
            && Get(gi, TestDateLabel) == Some(FromText(Attr(test, "date")))
            && Get(gi, AmbientTempLabel) == LastText(FindAll(test, "data"), "temperature")
            && (forall key :: key in Keys(gi) ==> key == TestDateLabel || key == AmbientTempLabel)
            && Distinct(gi) && |gi| <= 2
  {
    LookupTablesHaveUniqueLabels();
    FillAfterOne(TestDateLabel, FromText(Attr(test, "date")), FindAll(test, "data"), GeneralLookups);
    assert GeneralLookups[0] == Lookup("temperature", AmbientTempLabel);
    assert Labels(GeneralLookups) == [AmbientTempLabel];
  }

  /** A lookup-filled part of a record: each label is present iff its tag is
      found in some child of the given kind and holds the text from the last
      such child, no key repeats, and no key other than the labels appears. */
  ghost predicate FilledFromLast(d: Info, secs: seq<Element>, ls: seq<Lookup>) {
    && Distinct(d)
    && (forall k :: 0 <= k < |ls| ==> Get(d, ls[k].key) == LastText(secs, ls[k].source))
    && (forall key :: key in Keys(d) ==> key in Labels(ls))
  }

  lemma FillFromEmpty(secs: seq<Element>, ls: seq<Lookup>)
    requires Unique(Labels(ls))
    ensures FilledFromLast(FillInfo([], secs, ls), secs, ls)
    ensures |FillInfo([], secs, ls)| <= |ls|
  {
    FillInfoSpec([], secs, ls);
    FillInfoSize([], secs, ls);
  }

  /** The string name and battery type come from the last `nameplate` child that names them. */
  lemma StringInfoFromLastNameplate(test: Element, cells: seq<CellEntry>)
    ensures FilledFromLast(BuildRecord(test, cells).stringInfo, FindAll(test, "nameplate"), StringLookups)
  {
    LookupTablesHaveUniqueLabels();
    FillFromEmpty(FindAll(test, "nameplate"), StringLookups);
  }

  /** The four deviation thresholds come from the last `nameplate` child that names them; at most four keys. */
  lemma DeviationFromLastNameplate(test: Element, cells: seq<CellEntry>)
    ensures FilledFromLast(BuildRecord(test, cells).deviation, FindAll(test, "nameplate"), DeviationLookups)
    ensures |BuildRecord(test, cells).deviation| <= 4
  {
    LookupTablesHaveUniqueLabels();
    FillFromEmpty(FindAll(test, "nameplate"), DeviationLookups);
  }

  /** The jar, cell and strap counts come from the last `copyhistory` child that names them. */
  lemma JarCountsFromLastCopy(test: Element, cells: seq<CellEntry>)
    ensures FilledFromLast(BuildRecord(test, cells).jarCells, FindAll(test, "copyhistory"), JarLookups)
  {
    LookupTablesHaveUniqueLabels();
    FillFromEmpty(FindAll(test, "copyhistory"), JarLookups);
  }

  /** The six summary figures come from the last `data` child that names them. */
  lemma SummaryFromLastData(test: Element, cells: seq<CellEntry>)
    ensures FilledFromLast(BuildRecord(test, cells).tableSummary, FindAll(test, "data"), SummaryLookups)
  {
    LookupTablesHaveUniqueLabels();
    FillFromEmpty(FindAll(test, "data"), SummaryLookups);
  }

  /** The baseline is "N/A" when no `copyhistory` child has an `instrbaselinez`
      tag, and otherwise the text of that tag in the last child that has one. */
  lemma BaselineDefault(test: Element, cells: seq<CellEntry>)
    ensures var b := BuildRecord(test, cells).baseline;
            var copies := FindAll(test, "copyhistory");
            && ((forall i :: 0 <= i < |copies| ==> Found(copies[i], BaselineSource).None?) ==> b == Str(NoBaseline))
            && ((exists i :: 0 <= i < |copies| && Found(copies[i], BaselineSource).Some?) ==>
                  exists i :: 0 <= i < |copies| && Found(copies[i], BaselineSource) == Some(b)
                           && forall j :: i < j < |copies| ==> Found(copies[j], BaselineSource).None?)
  {
    var copies := FindAll(test, "copyhistory");
    if LastText(copies, BaselineSource).Some? {
      LastTextIsLast(copies, BaselineSource);
    }
  }

  // ----- The document -----

  /** `None` exactly when the root has no `form` child. */
  lemma NoFormNoResult(root: Element)
    ensures ParseXml(root) == Ok(None) <==> |FindAll(root, "form")| == 0
  {
  }

  /** Only the first form counts: two documents whose first forms agree give the same result. */
  lemma OnlyFirstForm(a: Element, b: Element)
    requires |FindAll(a, "form")| > 0 && |FindAll(b, "form")| > 0
    requires FindAll(a, "form")[0] == FindAll(b, "form")[0]
    ensures ParseXml(a) == ParseXml(b)
  {
  }

  /** One record per `test` of the first form, in order, and the form name is
      the text of the last `formname` tag among all their `data` children
      (`""` when there is none); any failing test fails the whole call. */
  lemma ParseXmlRecords(root: Element)
    requires |FindAll(root, "form")| > 0
    ensures var tests := FindAll(FindAll(root, "form")[0], "test");
            && (ParseXml(root).Ok? <==> forall i :: 0 <= i < |tests| ==> ExtractTest(tests[i]).Ok?)
            && (ParseXml(root).Ok? ==>
                  && ParseXml(root).value.Some?
                  && |ParseXml(root).value.value.tests| == |tests|
                  && (forall i :: 0 <= i < |tests| ==> ExtractTest(tests[i]) == Ok(ParseXml(root).value.value.tests[i]))
                  && ParseXml(root).value.value.formName == LastText(DataSections(tests), FormNameSource).GetOr(Str("")))
  {
  }
}

=== FILE: numbers.dfy ===
/** Syntax of the numbers `int()` and `float()` accept, in the simplified
    grammar this model uses, and decimal printing of integers (`str(n)`). */
module NumberSyntax {
  import opened Wrappers
  import Text

  predicate IsDigit(c: char) {
    '0' <= c <= '9'
  }

  predicate AllDigits(s: string) {
    forall i :: 0 <= i < |s| ==> IsDigit(s[i])
  }

  /** Value of a run of decimal digits, most significant first. */
  function DigitsValue(s: string): nat
    requires AllDigits(s)
    decreases |s|
  {
    if |s| == 0 then 0
    else
      assert IsDigit(s[|s| - 1]);
      DigitsValue(s[..|s| - 1]) * 10 + (s[|s| - 1] as int - '0' as int)
  }

  function DigitChar(d: nat): (c: char)
    requires d < 10
    ensures IsDigit(c) && c as int - '0' as int == d
  {
    ('0' as int + d) as char
  }

  /** `str(n)` for a non-negative integer: reads back as `n`. */
  function NatToString(n: nat): (r: string)
    ensures |r| > 0 && AllDigits(r)
    ensures DigitsValue(r) == n
    decreases n
  {
    if n < 10 then [DigitChar(n)]
    else
      var prefix := NatToString(n / 10);
      var r := prefix + [DigitChar(n % 10)];
      assert r[..|r| - 1] == prefix;
      r
  }

  /** `str(n)`: a minus sign for negative numbers, then the digits. */
  function IntToString(n: int): string {
    if n < 0 then "-" + NatToString(-n) else NatToString(n)
  }

  /** The text after an optional leading `+` or `-`. */
  function Unsigned(s: string): (u: string)
    ensures |u| <= |s|
  {
    if |s| > 0 && (s[0] == '+' || s[0] == '-') then s[1..] else s
  }

  predicate IsNegative(s: string) {
    |s| > 0 && s[0] == '-'
  }

  /** The sign-and-digits grammar accepted for `int(s)`. */
  predicate IsIntLiteral(s: string) {
    |Unsigned(s)| > 0 && AllDigits(Unsigned(s))
  }

  /** `int(s)`: `None` stands for the ValueError raised on anything outside the grammar. */
  function ParseInt(s: string): (r: Option<int>)
    ensures r.Some? <==> IsIntLiteral(s)
    ensures r.Some? && !IsNegative(s) ==> r.value >= 0
    ensures r.Some? && IsNegative(s) ==> r.value <= 0
  {
    if !IsIntLiteral(s) then None
    else
      var magnitude: int := DigitsValue(Unsigned(s));
      Some(if IsNegative(s) then -magnitude else magnitude)
  }

  /** Printing an integer and parsing it back gives the integer. */
  lemma ParseIntRoundTrip(n: int)
    ensures IsIntLiteral(IntToString(n))
    ensures ParseInt(IntToString(n)) == Some(n)
  {
    var digits := if n < 0 then NatToString(-n) else NatToString(n);
    if n < 0 {
      assert Unsigned("-" + digits) == digits;
    } else {
      assert Unsigned(digits) == digits;
    }
  }

  predicate IsExponentMark(c: char) {
    c == 'e' || c == 'E'
  }

  /** Position of the first exponent mark, or `|s|` when there is none. */
  function ExponentIndex(s: string): (k: nat)
    ensures k <= |s|
    ensures k < |s| ==> IsExponentMark(s[k])
    ensures forall i :: 0 <= i < k ==> !IsExponentMark(s[i])
    decreases |s|
  {
    if |s| == 0 || IsExponentMark(s[0]) then 0 else 1 + ExponentIndex(s[1..])
  }

  /** Digits with at most one decimal point and at least one digit. */
  predicate IsMantissa(m: string) {
    && (forall i :: 0 <= i < |m| ==> IsDigit(m[i]) || m[i] == '.')
    && (forall i, j :: 0 <= i < j < |m| && m[i] == '.' ==> m[j] != '.')
    && (exists i :: 0 <= i < |m| && IsDigit(m[i]))
  }

  /** A finite decimal float: sign, mantissa, optional `e`/`E` with a signed integer exponent. */
  predicate IsDecimalLiteral(s: string) {
    var u := Unsigned(s);
    var k := ExponentIndex(u);
    IsMantissa(u[..k]) && (k == |u| || IsIntLiteral(u[k + 1..]))
  }

  /** The non-finite spellings `float()` accepts, case-insensitively and signed. */
  predicate IsSpecialLiteral(s: string) {
    var w := Text.Lower(Unsigned(s));
    w == "inf" || w == "infinity" || w == "nan"
  }

  /** The grammar accepted for `float(s)` in this model. */
  predicate IsFloatLiteral(s: string) {
    IsDecimalLiteral(s) || IsSpecialLiteral(s)
  }

  /** A decimal literal whose mantissa digits are all zero, so `float(s) == 0`. */
  predicate IsZeroLiteral(s: string) {
    && IsDecimalLiteral(s)
    && var u := Unsigned(s);
       forall i :: 0 <= i < ExponentIndex(u) ==> u[i] == '0' || u[i] == '.'
  }

  /** Every integer literal is also a float literal (`float("12")` succeeds). */
  lemma IntLiteralIsFloatLiteral(s: string)
    requires IsIntLiteral(s)
    ensures IsDecimalLiteral(s)
  {
    var u := Unsigned(s);
    var k := ExponentIndex(u);
    assert k == |u|;
    assert u[..k] == u;
    assert IsDigit(u[0]);
  }

  /** Zero is recognised exactly for integer literals whose value is zero. */
  lemma {:induction false} IntLiteralZero(s: string)
    requires IsIntLiteral(s)
    ensures IsZeroLiteral(s) <==> ParseInt(s) == Some(0)
  {
    IntLiteralIsFloatLiteral(s);
    var u := Unsigned(s);
    assert ExponentIndex(u) == |u|;
    AllZeroDigits(u);
  }

  /** A run of digits has value zero exactly when every digit is `0`. */
  lemma {:induction false} AllZeroDigits(u: string)
    requires AllDigits(u)
    ensures DigitsValue(u) == 0 <==> forall i :: 0 <= i < |u| ==> u[i] == '0'
    decreases |u|
  {
    if |u| > 0 {
      var p := u[..|u| - 1];
      AllZeroDigits(p);
      assert (forall i :: 0 <= i < |u| ==> u[i] == '0')
         <==> (forall i :: 0 <= i < |p| ==> p[i] == '0') && u[|u| - 1] == '0' by {
        assert forall i :: 0 <= i < |p| ==> p[i] == u[i];
      }
    }
  }
}

=== FILE: report.dfy ===
/** The saved workbook as a whole, and one file's conversion: the title in
    A1, every test's blocks in order below it, and column widths that fit
    the sheet's text. */
module Workbook {
  import opened Wrappers
  import opened Values
  import opened Coercion
  import opened AssocList
  import opened ElementTree
  import opened CellMerge
  import opened MultifileExtract
  import opened Worksheet
  import opened ReportLayout
  import opened LayoutProperties
  import opened LayoutTest

  /** No test has more than two general-info rows. */
  ghost predicate AllCompact(records: seq<Record>) {
    forall i :: 0 <= i < |records| ==> Compact(records[i])
  }

  /** `max_row` of each sheet of a chain. */
  function MaxRows(sheets: seq<Sheet>): (ends: seq<int>)
    ensures |ends| == |sheets|
    ensures forall k :: 0 <= k < |sheets| ==> ends[k] == sheets[k].maxRow
  {
    seq(|sheets|, k requires 0 <= k < |sheets| => sheets[k].maxRow)
  }

  /** The tests lie on `sh` one after another: test `i` from two rows below
      row `ends[i]` down to row `ends[i + 1]`, the last one ending on `max_row`. */
  ghost predicate TestsInOrder(sh: Sheet, recs: seq<Record>, ps: seq<Prepared>, ends: seq<int>) {
    && |ps| == |recs| && |ends| == |recs| + 1 && ends[|recs|] == sh.maxRow
    && forall i :: 0 <= i < |recs| ==> Fits(recs[i], ps[i]) && TestLaidOut(sh, recs[i], ps[i], ends[i] + 2, ends[i + 1])
  }

  /** Along a chain ending in `fin`, every test lies on `fin` in order. */
  lemma ChainInOrder(sheets: seq<Sheet>, fin: Sheet, recs: seq<Record>, ps: seq<Prepared>)
    requires Chain(sheets, recs, ps) && sheets[|recs|] == fin
    ensures TestsInOrder(fin, recs, ps, MaxRows(sheets))
  {
    ChainRows(sheets, fin, recs, ps, MaxRows(sheets));
  }

  /** Every test lies on the chain's last sheet between the `max_row`s of
      the sheets before and after its pass. */
  lemma ChainRows(sheets: seq<Sheet>, fin: Sheet, recs: seq<Record>, ps: seq<Prepared>, ends: seq<int>)
    requires Chain(sheets, recs, ps) && sheets[|recs|] == fin
    requires |ends| == |sheets| && forall k :: 0 <= k < |sheets| ==> ends[k] == sheets[k].maxRow
    ensures forall i :: 0 <= i < |recs| ==> Fits(recs[i], ps[i]) && TestLaidOut(fin, recs[i], ps[i], ends[i] + 2, ends[i + 1])
  {
    forall i | 0 <= i < |recs|
      ensures Fits(recs[i], ps[i]) && TestLaidOut(fin, recs[i], ps[i], ends[i] + 2, ends[i + 1])
    {
      ChainEndRows(sheets, fin, recs, ps, ends, i);
    }
  }

  /** Test `i` lies on the chain's last sheet between the `max_row`s `ends`
      records for the sheets before and after its pass. */
  lemma ChainEndRows(sheets: seq<Sheet>, fin: Sheet, recs: seq<Record>, ps: seq<Prepared>, ends: seq<int>, i: int)
    requires Chain(sheets, recs, ps) && sheets[|recs|] == fin && 0 <= i < |recs|
    requires |ends| == |sheets| && ends[i] == sheets[i].maxRow && ends[i + 1] == sheets[i + 1].maxRow
    ensures Fits(recs[i], ps[i]) && TestLaidOut(fin, recs[i], ps[i], ends[i] + 2, ends[i + 1])
  {
    ChainEnd(sheets, fin, recs, ps, i);
    TestLaidOutRows(fin, recs[i], ps[i], sheets[i].maxRow + 2, sheets[i + 1].maxRow, ends[i] + 2, ends[i + 1]);
  }

  /** The loop over all tests lays each one out in order, from two rows below
      the starting sheet's `max_row`. */
  lemma LayAllInOrder(sh: Sheet, recs: seq<Record>, ps: seq<Prepared>)
    requires Wf(sh) && AllFit(recs, ps)
    ensures exists ends :: TestsInOrder(LayAll(sh, recs, ps), recs, ps, ends) && ends[0] == sh.maxRow
  {
    var sheets := Prefixes(sh, recs, ps);
    PrefixChain(sh, recs, ps);
    PrefixesAt(sh, recs, ps, 0);
    ChainInOrder(sheets, LayAll(sh, recs, ps), recs, ps);
    assert MaxRows(sheets)[0] == sh.maxRow;
  }

  lemma StartFacts(formName: Value)
    ensures Wf(Start(formName)) && Holds(Start(formName), 1, 1, Title(formName))
    ensures Start(formName).maxRow == 1 && Blank(Start(formName), 2)
    ensures Start(formName).cells.Keys == {(1, 1)}
  {
    FreshWf();
  }

  /** Compact tests that all prepare fit their prepared values. */
  lemma PreparedFit(records: seq<Record>, fmtG: Formatter)
    requires AllCompact(records) && PrepareAll(records, fmtG).Ok?
    ensures AllFit(records, PrepareAll(records, fmtG).value)
    ensures forall i :: 0 <= i < |records| ==> PreparedFrom(records[i], fmtG, PrepareAll(records, fmtG).value[i])
  {
    var ps := PrepareAll(records, fmtG).value;
    forall i | 0 <= i < |records|
      ensures Fits(records[i], ps[i]) && PreparedFrom(records[i], fmtG, ps[i])
    {
      var p := ps[i];
      assert Prepare(records[i], fmtG) == Ok(p);
      forall k | 0 <= k < |p.rows|
        ensures |p.rows[k]| == |CellFields|
      {
        assert CellRow(records[i].cellData[k]) == Ok(p.rows[k]);
      }
    }
  }

  /** The report sheet, for records that all prepare. */
  function ReportSheet(formName: Value, records: seq<Record>, fmtG: Formatter): Sheet
    requires PrepareAll(records, fmtG).Ok?
  {
    LayAll(Start(formName), records, PrepareAll(records, fmtG).value)
  }

  lemma WriteExcelSheet(formName: Value, records: seq<Record>, fmtG: Formatter, reprFloat: FloatRepr)
    requires WriteExcel(formName, records, fmtG, reprFloat).Ok?
    ensures PrepareAll(records, fmtG).Ok?
    ensures var rep := WriteExcel(formName, records, fmtG, reprFloat).value;
            && rep.sheet == ReportSheet(formName, records, fmtG)
            && rep.widths == if |records| == 0 then [] else ColumnWidths(rep.sheet, reprFloat)
  {
  }

  /** A1 holds the form name (the fallback title for `""`), row 2 is empty,
      and every cell of the sheet lies in rows 1..`max_row`. */
  lemma ReportTitle(formName: Value, records: seq<Record>, fmtG: Formatter)
    requires AllCompact(records) && PrepareAll(records, fmtG).Ok?
    ensures var sh := ReportSheet(formName, records, fmtG);
            Wf(sh) && Holds(sh, 1, 1, Title(formName)) && RowIs(sh, 1, [Title(formName)]) && Blank(sh, 2)
  {
    var ps := PrepareAll(records, fmtG).value;
    PreparedFit(records, fmtG);
    StartFacts(formName);
    LayAllGrown(Start(formName), records, ps);
    BlankKept(Start(formName), LayAll(Start(formName), records, ps), 3, 2);
    SoleCellRow(Start(formName), LayAll(Start(formName), records, ps), 1, Title(formName), 3);
  }

  /** Every test lies on the report sheet with the values its preparation
      gave: the first from row 3, each next one from two rows below the end
      of the one before, the last ending on `max_row`. */
  lemma ReportTests(formName: Value, records: seq<Record>, fmtG: Formatter)
    requires AllCompact(records) && PrepareAll(records, fmtG).Ok?
    ensures var ps := PrepareAll(records, fmtG).value;
            && (forall i :: 0 <= i < |records| ==> PreparedFrom(records[i], fmtG, ps[i]))
            && exists ends :: TestsInOrder(ReportSheet(formName, records, fmtG), records, ps, ends) && ends[0] == 1
  {
    PreparedFit(records, fmtG);
    StartFacts(formName);
    LayAllInOrder(Start(formName), records, PrepareAll(records, fmtG).value);
  }

  /** No widths are set without tests; otherwise one per column up to `max_column`. */
  lemma ReportWidthCount(formName: Value, records: seq<Record>, fmtG: Formatter, reprFloat: FloatRepr)
    requires WriteExcel(formName, records, fmtG, reprFloat).Ok?
    ensures var rep := WriteExcel(formName, records, fmtG, reprFloat).value;
            && (|records| == 0 ==> rep.widths == [])
            && (|records| > 0 ==> |rep.widths| == rep.sheet.maxCol)
  {
    WriteExcelSheet(formName, records, fmtG, reprFloat);
  }

  /** Column `c` is two wider than the longest text in it, and that width is
      attained by one of its cells unless the column shows no text. */
  lemma ReportWidthAt(formName: Value, records: seq<Record>, fmtG: Formatter, reprFloat: FloatRepr, c: int)
    requires WriteExcel(formName, records, fmtG, reprFloat).Ok? && 1 <= c <= |WriteExcel(formName, records, fmtG, reprFloat).value.widths|
    ensures var rep := WriteExcel(formName, records, fmtG, reprFloat).value;
            WidthFits(rep.sheet, rep.widths, c, reprFloat)
  {
    WriteExcelSheet(formName, records, fmtG, reprFloat);
    var rep := WriteExcel(formName, records, fmtG, reprFloat).value;
    ColumnFits(rep.sheet, reprFloat, c);
  }

  /** Width `c` bounds every text of column `c` by two and is attained, or is 2. */
  ghost predicate WidthFits(sh: Sheet, widths: seq<nat>, c: int, reprFloat: FloatRepr)
    requires 1 <= c <= |widths|
  {
    && (forall r :: 1 <= r <= sh.maxRow ==> CellLength(sh, r, c, reprFloat) + 2 <= widths[c - 1])
    && (widths[c - 1] == 2 || exists r :: 1 <= r <= sh.maxRow && CellLength(sh, r, c, reprFloat) + 2 == widths[c - 1])
  }

  lemma ColumnFits(sh: Sheet, reprFloat: FloatRepr, c: int)
    requires 1 <= c <= sh.maxCol && sh.maxRow >= 0
    ensures WidthFits(sh, ColumnWidths(sh, reprFloat), c, reprFloat)
  {
    WidthFitsColumn(sh, reprFloat, c);
  }

  // ----- One file -----

  /** A test's record has at most two general-info rows. */
  lemma ExtractedCompact(test: Element)
    requires ExtractTest(test).Ok?
    ensures Compact(ExtractTest(test).value)
  {
    GeneralInfoShape(test, CellData(test).value);
  }

  /** `formname, all_tests = parse_xml(f)` then `write_excel(formname, all_tests, …)`:
      a document without a form fails on the unpacking. */
  function ConvertFile(root: Element, fmtG: Formatter, reprFloat: FloatRepr): (r: Result<Report>)
    ensures ParseXml(root) == Ok(None) ==> r == Err(NoForm)
    ensures ParseXml(root).Err? ==> r == Err(ParseXml(root).error)
    ensures ParseXml(root).Ok? && ParseXml(root).value.Some? ==>
              var x := ParseXml(root).value.value;
              r == WriteExcel(x.formName, x.tests, fmtG, reprFloat)
  {
    var parsed :- ParseXml(root);
    if parsed.None? then Err(NoForm)
    else WriteExcel(parsed.value.formName, parsed.value.tests, fmtG, reprFloat)
  }

  /** Every record of a parsed document is compact. */
  lemma ParsedCompact(root: Element)
    requires ParseXml(root).Ok? && ParseXml(root).value.Some?
    ensures AllCompact(ParseXml(root).value.value.tests)
  {
    ParseXmlRecords(root);
    var tests := FindAll(FindAll(root, "form")[0], "test");
    var recs := ParseXml(root).value.value.tests;
    forall i | 0 <= i < |recs|
      ensures Compact(recs[i])
    {
      ExtractedCompact(tests[i]);
    }
  }

  /** A converted file's sheet carries its title in A1 and every test of its
      first form in order, each with the values its preparation gave. */
  lemma ConvertFileLaidOut(root: Element, fmtG: Formatter, reprFloat: FloatRepr)
    requires ConvertFile(root, fmtG, reprFloat).Ok?
    ensures ParseXml(root).Ok? && ParseXml(root).value.Some?
    ensures var x := ParseXml(root).value.value;
            var sh := ConvertFile(root, fmtG, reprFloat).value.sheet;
            && PrepareAll(x.tests, fmtG).Ok?
            && Holds(sh, 1, 1, Title(x.formName))
            && exists ends :: TestsInOrder(sh, x.tests, PrepareAll(x.tests, fmtG).value, ends) && ends[0] == 1
  {
    var x := ParseXml(root).value.value;
    ParsedCompact(root);
    WriteExcelSheet(x.formName, x.tests, fmtG, reprFloat);
    ReportTitle(x.formName, x.tests, fmtG);
    ReportTests(x.formName, x.tests, fmtG);
  }
}

=== FILE: scrape_cmd.dfy ===
/** scrape-cmd.py: the command-line converter. It reads the first test of a
    document, writes a sheet with the test's general information above its
    cell table, and saves it next to the input unless told otherwise. */
module ScrapeCmd {
  import opened Wrappers
  import opened Values
  import opened AssocList
  import opened ElementTree
  import opened CellMerge
  import opened MultifileExtract
  import opened Worksheet

  const FormNameKey := "Form Name"
  const TestDateKey := "Test Date"
  const ResultsGuidKey := "Results GUID"

  /** The sheet's name, also the text of A1. */
  const ReportTitle := "Battery Test Report"

  const Headers: seq<string> := ["Cell No", "Impedance (mΩ)", "Voltage (V)", "Temperature (°C)", "Specific Gravity", "Time"]

  /** The cell-row fields shown under the headers, looked up with their exact case. */
  const RowFields: seq<Field> := [CellNoKey, Some("impedance"), Some("voltage"), Some("temp"), Some("specific_gravity"), Some("time")]

  /** What `parse_xml` returns: the general information and the cell rows. */
  datatype Extraction = Extraction(generalInfo: Info, cellData: seq<CellEntry>)

  // ----- parse_xml -----

  /** The loop over forms, `general_info` as the forms before left it: each
      form's name is written, and the first test found ends the call. */
  function ScanForms(gi: Info, forms: seq<Element>): Result<Option<Extraction>>
    decreases |forms|
  {
    if |forms| == 0 then Ok(None)
    else
      var named := Set(gi, FormNameKey, FromText(Attr(forms[0], "name")));
      var tests := FindAll(forms[0], "test");
      if |tests| == 0 then ScanForms(named, forms[1..])
      else
        var test := tests[0];
        var dated := Set(Set(named, TestDateKey, FromText(Attr(test, "date"))), ResultsGuidKey, FromText(Attr(test, "resultsguid")));
        var cells :- CellData(test);
        Ok(Some(Extraction(dated, cells)))
  }

  /** `parse_xml(file_path)` on the parsed document; `None` when no form has a test. */
  function ParseXml(root: Element): Result<Option<Extraction>> {
    ScanForms([], FindAll(root, "form"))
  }

  predicate HasTest(form: Element) {
    |FindAll(form, "test")| > 0
  }

  /** Form `k` is the first with a test. */
  predicate FirstWithTest(forms: seq<Element>, k: int) {
    0 <= k < |forms| && HasTest(forms[k]) && forall j :: 0 <= j < k ==> !HasTest(forms[j])
  }

  /** The general information of a test: its form's name, then its date and results GUID. */
  function TestInfo(form: Element, test: Element): Info {
    [(FormNameKey, FromText(Attr(form, "name"))), (TestDateKey, FromText(Attr(test, "date"))),
     (ResultsGuidKey, FromText(Attr(test, "resultsguid")))]
  }

  /** What reading the first test of `form` gives. */
  function FirstTestOf(form: Element): Result<Option<Extraction>>
    requires HasTest(form)
  {
    var test := FindAll(form, "test")[0];
    match CellData(test)
    case Ok(cells) => Ok(Some(Extraction(TestInfo(form, test), cells)))
    case Err(e) => Err(e)
  }

  lemma InfoKeysDistinct()
    ensures FormNameKey != TestDateKey && FormNameKey != ResultsGuidKey && TestDateKey != ResultsGuidKey
  {
    assert FormNameKey[0] != TestDateKey[0] && FormNameKey[0] != ResultsGuidKey[0] && TestDateKey[0] != ResultsGuidKey[0];
  }

  /** A `general_info` that holds at most a form name. */
  predicate NamedAtMost(gi: Info) {
    gi == [] || (|gi| == 1 && gi[0].0 == FormNameKey)
  }

  /** Setting the form name on such a `general_info` leaves exactly that entry. */
  lemma SetName(gi: Info, v: Value)
    requires NamedAtMost(gi)
    ensures Set(gi, FormNameKey, v) == [(FormNameKey, v)]
  {
    if gi == [] {
      SetMissing(gi, FormNameKey, v);
    } else {
      SetOnly(gi, FormNameKey, v);
    }
  }

  /** The three writes of a test's information, in their order. */
  lemma InfoSets(gi: Info, v: Value, d: Value, g: Value)
    requires NamedAtMost(gi)
    ensures Set(Set(Set(gi, FormNameKey, v), TestDateKey, d), ResultsGuidKey, g)
            == [(FormNameKey, v), (TestDateKey, d), (ResultsGuidKey, g)]
  {
    SetName(gi, v);
    InfoKeysDistinct();
    SetMissing([(FormNameKey, v)], TestDateKey, d);
    SetMissing([(FormNameKey, v), (TestDateKey, d)], ResultsGuidKey, g);
  }

  /** A first form with a test decides the scan. */
  lemma ScanFirst(gi: Info, forms: seq<Element>)
    requires NamedAtMost(gi) && |forms| > 0 && HasTest(forms[0])
    ensures ScanForms(gi, forms) == FirstTestOf(forms[0])
  {
    var test := FindAll(forms[0], "test")[0];
    var v := FromText(Attr(forms[0], "name"));
    var d := FromText(Attr(test, "date"));
    var dated := Set(Set(Set(gi, FormNameKey, v), TestDateKey, d), ResultsGuidKey, FromText(Attr(test, "resultsguid")));
    InfoSets(gi, v, d, FromText(Attr(test, "resultsguid")));
    assert dated == TestInfo(forms[0], test);
    match CellData(test)
    case Ok(cells) =>
      assert ScanForms(gi, forms) == Ok(Some(Extraction(dated, cells)));
    case Err(e) =>
      assert ScanForms(gi, forms) == Err(e);
  }

  /** The scan from a `general_info` that holds at most the form name. */
  lemma {:induction false} ScanFormsSpec(gi: Info, forms: seq<Element>)
    requires NamedAtMost(gi)
    ensures (forall j :: 0 <= j < |forms| ==> !HasTest(forms[j])) ==> ScanForms(gi, forms) == Ok(None)
    ensures forall k :: FirstWithTest(forms, k) ==> ScanForms(gi, forms) == FirstTestOf(forms[k])
    decreases |forms|
  {
    if |forms| > 0 {
      if HasTest(forms[0]) {
        ScanFirst(gi, forms);
        assert forall k :: FirstWithTest(forms, k) ==> k == 0;
      } else {
        var named := Set(gi, FormNameKey, FromText(Attr(forms[0], "name")));
        SetName(gi, FromText(Attr(forms[0], "name")));
        ScanFormsSpec(named, forms[1..]);
        assert forall j :: 1 <= j < |forms| ==> forms[1..][j - 1] == forms[j];
        forall k | FirstWithTest(forms, k)
          ensures ScanForms(gi, forms) == FirstTestOf(forms[k])
        {
          assert FirstWithTest(forms[1..], k - 1);
        }
      }
    }
  }

  /** Only the first test of the document counts: `None` when no form has a
      test; otherwise that test's information (its form's name, date and
      results GUID, in that order) and its merged cell rows, or the error of
      its cell data. */
  lemma ParseXmlFirstTest(root: Element)
    ensures var forms := FindAll(root, "form");
            && ((forall j :: 0 <= j < |forms| ==> !HasTest(forms[j])) ==> ParseXml(root) == Ok(None))
            && forall k :: FirstWithTest(forms, k) ==> ParseXml(root) == FirstTestOf(forms[k])
  {
    ScanFormsSpec([], FindAll(root, "form"));
  }

  // ----- write_excel -----

  /** One line of the cell table: the six fields, `""` where one is missing, nothing converted. */
  function CellLine(entry: CellEntry): (vs: seq<Value>)
    ensures |vs| == |RowFields|
  {
    seq(|RowFields|, j requires 0 <= j < |RowFields| => Get(entry, RowFields[j]).GetOr(Str("")))
  }

  function HeaderLine(): (hs: seq<Value>)
    ensures |hs| == |Headers|
    ensures forall j :: 0 <= j < |Headers| ==> hs[j] == Str(Headers[j])
  {
    seq(|Headers|, j requires 0 <= j < |Headers| => Str(Headers[j]))
  }

  function InfoLine(entry: (string, Value)): seq<Value> {
    [Str(entry.0), entry.1]
  }

  /** Line `j` of what `write_excel` appends: the title, an empty line, the
      general information, an empty line, the headers, the cell lines. */
  function LineOf(gi: Info, cells: seq<CellEntry>, j: int): seq<Value>
    requires 0 <= j < |gi| + |cells| + 4
  {
    var g := |gi|;
    if j == 0 then [Str(ReportTitle)]
    else if j == 1 || j == 2 + g then []
    else if j < 2 + g then InfoLine(gi[j - 2])
    else if j == 3 + g then HeaderLine()
    else CellLine(cells[j - 4 - g])
  }

  /** The rows `write_excel` appends, in order. */
  function Lines(gi: Info, cells: seq<CellEntry>): (ls: seq<seq<Value>>)
    ensures |ls| == |gi| + |cells| + 4
    ensures forall j :: 0 <= j < |ls| ==> ls[j] == LineOf(gi, cells, j)
  {
    seq(|gi| + |cells| + 4, j requires 0 <= j < |gi| + |cells| + 4 => LineOf(gi, cells, j))
  }

  /** `write_excel(general_info, cell_data, …)`: the lines appended to a new
      sheet, `ws.columns` walked, and every column's width set. */
  function WriteExcel(gi: Info, cells: seq<CellEntry>, reprFloat: FloatRepr): (rep: Report)
    ensures rep.sheetName == ReportTitle
  {
    var sh := FillColumns(AppendAll(Fresh, Lines(gi, cells)));
    Report(ReportTitle, sh, ColumnWidths(sh, reprFloat))
  }

  /** Line `j` of any list appended to a new sheet is row `j + 1`. */
  lemma AppendedLine(ls: seq<seq<Value>>, j: int)
    requires 0 <= j < |ls|
    ensures RowHolds(FillColumns(AppendAll(Fresh, ls)), j + 1, ls[j])
  {
    assert Fresh.cursor + j + 1 == j + 1;
    FilledRow(Fresh, ls, j, j + 1);
  }

  /** An empty line appended to a new sheet leaves its row blank. */
  lemma AppendedBlank(ls: seq<seq<Value>>, j: int)
    requires 0 <= j < |ls| && ls[j] == []
    ensures Blank(FillColumns(AppendAll(Fresh, ls)), j + 1)
  {
    FreshWf();
    EmptyRowBlank(Fresh, ls, j, j + 1);
  }

  /** ... and nothing else shows in that row. */
  lemma AppendedLineIs(ls: seq<seq<Value>>, j: int)
    requires 0 <= j < |ls|
    ensures RowIs(FillColumns(AppendAll(Fresh, ls)), j + 1, ls[j])
  {
    AppendedLine(ls, j);
    FilledOnly(ls);
  }

  /** Appending the lines to a fresh sheet and filling the columns adds
      nothing but the lines' cells and empty ones. */
  lemma FilledOnly(ls: seq<seq<Value>>)
    ensures AddsOnly(Fresh, FillColumns(AppendAll(Fresh, ls)), RowsSpan(1, ls))
  {
    var app := AppendAll(Fresh, ls);
    AppendAllOnlyAt(Fresh, ls);
    FillOnly(app);
    FillExtends(app);
    AddsOnlyTrans(Fresh, app, FillColumns(app), RowsSpan(1, ls), {});
    assert RowsSpan(1, ls) + {} == RowsSpan(1, ls);
  }


  /** Every line appended to a new sheet is the row after the one before, and shows nothing else. */
  lemma AppendedLines(ls: seq<seq<Value>>)
    ensures forall j :: 0 <= j < |ls| ==> RowIs(FillColumns(AppendAll(Fresh, ls)), j + 1, ls[j])
  {
    forall j | 0 <= j < |ls|
      ensures RowIs(FillColumns(AppendAll(Fresh, ls)), j + 1, ls[j])
    {
      AppendedLineIs(ls, j);
    }
  }

  /** Where each line lands: the title in A1, row 2 empty, one key/value row
      per general-information entry in dict order from row 3, an empty row,
      the headers, then one row per cell entry in cell-data order. Each row
      shows only its line, and no cell lies below the last one. */
  ghost predicate LaidOut(sh: Sheet, gi: Info, cells: seq<CellEntry>) {
    var g := |gi|;
    && RowIs(sh, 1, [Str(ReportTitle)]) && Blank(sh, 2)
    && (forall i :: 0 <= i < g ==> RowIs(sh, 3 + i, [Str(gi[i].0), gi[i].1]))
    && Blank(sh, 3 + g) && RowIs(sh, 4 + g, HeaderLine())
    && (forall k :: 0 <= k < |cells| ==> RowIs(sh, 5 + g + k, CellLine(cells[k])))
    && (forall q :: q in sh.cells ==> 1 <= q.0 <= 4 + g + |cells|)
  }

  /** A sheet whose rows hold the lines in order is laid out as described. */
  lemma LinesLaidOut(sh: Sheet, gi: Info, cells: seq<CellEntry>, ls: seq<seq<Value>>)
    requires |ls| == |gi| + |cells| + 4
    requires forall j :: 0 <= j < |ls| ==> ls[j] == LineOf(gi, cells, j)
    requires forall j :: 0 <= j < |ls| ==> RowIs(sh, j + 1, ls[j])
    requires Blank(sh, 2) && Blank(sh, 3 + |gi|)
    requires forall q :: q in sh.cells ==> 1 <= q.0 <= |ls|
    ensures LaidOut(sh, gi, cells)
  {
    var g := |gi|;
    assert RowIs(sh, 1, ls[0]);
    assert RowIs(sh, 4 + g, ls[3 + g]);
    forall i | 0 <= i < g
      ensures RowIs(sh, 3 + i, [Str(gi[i].0), gi[i].1])
    {
      assert RowIs(sh, 2 + i + 1, ls[2 + i]);
    }
    forall k | 0 <= k < |cells|
      ensures RowIs(sh, 5 + g + k, CellLine(cells[k]))
    {
      assert RowIs(sh, 4 + g + k + 1, ls[4 + g + k]);
    }
  }

  lemma ReportRows(gi: Info, cells: seq<CellEntry>, reprFloat: FloatRepr)
    ensures LaidOut(WriteExcel(gi, cells, reprFloat).sheet, gi, cells)
  {
    var ls := Lines(gi, cells);
    var g := |gi|;
    AppendedLines(ls);
    AppendedBlank(ls, 1);
    AppendedBlank(ls, 2 + g);
    ReportBounds(gi, cells, reprFloat);
    LinesLaidOut(FillColumns(AppendAll(Fresh, ls)), gi, cells, ls);
  }

  /** The table has six columns and ends the sheet: `max_row` is the last
      cell line (the header line when there are none). */
  lemma ReportBounds(gi: Info, cells: seq<CellEntry>, reprFloat: FloatRepr)
    ensures var sh := WriteExcel(gi, cells, reprFloat).sheet;
            sh.maxRow == 4 + |gi| + |cells| && sh.maxCol == |Headers| && Wf(sh)
  {
    LinesBounds(Lines(gi, cells), 3 + |gi|);
  }

  /** Lines appended to a new sheet, the last one not empty and line `h` the
      widest, span `|ls|` rows and as many columns as line `h` has values. */
  lemma LinesBounds(ls: seq<seq<Value>>, h: int)
    requires 0 <= h < |ls| && |ls[|ls| - 1]| > 0 && |ls[h]| > 0
    requires forall j :: 0 <= j < |ls| ==> |ls[j]| <= |ls[h]|
    ensures var sh := FillColumns(AppendAll(Fresh, ls));
            sh.maxRow == |ls| && sh.maxCol == |ls[h]| && Wf(sh)
  {
    FreshWf();
    AppendAllWf(Fresh, ls);
    AppendedWidth(ls, h);
  }

  lemma AppendedWidth(ls: seq<seq<Value>>, h: int)
    requires 0 <= h < |ls| && |ls[h]| > 0
    requires forall j :: 0 <= j < |ls| ==> |ls[j]| <= |ls[h]|
    ensures AppendAll(Fresh, ls).maxCol == |ls[h]|
  {
    var app := AppendAll(Fresh, ls);
    FreshWf();
    AppendAllWf(Fresh, ls);
    AppendAllOnly(Fresh, ls);
    AppendAllRow(Fresh, ls, h, h + 1);
    assert (h + 1, |ls[h]|) in app.cells;
    forall p | p in app.cells
      ensures p.1 <= |ls[h]|
    {
      assert p !in Fresh.cells;
    }
    MaxColIs(app, |ls[h]|, h + 1);
  }

  /** Each field of a table line holds the last value written for that cell
      and field ("" when none was), and its first column the cell number,
      provided no array is named "Cell No". */
  lemma CellLineLastWrite(ws: seq<Write>, k: int, j: int)
    requires NoCellNoWrites(ws) && 0 <= k < |Merge(ws)| && 0 <= j < |RowFields|
    ensures CellNumber(Merge(ws)[k]).Some?
    ensures var c := CellNumber(Merge(ws)[k]).value;
            CellLine(Merge(ws)[k])[j] == if j == 0 then Int(c) else LastWrite(ws, c, RowFields[j]).GetOr(Str(""))
  {
    var row := Merge(ws)[k];
    OneRowPerIndex(ws);
    LastWriteWins(ws);
    var c := CellNumber(row).value;
    var f := RowFields[j];
    if j > 0 {
      RowFieldNotCellNo(j);
    }
    RowReads(row, c, LastWrite(ws, c, f), j);
  }

  /** Only the first line field is the cell number. */
  lemma RowFieldNotCellNo(j: int)
    requires 0 < j < |RowFields|
    ensures RowFields[j] != CellNoKey
  {
    assert RowFields[j].value[0] != CellNoKey.value[0];
  }

  /** Line field `j` of a row with cell number `c` whose field `j` reads `last`. */
  lemma RowReads(row: CellEntry, c: int, last: Option<Value>, j: int)
    requires 0 <= j < |RowFields| && CellNumber(row) == Some(c)
    requires j > 0 ==> Get(row, RowFields[j]) == last
    ensures CellLine(row)[j] == if j == 0 then Int(c) else last.GetOr(Str(""))
  {
  }

  /** Column `c`'s width bounds every text in it by two and is attained,
      or is 2 when the column shows no text; falsy values count as empty. */
  lemma ReportWidths(gi: Info, cells: seq<CellEntry>, reprFloat: FloatRepr, c: int)
    requires 1 <= c <= |Headers|
    ensures var rep := WriteExcel(gi, cells, reprFloat);
            && |rep.widths| == |Headers|
            && (forall r :: 1 <= r <= rep.sheet.maxRow ==> CellLength(rep.sheet, r, c, reprFloat) + 2 <= rep.widths[c - 1])
            && (rep.widths[c - 1] == 2
                || exists r :: 1 <= r <= rep.sheet.maxRow && CellLength(rep.sheet, r, c, reprFloat) + 2 == rep.widths[c - 1])
  {
    ReportBounds(gi, cells, reprFloat);
    WidthFitsColumn(WriteExcel(gi, cells, reprFloat).sheet, reprFloat, c);
  }

  // ----- main -----

  /** `general_info, cell_data = parse_xml(input_file)` then
      `write_excel(general_info, cell_data, …)`: a document in which no form
      has a test fails on the unpacking; otherwise the first test is laid out. */
  function ConvertFile(root: Element, reprFloat: FloatRepr): (r: Result<Report>)
    ensures ParseXml(root) == Ok(None) ==> r == Err(NoForm)
    ensures ParseXml(root).Err? ==> r == Err(ParseXml(root).error)
    ensures ParseXml(root).Ok? && ParseXml(root).value.Some? ==>
              var x := ParseXml(root).value.value;
              r.Ok? && r.value.sheetName == ReportTitle && LaidOut(r.value.sheet, x.generalInfo, x.cellData)
  {
    var parsed :- ParseXml(root);
    if parsed.None? then Err(NoForm)
    else
      ReportRows(parsed.value.generalInfo, parsed.value.cellData, reprFloat);
      Ok(WriteExcel(parsed.value.generalInfo, parsed.value.cellData, reprFloat))
  }


  /** The last position of `ch` in `s`, or -1. */
  function LastIndexOf(s: string, ch: char): (i: int)
    ensures -1 <= i < |s|
    ensures i >= 0 ==> s[i] == ch
    ensures forall k :: i < k < |s| ==> s[k] != ch
    decreases |s|
  {
    if |s| == 0 then -1
    else if s[|s| - 1] == ch then |s| - 1
    else LastIndexOf(s[..|s| - 1], ch)
  }

  /** `os.path.splitext(p)` on POSIX paths: the extension starts at the last
      dot of the last path component, provided something other than dots
      precedes it in that component; otherwise there is none. */
  function SplitExt(p: string): (r: (string, string)) {
    var sep := LastIndexOf(p, '/');
    var dot := LastIndexOf(p, '.');
    if dot > sep && exists i :: sep < i < dot && p[i] != '.' then (p[..dot], p[dot..])
    else (p, "")
  }

  /** A dot at `d` starts an extension: no dot or separator follows it, and a
      character other than a dot precedes it in the same path component. */
  predicate ExtAt(p: string, d: int) {
    && 0 <= d < |p| && p[d] == '.'
    && (forall k :: d < k < |p| ==> p[k] != '.' && p[k] != '/')
    && exists i :: 0 <= i < d && p[i] != '.' && forall k :: i <= k < d ==> p[k] != '/'
  }

  /** A dot that starts an extension is the last dot, after the last
      separator, with a character other than a dot between the two. */
  lemma ExtAtIsLastDot(p: string, d: int)
    requires ExtAt(p, d)
    ensures LastIndexOf(p, '.') == d
    ensures exists i :: LastIndexOf(p, '/') < i < d && p[i] != '.'
  {
    var i :| 0 <= i < d && p[i] != '.' && forall k :: i <= k < d ==> p[k] != '/';
    var sep := LastIndexOf(p, '/');
    assert sep < i;
  }

  /** The two parts put back together give the path; the extension is empty
      exactly when no dot starts one, and otherwise begins at such a dot. */
  lemma SplitExtSpec(p: string)
    ensures SplitExt(p).0 + SplitExt(p).1 == p
    ensures SplitExt(p).1 == "" <==> forall d :: 0 <= d < |p| ==> !ExtAt(p, d)
    ensures SplitExt(p).1 != "" ==> ExtAt(p, |SplitExt(p).0|)
  {
    var sep := LastIndexOf(p, '/');
    var dot := LastIndexOf(p, '.');
    forall d | 0 <= d < |p| && ExtAt(p, d)
      ensures SplitExt(p).1 != ""
    {
      ExtAtIsLastDot(p, d);
    }
    if dot > sep && exists i :: sep < i < dot && p[i] != '.' {
      var i :| sep < i < dot && p[i] != '.';
      assert ExtAt(p, dot);
      assert p[..dot] + p[dot..] == p;
    } else {
      assert p + "" == p;
    }
  }

  const ReportSuffix := "_report.xlsx"

  /** `args.output or os.path.splitext(input_file)[0] + "_report.xlsx"`. */
  function OutputPath(input: string, output: Option<string>): string {
    if output.Some? && output.value != "" then output.value else SplitExt(input).0 + ReportSuffix
  }

  /** Without `-o` (or with an empty one) the output is an `.xlsx` file whose
      stem is the input's stem followed by `_report`; otherwise it is the
      given name. */
  lemma OutputPathSpec(input: string, output: Option<string>)
    ensures output.Some? && output.value != "" ==> OutputPath(input, output) == output.value
    ensures output.None? || output.value == "" ==>
              SplitExt(OutputPath(input, output)) == (SplitExt(input).0 + "_report", ".xlsx")
  {
    if output.None? || output.value == "" {
      DefaultSplits(SplitExt(input).0);
    }
  }

  lemma DefaultSplits(stem: string)
    ensures SplitExt(stem + ReportSuffix) == (stem + "_report", ".xlsx")
  {
    var out := stem + ReportSuffix;
    var n := |stem| + 7;
    assert out[n] == '.';
    assert out[n - 7] == '_';
    forall k | n < k < |out|
      ensures out[k] != '.' && out[k] != '/'
    {
      assert out[k] == ReportSuffix[k - |stem|];
    }
    forall k | n - 7 <= k < n
      ensures out[k] != '/'
    {
      assert out[k] == ReportSuffix[k - |stem|];
    }
    assert ExtAt(out, n);
    ExtAtIsLastDot(out, n);
    assert out[..n] == stem + "_report";
    assert out[n..] == ".xlsx";
  }
}

=== FILE: scrape_csv.dfy ===
/** scrape.py: `parse_pdbxml` flattens every test of every form into one
    dict row — the form name, the test's date and results GUID, then one
    column per `tag` and per `array` of the test's `data` element. */
module ScrapeCsv {
  import opened Wrappers
  import opened Values
  import opened AssocList
  import opened ElementTree
  import Text

  /** A column name: the fixed names, or the `name` attribute of a tag or an
      array, which is `None` when the attribute is missing. */
  type Column = Option<string>

  type Row = Dict<Column, Value>

  const FormNameColumn: Column := Some("form_name")
  const TestDateColumn: Column := Some("test_date")
  const ResultsGuidColumn: Column := Some("resultsguid")

  /** What `", ".join(...)` puts between array items. */
  const ItemSeparator := ", "

  // ----- One test -----

  /** The dict literal a row starts from. */
  function FixedColumns(form: Element, test: Element): Row {
    [(FormNameColumn, FromText(Attr(form, "name"))), (TestDateColumn, FromText(Attr(test, "date"))),
     (ResultsGuidColumn, FromText(Attr(test, "resultsguid")))]
  }

  /** `row[tag.get("name")] = tag.text if tag.text is not None else ""`. */
  function TagPair(tag: Element): (Column, Value) {
    (Attr(tag, "name"), Str(tag.text.GetOr("")))
  }

  /** The texts of the items that have one, in document order. */
  function ItemTexts(items: seq<Element>): (ts: seq<string>)
    ensures |ts| <= |items|
    decreases |items|
  {
    if |items| == 0 then []
    else (if items[0].text.Some? then [items[0].text.value] else []) + ItemTexts(items[1..])
  }

  /** An array's cell: its items' texts joined by ", "; the `index` attribute plays no part. */
  function ArrayText(arr: Element): string {
    Text.Join(ItemSeparator, ItemTexts(FindAll(arr, "arrayitem")))
  }

  function ArrayPair(arr: Element): (Column, Value) {
    (Attr(arr, "name"), Str(ArrayText(arr)))
  }

  /** The assignments of the tag loop, in order. */
  function TagPairs(data: Element): (ps: seq<(Column, Value)>)
    ensures |ps| == |FindAll(data, "tag")|
    ensures forall i :: 0 <= i < |ps| ==> ps[i] == TagPair(FindAll(data, "tag")[i])
  {
    var tags := FindAll(data, "tag");
    seq(|tags|, i requires 0 <= i < |tags| => TagPair(tags[i]))
  }

  /** The assignments of the array loop, in order. */
  function ArrayPairs(data: Element): (ps: seq<(Column, Value)>)
    ensures |ps| == |FindAll(data, "array")|
    ensures forall i :: 0 <= i < |ps| ==> ps[i] == ArrayPair(FindAll(data, "array")[i])
  {
    var arrays := FindAll(data, "array");
    seq(|arrays|, i requires 0 <= i < |arrays| => ArrayPair(arrays[i]))
  }

  /** The tag loop, then the array loop, on a row holding `fixed`. */
  function DataRow(fixed: Row, data: Element): Row {
    SetAll(SetAll(fixed, TagPairs(data)), ArrayPairs(data))
  }

  /** The row of one test: the fixed columns, overwritten by the tags, overwritten
      by the arrays, all read from the first `data` child; a test without one
      fails (`.findall` on `None`). */
  function RowOf(form: Element, test: Element): (r: Result<Row>)
    ensures r.Err? <==> Find(test, "data").None?
    ensures r.Err? ==> r.error == MissingData
  {
    match Find(test, "data")
    case None => Err(MissingData)
    case Some(data) => Ok(DataRow(FixedColumns(form, test), data))
  }

  // ----- All tests -----

  /** The (form, test) pairs of one form, in document order. */
  function TestsOf(form: Element): (ps: seq<(Element, Element)>)
    ensures |ps| == |FindAll(form, "test")|
    ensures forall t :: 0 <= t < |ps| ==> ps[t] == (form, FindAll(form, "test")[t])
  {
    var tests := FindAll(form, "test");
    seq(|tests|, t requires 0 <= t < |tests| => (form, tests[t]))
  }

  /** The nested loops over forms and their tests, flattened. */
  function AllTests(forms: seq<Element>): seq<(Element, Element)>
    decreases |forms|
  {
    if |forms| == 0 then [] else TestsOf(forms[0]) + AllTests(forms[1..])
  }

  /** How many tests the forms hold. */
  function TestCount(forms: seq<Element>): nat
    decreases |forms|
  {
    if |forms| == 0 then 0 else |FindAll(forms[0], "test")| + TestCount(forms[1..])
  }

  /** `r` lists the rows of the tests `ps`, one per test and in their order,
      and is the failure of a missing `data` child iff some test has none. */
  ghost predicate RowsFor(ps: seq<(Element, Element)>, r: Result<seq<Row>>) {
    && (r.Ok? <==> forall i :: 0 <= i < |ps| ==> Find(ps[i].1, "data").Some?)
    && (r.Ok? ==> |r.value| == |ps| && forall i :: 0 <= i < |ps| ==> RowOf(ps[i].0, ps[i].1) == Ok(r.value[i]))
    && (r.Err? ==> r.error == MissingData)
  }

  function RowOfPair(p: (Element, Element)): Result<Row> {
    RowOf(p.0, p.1)
  }

  /** The rows of the listed tests, appended in order; the first test
      without a `data` child ends the call. */
  function RowsOf(ps: seq<(Element, Element)>): (r: Result<seq<Row>>)
    ensures RowsFor(ps, r)
  {
    var r := MapAllOk(ps, RowOfPair);
    assert r.Err? ==> r.error == MissingData by {
      if r.Err? {
        var i :| 0 <= i < |ps| && RowOfPair(ps[i]) == Err(r.error);
      }
    }
    r
  }

  /** `parse_pdbxml` on the parsed document: one row per test of every form,
      or the failure a test without a `data` child raises. */
  function ParsePdbxml(root: Element): (r: Result<seq<Row>>)
    ensures RowsFor(AllTests(FindAll(root, "form")), r)
  {
    RowsOf(AllTests(FindAll(root, "form")))
  }

  // ----- The namespace prefix -----

  /** The tree as the `pdb:` queries see it when `pdb` is bound to the
      namespace whose Clark prefix (`{uri}`) is `clark`: an element in that
      namespace answers to its local name; every other element gets a name
      starting with "{", which no query asks for. */
  function Resolve(e: Element, clark: string): (r: Element)
    ensures r.attrs == e.attrs && r.text == e.text && |r.children| == |e.children|
    decreases e
  {
    var tag := if clark <= e.tag then e.tag[|clark|..] else "{" + e.tag;
    Element(tag, e.attrs, e.text, seq(|e.children|, i requires 0 <= i < |e.children| => Resolve(e.children[i], clark)))
  }

  /** `pdb:t` matches exactly the elements named `{uri}t`. */
  lemma ResolveMatches(e: Element, uri: string, t: string)
    requires |t| > 0 && t[0] != '{'
    ensures Resolve(e, "{" + uri + "}").tag == t <==> e.tag == "{" + uri + "}" + t
  {
    var clark := "{" + uri + "}";
    if e.tag == clark + t {
      assert clark <= e.tag;
      assert e.tag[|clark|..] == t;
    }
    if clark <= e.tag && e.tag[|clark|..] == t {
      assert e.tag == clark + t;
    }
    if !(clark <= e.tag) {
      assert Resolve(e, clark).tag[0] == '{';
    }
  }

  /** `parse_pdbxml(file_name, encoding, namespace)` on the parsed document,
      as written: the prefix map is `{'pdb': namespace}` for a non-empty
      namespace and `{}` otherwise, and with the empty map the first
      `findall("pdb:form", ns)` raises. */
  function ParsePdbxmlNs(root: Element, namespace: string): (r: Result<seq<Row>>)
    ensures namespace == "" ==> r == Err(PrefixNotFound)
    ensures namespace != "" ==> RowsFor(AllTests(FindAll(Resolve(root, "{" + namespace + "}"), "form")), r)
  {
    if namespace == "" then Err(PrefixNotFound)
    else ParsePdbxml(Resolve(root, "{" + namespace + "}"))
  }

  /** A document without namespaces: one form holding one test with a `data` child. */
  const PlainDocument: Element :=
    Element("pdbxml", map[], None, [
      Element("form", map["name" := "F"], None, [
        Element("test", map[], None, [Element("data", map[], None, [])])])])

  /** As written, the namespace is not optional: without one even a document
      whose one test has its `data` child gives no row, where querying the
      plain names gives that test's row. */
  lemma NoNamespaceNoRows()
    ensures ParsePdbxmlNs(PlainDocument, "") == Err(PrefixNotFound)
    ensures ParsePdbxml(PlainDocument).Ok? && |ParsePdbxml(PlainDocument).value| == 1
  {
    var form := PlainDocument.children[0];
    var test := form.children[0];
    assert FindAll(PlainDocument, "form") == [form];
    assert FindAll(form, "test") == [test];
    assert Find(test, "data").Some? by {
      assert FindAll(test, "data") == [test.children[0]];
    }
    assert AllTests([form]) == TestsOf(form) + AllTests([]);
  }

  /** `parse_pdbxml` with the namespace optional, as the window's
      "Namespace (Optional)" field suggests: without one the plain names are
      queried; with one it behaves as written. */
  function ParsePdbxmlOptionalNs(root: Element, namespace: string): (r: Result<seq<Row>>)
    ensures namespace == "" ==> RowsFor(AllTests(FindAll(root, "form")), r)
  {
    if namespace == "" then ParsePdbxml(root) else ParsePdbxmlNs(root, namespace)
  }

  /** The corrected call differs from the one as written only when no namespace is given. */
  lemma OptionalNsAgrees(root: Element, namespace: string)
    ensures namespace != "" ==> ParsePdbxmlOptionalNs(root, namespace) == ParsePdbxmlNs(root, namespace)
    ensures namespace == "" ==> ParsePdbxmlNs(root, namespace).Err? && ParsePdbxmlOptionalNs(root, namespace) == ParsePdbxml(root)
  {
  }

  // ----- Document order -----

  /** The position of form `f`'s first test among all tests. */
  function Offset(forms: seq<Element>, f: int): nat
    requires 0 <= f <= |forms|
  {
    TestCount(forms[..f])
  }

  lemma TestCountCons(forms: seq<Element>, f: int)
    requires 0 < f <= |forms|
    ensures Offset(forms, f) == |FindAll(forms[0], "test")| + Offset(forms[1..], f - 1)
  {
    assert forms[..f][1..] == forms[1..][..f - 1];
  }

  /** As many pairs as tests. */
  lemma {:induction false} AllTestsCount(forms: seq<Element>)
    ensures |AllTests(forms)| == TestCount(forms)
    decreases |forms|
  {
    if |forms| > 0 {
      AllTestsCount(forms[1..]);
    }
  }

  /** Test `t` of form `f` comes after all tests of the forms before `f` and
      the tests of `f` before `t`. */
  lemma {:induction false} AllTestsAt(forms: seq<Element>, f: int, t: int)
    requires 0 <= f < |forms| && 0 <= t < |FindAll(forms[f], "test")|
    ensures Offset(forms, f) + t < |AllTests(forms)|
    ensures AllTests(forms)[Offset(forms, f) + t] == (forms[f], FindAll(forms[f], "test")[t])
    decreases f
  {
    if f == 0 {
      AllTestsAtFirst(forms, t);
    } else {
      AllTestsAt(forms[1..], f - 1, t);
      assert forms[1..][f - 1] == forms[f];
      AllTestsAtLater(forms, f, t);
    }
  }

  /** The first form's tests open the list. */
  lemma {:induction false} AllTestsAtFirst(forms: seq<Element>, t: int)
    requires 0 < |forms| && 0 <= t < |FindAll(forms[0], "test")|
    ensures Offset(forms, 0) + t < |AllTests(forms)|
    ensures AllTests(forms)[Offset(forms, 0) + t] == (forms[0], FindAll(forms[0], "test")[t])
  {
    assert Offset(forms, 0) == 0 by {
      assert forms[..0] == [];
    }
    AllTestsHead(forms, t);
    assert TestsOf(forms[0])[t] == (forms[0], FindAll(forms[0], "test")[t]);
  }

  /** A later form's test keeps its place behind the first form's tests. */
  lemma {:induction false} AllTestsAtLater(forms: seq<Element>, f: int, t: int)
    requires 0 < f < |forms| && 0 <= t < |FindAll(forms[f], "test")|
    requires Offset(forms[1..], f - 1) + t < |AllTests(forms[1..])|
    requires AllTests(forms[1..])[Offset(forms[1..], f - 1) + t] == (forms[f], FindAll(forms[f], "test")[t])
    ensures Offset(forms, f) + t < |AllTests(forms)|
    ensures AllTests(forms)[Offset(forms, f) + t] == (forms[f], FindAll(forms[f], "test")[t])
  {
    TestCountCons(forms, f);
    AllTestsShift(forms, Offset(forms[1..], f - 1) + t);
  }

  /** The first form's pairs open the list. */
  lemma {:induction false} AllTestsHead(forms: seq<Element>, t: int)
    requires |forms| > 0 && 0 <= t < |TestsOf(forms[0])|
    ensures t < |AllTests(forms)| && AllTests(forms)[t] == TestsOf(forms[0])[t]
  {
    AllTestsCons(forms);
  }

  /** The other forms' pairs follow the first form's. */
  lemma {:induction false} AllTestsShift(forms: seq<Element>, k: int)
    requires |forms| > 0 && 0 <= k < |AllTests(forms[1..])|
    ensures |TestsOf(forms[0])| + k < |AllTests(forms)|
    ensures AllTests(forms)[|TestsOf(forms[0])| + k] == AllTests(forms[1..])[k]
  {
    AllTestsCons(forms);
  }

  /** The pairs of the first form come first, then those of the others. */
  lemma AllTestsCons(forms: seq<Element>)
    requires |forms| > 0
    ensures |AllTests(forms)| == |TestsOf(forms[0])| + |AllTests(forms[1..])|
    ensures forall k :: 0 <= k < |TestsOf(forms[0])| ==> AllTests(forms)[k] == TestsOf(forms[0])[k]
    ensures forall k :: 0 <= k < |AllTests(forms[1..])| ==>
              AllTests(forms)[|TestsOf(forms[0])| + k] == AllTests(forms[1..])[k]
  {
  }

  /** The document's rows follow its tests: as many rows as tests, and row
      `Offset(f) + t` is the row of test `t` of form `f`. */
  lemma RowsInDocumentOrder(root: Element)
    requires ParsePdbxml(root).Ok?
    ensures InDocumentOrder(FindAll(root, "form"), ParsePdbxml(root).value)
  {
    RowsFollowTests(FindAll(root, "form"), ParsePdbxml(root));
  }

  /** As many rows as tests, and row `Offset(f) + t` is the row of test `t` of form `f`. */
  ghost predicate InDocumentOrder(forms: seq<Element>, rows: seq<Row>) {
    && |rows| == TestCount(forms)
    && forall f, t :: 0 <= f < |forms| && 0 <= t < |FindAll(forms[f], "test")| ==> RowPlaced(forms, rows, f, t)
  }

  /** Row `Offset(f) + t` is the row of test `t` of form `f`. */
  ghost predicate RowPlaced(forms: seq<Element>, rows: seq<Row>, f: int, t: int)
    requires 0 <= f < |forms|
  {
    0 <= t < |FindAll(forms[f], "test")| && Offset(forms, f) + t < |rows|
    && RowOf(forms[f], FindAll(forms[f], "test")[t]) == Ok(rows[Offset(forms, f) + t])
  }

  lemma RowsFollowTests(forms: seq<Element>, r: Result<seq<Row>>)
    requires RowsFor(AllTests(forms), r) && r.Ok?
    ensures InDocumentOrder(forms, r.value)
  {
    var ps := AllTests(forms);
    AllTestsCount(forms);
    forall f, t | 0 <= f < |forms| && 0 <= t < |FindAll(forms[f], "test")|
      ensures RowPlaced(forms, r.value, f, t)
    {
      AllTestsAt(forms, f, t);
      var i := Offset(forms, f) + t;
      assert RowOf(ps[i].0, ps[i].1) == Ok(r.value[i]);
    }

  }

  // ----- Columns of a row -----

  /** Element `i` is the last of `es` whose `name` attribute is `k`. */
  predicate LastNamed(es: seq<Element>, k: Column, i: int) {
    0 <= i < |es| && Attr(es[i], "name") == k && forall j :: i < j < |es| ==> Attr(es[j], "name") != k
  }

  /** Some element of `es` has `name` attribute `k`. */
  predicate Named(es: seq<Element>, k: Column) {
    exists i :: 0 <= i < |es| && Attr(es[i], "name") == k
  }

  /** The key of position `i` is the last occurrence of `k`. */
  lemma GetLastAt<V>(ps: seq<(Column, V)>, k: Column, i: int)
    requires 0 <= i < |ps| && ps[i].0 == k && forall j :: i < j < |ps| ==> ps[j].0 != k
    ensures GetLast(ps, k) == Some(ps[i].1)
  {
    assert k in Keys(ps) by {
      assert Keys(ps)[i] == k;
    }
  }

  lemma GetLastMissing<V>(ps: seq<(Column, V)>, k: Column)
    requires forall i :: 0 <= i < |ps| ==> ps[i].0 != k
    ensures GetLast(ps, k) == None
  {
    assert forall i :: 0 <= i < |ps| ==> Keys(ps)[i] != k;
  }

  /** The last of the pairs made from `es` that sets `k` comes from the last element named `k`. */
  lemma LastPairIsLastNamed(es: seq<Element>, ps: seq<(Column, Value)>, k: Column, i: int)
    requires |ps| == |es| && forall j :: 0 <= j < |es| ==> ps[j].0 == Attr(es[j], "name")
    requires LastNamed(es, k, i)
    ensures GetLast(ps, k) == Some(ps[i].1)
  {
    GetLastAt(ps, k, i);
  }

  lemma NoPairIfUnnamed(es: seq<Element>, ps: seq<(Column, Value)>, k: Column)
    requires |ps| == |es| && forall j :: 0 <= j < |es| ==> ps[j].0 == Attr(es[j], "name")
    requires !Named(es, k)
    ensures GetLast(ps, k) == None
  {
    GetLastMissing(ps, k);
  }

  /** The value a row holds for column `k`: the last array named `k` wins,
      else the last tag named `k` (even over a fixed column), else the fixed
      column, else nothing. */
  lemma RowValue(form: Element, test: Element, k: Column)
    requires RowOf(form, test).Ok?
    ensures var data := Find(test, "data").value;
            var row := RowOf(form, test).value;
            var tags := FindAll(data, "tag");
            var arrays := FindAll(data, "array");
            && (forall i :: LastNamed(arrays, k, i) ==> Get(row, k) == Some(Str(ArrayText(arrays[i]))))
            && (!Named(arrays, k) ==> forall i :: LastNamed(tags, k, i) ==> Get(row, k) == Some(Str(tags[i].text.GetOr(""))))
            && (!Named(arrays, k) && !Named(tags, k) ==> Get(row, k) == Get(FixedColumns(form, test), k))
  {
    var data := Find(test, "data").value;
    var fixed := FixedColumns(form, test);
    forall i | LastNamed(FindAll(data, "array"), k, i)
      ensures Get(DataRow(fixed, data), k) == Some(Str(ArrayText(FindAll(data, "array")[i])))
    {
      ArrayWins(fixed, data, k, i);
    }
    forall i | !Named(FindAll(data, "array"), k) && LastNamed(FindAll(data, "tag"), k, i)
      ensures Get(DataRow(fixed, data), k) == Some(Str(FindAll(data, "tag")[i].text.GetOr("")))
    {
      TagWins(fixed, data, k, i);
    }
    if !Named(FindAll(data, "array"), k) && !Named(FindAll(data, "tag"), k) {
      FixedKept(fixed, data, k);
    }
  }

  lemma ArrayWins(fixed: Row, data: Element, k: Column, i: int)
    requires LastNamed(FindAll(data, "array"), k, i)
    ensures Get(DataRow(fixed, data), k) == Some(Str(ArrayText(FindAll(data, "array")[i])))
  {
    LastPairIsLastNamed(FindAll(data, "array"), ArrayPairs(data), k, i);
  }

  lemma TagWins(fixed: Row, data: Element, k: Column, i: int)
    requires !Named(FindAll(data, "array"), k) && LastNamed(FindAll(data, "tag"), k, i)
    ensures Get(DataRow(fixed, data), k) == Some(Str(FindAll(data, "tag")[i].text.GetOr("")))
  {
    NoPairIfUnnamed(FindAll(data, "array"), ArrayPairs(data), k);
    LastPairIsLastNamed(FindAll(data, "tag"), TagPairs(data), k, i);
  }

  lemma FixedKept(fixed: Row, data: Element, k: Column)
    requires !Named(FindAll(data, "array"), k) && !Named(FindAll(data, "tag"), k)
    ensures Get(DataRow(fixed, data), k) == Get(fixed, k)
  {
    NoPairIfUnnamed(FindAll(data, "array"), ArrayPairs(data), k);
    NoPairIfUnnamed(FindAll(data, "tag"), TagPairs(data), k);
  }

  /** A row starts with the three fixed columns, in the literal's order, even
      when a tag or an array of the same name overwrites one; no column occurs
      twice, and a column is present iff it is fixed or some tag or array is named so. */
  lemma RowColumns(form: Element, test: Element)
    requires RowOf(form, test).Ok?
    ensures var data := Find(test, "data").value;
            var row := RowOf(form, test).value;
            && |row| >= 3 && Keys(row)[..3] == [FormNameColumn, TestDateColumn, ResultsGuidColumn]
            && Distinct(row)
            && forall k :: k in Keys(row) <==>
                 k in [FormNameColumn, TestDateColumn, ResultsGuidColumn] || Named(FindAll(data, "tag"), k) || Named(FindAll(data, "array"), k)
  {
    var data := Find(test, "data").value;
    var fixed := FixedColumns(form, test);
    FixedDistinct(form, test);
    DataRowColumns(fixed, data);
    var row := DataRow(fixed, data);
    assert RowOf(form, test).value == row;
    assert |Keys(fixed)| == 3;
    assert Keys(row)[..3] == Keys(fixed) == [FormNameColumn, TestDateColumn, ResultsGuidColumn];
  }

  /** The tag and array loops keep the columns already in the row at the
      front, add no column twice, and add exactly the tag and array names. */
  lemma DataRowColumns(fixed: Row, data: Element)
    requires Distinct(fixed)
    ensures Keys(DataRow(fixed, data))[..|fixed|] == Keys(fixed)
    ensures Distinct(DataRow(fixed, data))
    ensures forall k :: k in Keys(DataRow(fixed, data)) <==>
              k in Keys(fixed) || Named(FindAll(data, "tag"), k) || Named(FindAll(data, "array"), k)
  {
    var tp := TagPairs(data);
    var ap := ArrayPairs(data);
    var mid := SetAll(fixed, tp);
    var row := SetAll(mid, ap);
    assert Keys(fixed) <= Keys(mid) <= Keys(row);
    forall k
      ensures k in Keys(row) <==> k in Keys(fixed) || Named(FindAll(data, "tag"), k) || Named(FindAll(data, "array"), k)
    {
      PairsNamed(FindAll(data, "tag"), tp, k);
      PairsNamed(FindAll(data, "array"), ap, k);
    }
  }

  lemma FixedDistinct(form: Element, test: Element)
    ensures Distinct(FixedColumns(form, test))
  {
    var ks := Keys(FixedColumns(form, test));
    assert ks[0].value[0] == 'f' && ks[1].value[0] == 't' && ks[2].value[0] == 'r';
  }

  /** A column is set by the pairs made from `es` iff some element is named so. */
  lemma PairsNamed(es: seq<Element>, ps: seq<(Column, Value)>, k: Column)
    requires |ps| == |es| && forall j :: 0 <= j < |es| ==> ps[j].0 == Attr(es[j], "name")
    ensures k in Keys(ps) <==> Named(es, k)
  {
    if k in Keys(ps) {
      var i :| 0 <= i < |ps| && Keys(ps)[i] == k;
      assert Attr(es[i], "name") == k;
    }
    if Named(es, k) {
      var i :| 0 <= i < |es| && Attr(es[i], "name") == k;
      assert Keys(ps)[i] == k;
    }
  }

  // ----- Array texts -----

  /** Collecting texts distributes over concatenation. */
  lemma {:induction false} ItemTextsAppend(a: seq<Element>, b: seq<Element>)
    ensures ItemTexts(a + b) == ItemTexts(a) + ItemTexts(b)
    decreases |a|
  {
    if |a| > 0 {
      assert (a + b)[1..] == a[1..] + b;
      ItemTextsAppend(a[1..], b);
    } else {
      assert a + b == b;
    }
  }

  /** Adding an item to an array: an item without text changes nothing;
      otherwise its text follows the earlier ones after ", ". */
  lemma ArrayTextSnoc(items: seq<Element>, x: Element)
    ensures var joined := Text.Join(ItemSeparator, ItemTexts(items + [x]));
            var before := Text.Join(ItemSeparator, ItemTexts(items));
            joined == if x.text.None? then before
                      else if ItemTexts(items) == [] then x.text.value
                      else before + ItemSeparator + x.text.value
  {
    ItemTextsAppend(items, [x]);
    assert [x][1..] == [];
    assert ItemTexts([x]) == (if x.text.Some? then [x.text.value] else []) + ItemTexts([]);
    if x.text.Some? {
      assert ItemTexts(items + [x]) == ItemTexts(items) + [x.text.value];
      Text.JoinSnoc(ItemSeparator, ItemTexts(items), x.text.value);
    } else {
      assert ItemTexts(items) + [] == ItemTexts(items);
    }
  }

  /** The joined text is empty when no item has text, and otherwise as long as
      the texts plus one separator between each neighbouring pair. */
  lemma ArrayTextLength(arr: Element)
    ensures var ts := ItemTexts(FindAll(arr, "arrayitem"));
            && (|ts| == 0 ==> ArrayText(arr) == "")
            && (|ts| > 0 ==> |ArrayText(arr)| == Text.TotalLength(ts) + |ItemSeparator| * (|ts| - 1))
  {
    Text.JoinLength(ItemSeparator, ItemTexts(FindAll(arr, "arrayitem")));
  }
}

=== FILE: text.dfy ===
/** String helpers the extractors rely on: ASCII lower-casing (the model of
    Python's `str.lower()` for tag names) and `sep.join(parts)`. */
module Text {

  predicate IsUpper(c: char) {
    'A' <= c <= 'Z'
  }

  /** Lower-cases one ASCII letter; every other character is kept. */
  function LowerChar(c: char): (r: char)
    ensures !IsUpper(r)
    ensures !IsUpper(c) ==> r == c
    ensures IsUpper(c) ==> r as int == c as int + 32
  {
    if IsUpper(c) then (c as int + 32) as char else c
  }

  /** ASCII model of `s.lower()`. */
  function Lower(s: string): (r: string)
    ensures |r| == |s|
    ensures forall i :: 0 <= i < |s| ==> r[i] == LowerChar(s[i])
  {
    seq(|s|, i requires 0 <= i < |s| => LowerChar(s[i]))
  }

  /** `sep.join(parts)`: the parts in order with `sep` between neighbours. */
  function Join(sep: string, parts: seq<string>): (r: string)
    decreases |parts|
  {
    if |parts| == 0 then ""
    else if |parts| == 1 then parts[0]
    else parts[0] + sep + Join(sep, parts[1..])
  }

  /** Total length of the parts. */
  function TotalLength(parts: seq<string>): nat
    decreases |parts|
  {
    if |parts| == 0 then 0 else |parts[0]| + TotalLength(parts[1..])
  }

  /** Appending one part extends the joined text by the separator and that part. */
  lemma {:induction false} JoinSnoc(sep: string, parts: seq<string>, p: string)
    ensures Join(sep, parts + [p]) == if |parts| == 0 then p else Join(sep, parts) + sep + p
    decreases |parts|
  {
    if |parts| > 1 {
      assert (parts + [p])[1..] == parts[1..] + [p];
      JoinSnoc(sep, parts[1..], p);
    } else if |parts| == 1 {
      assert (parts + [p])[1..] == [p];
    }
  }

  /** The joined text is exactly the parts plus one separator between each neighbouring pair. */
  lemma {:induction false} JoinLength(sep: string, parts: seq<string>)
    ensures |parts| > 0 ==> |Join(sep, parts)| == TotalLength(parts) + |sep| * (|parts| - 1)
    ensures |parts| == 0 ==> Join(sep, parts) == ""
    decreases |parts|
  {
    if |parts| > 1 {
      JoinLength(sep, parts[1..]);
      assert TotalLength(parts[1..][1..]) == TotalLength(parts[2..]);
      if |parts| == 2 {
        assert TotalLength(parts[1..]) == |parts[1]| + TotalLength(parts[2..]);
      }
    } else if |parts| == 1 {
      assert TotalLength(parts[1..]) == 0;
    }
  }
}

=== FILE: values.dfy ===
/** The Python values that flow from the XML into the report cells. */
module Values {
  import opened Wrappers
  import opened NumberSyntax

  /** `None`, a `str`, an `int`, or a `float` (kept as the literal it was parsed from). */
  datatype Value = Null | Str(s: string) | Int(n: int) | Float(literal: string)

  /** An element's `.text` or an attribute as a value: `None` stays `None`. */
  function FromText(t: Option<string>): (v: Value)
    ensures v.Null? <==> t.None?
    ensures t.Some? ==> v == Str(t.value)
  {
    match t
    case Some(s) => Str(s)
    case None => Null
  }

  /** Python truthiness: `None`, `""`, `0` and `0.0` are false. */
  predicate Truthy(v: Value) {
    match v
    case Null => false
    case Str(s) => s != ""
    case Int(n) => n != 0
    case Float(lit) => !IsZeroLiteral(lit)
  }

  /** `str(float(lit))`, which this model does not compute. */
  type FloatRepr = string -> string

  /** `str(v)`. */
  function PyStr(v: Value, reprFloat: FloatRepr): string {
    match v
    case Null => "None"
    case Str(s) => s
    case Int(n) => IntToString(n)
    case Float(lit) => reprFloat(lit)
  }

  /** The width a cell contributes to its column: `len(str(v)) if v else 0`. */
  function DisplayLength(v: Value, reprFloat: FloatRepr): (n: nat)
    ensures !Truthy(v) ==> n == 0
    ensures v.Str? ==> n == |v.s|
  {
    if Truthy(v) then |PyStr(v, reprFloat)| else 0
  }
}

=== FILE: worksheet.dfy ===
/** The part of an openpyxl worksheet the report writers rely on: the cells
    created so far, the row `append` writes after (`_current_row`), and the
    `max_row` / `max_column` bounds the layout anchors its sections to. */
module Worksheet {
  import opened Values

  /** (row, column), both 1-based. */
  type Pos = (int, int)

  /** A sheet: its cells (a created cell may hold `None`), the append cursor,
      and `max_row` / `max_column`, kept up to date as cells are created. */
  datatype Sheet = Sheet(cells: map<Pos, Value>, cursor: int, maxRow: int, maxCol: int)

  /** What `wb.save` writes: the sheet's name, its cells and its column widths
      (column `c` at index `c - 1`). */
  datatype Report = Report(sheetName: string, sheet: Sheet, widths: seq<nat>)

  /** One `ws.cell(row=…, column=…, value=…)` call. */
  datatype Placement = Placement(row: int, col: int, value: Value)

  /** A new workbook's active sheet: no cells, and `max_row == max_column == 1`. */
  const Fresh: Sheet := Sheet(map[], 0, 1, 1)

  function Max(a: int, b: int): int {
    if a < b then b else a
  }

  /** The tracked bounds are openpyxl's: `max_row` is the largest row holding a
      cell (1 on an empty sheet), likewise `max_column`; no cell lies below the cursor. */
  ghost predicate Wf(sh: Sheet) {
    && sh.maxRow >= 1 && sh.maxCol >= 1 && sh.cursor >= 0
    && (forall p :: p in sh.cells ==> 1 <= p.0 <= sh.maxRow && 1 <= p.1 <= sh.maxCol && p.0 <= sh.cursor)
    && (sh.maxRow == 1 || exists p :: p in sh.cells && p.0 == sh.maxRow)
    && (sh.maxCol == 1 || exists p :: p in sh.cells && p.1 == sh.maxCol)
  }

  lemma FreshWf()
    ensures Wf(Fresh)
  {
  }

  /** `ws.cell(row=r, column=c, value=v)`: creates the cell if it is missing
      (moving the cursor and the bounds), then stores `v` unless `v` is `None`. */
  function Put(sh: Sheet, r: int, c: int, v: Value): (res: Sheet)
    requires r >= 1 && c >= 1
    ensures res.cells.Keys == sh.cells.Keys + {(r, c)}
    ensures res.cells[(r, c)] == if v.Null? && (r, c) in sh.cells then sh.cells[(r, c)] else v
    ensures forall p :: p in sh.cells && p != (r, c) ==> res.cells[p] == sh.cells[p]
    ensures (r, c) !in sh.cells ==> res.cursor == Max(sh.cursor, r) && res.maxRow == Max(sh.maxRow, r) && res.maxCol == Max(sh.maxCol, c)
    ensures (r, c) in sh.cells ==> res.cursor == sh.cursor && res.maxRow == sh.maxRow && res.maxCol == sh.maxCol
    ensures res.maxRow >= sh.maxRow && res.maxCol >= sh.maxCol
    ensures Wf(sh) ==> Wf(res)
  {
    if (r, c) in sh.cells then
      if v.Null? then sh else sh.(cells := sh.cells[(r, c) := v])
    else
      Sheet(sh.cells[(r, c) := v], Max(sh.cursor, r), Max(sh.maxRow, r), Max(sh.maxCol, c))
  }

  /** The cells one appended row creates. */
  function RowCells(row: int, vals: seq<Value>): (m: map<Pos, Value>)
    ensures forall p :: p in m <==> p.0 == row && 1 <= p.1 <= |vals|
    ensures forall j :: 0 <= j < |vals| ==> m[(row, j + 1)] == vals[j]
  {
    var m := map j | 0 <= j < |vals| :: (row, j + 1) := vals[j];
    assert forall p: Pos :: p.0 == row && 1 <= p.1 <= |vals| ==> p in m by {
      forall p: Pos | p.0 == row && 1 <= p.1 <= |vals|
        ensures p in m
      {
        var j := p.1 - 1;
        assert 0 <= j < |vals| && p == (row, j + 1);
      }
    }
    m
  }

  /** `ws.append(vals)`: the values go into the row after the cursor, columns
      1, 2, …; the cursor moves to that row even when `vals` is empty. */
  function Append(sh: Sheet, vals: seq<Value>): (res: Sheet)
    ensures res.cursor == sh.cursor + 1
    ensures |vals| == 0 ==> res.cells == sh.cells && res.maxRow == sh.maxRow && res.maxCol == sh.maxCol
    ensures res.maxRow >= sh.maxRow && res.maxCol >= sh.maxCol
    ensures |vals| > 0 ==> res.maxRow == Max(sh.maxRow, sh.cursor + 1) && res.maxCol == Max(sh.maxCol, |vals|)
  {
    var row := sh.cursor + 1;
    if |vals| == 0 then sh.(cursor := row)
    else Sheet(sh.cells + RowCells(row, vals), row, Max(sh.maxRow, row), Max(sh.maxCol, |vals|))
  }

  /** Value `j` lands in column `j + 1` of the row after the cursor; no other
      cell is created and every cell outside that row is kept. */
  lemma AppendCells(sh: Sheet, vals: seq<Value>)
    ensures forall j :: 0 <= j < |vals| ==> (sh.cursor + 1, j + 1) in Append(sh, vals).cells && Append(sh, vals).cells[(sh.cursor + 1, j + 1)] == vals[j]
    ensures forall p :: p in Append(sh, vals).cells ==> p in sh.cells || (p.0 == sh.cursor + 1 && 1 <= p.1 <= |vals|)
    ensures forall p :: p in sh.cells && p.0 != sh.cursor + 1 ==> p in Append(sh, vals).cells && Append(sh, vals).cells[p] == sh.cells[p]
  {
    AppendPlaces(sh, vals);
    AppendOnly(sh, vals);
    AppendKeeps(sh, vals);
  }

  lemma AppendPlaces(sh: Sheet, vals: seq<Value>)
    ensures forall j :: 0 <= j < |vals| ==> (sh.cursor + 1, j + 1) in Append(sh, vals).cells && Append(sh, vals).cells[(sh.cursor + 1, j + 1)] == vals[j]
  {
    if |vals| > 0 {
      var row := sh.cursor + 1;
      var m := RowCells(row, vals);
      AppendUnion(sh, vals);
      forall j | 0 <= j < |vals|
        ensures (row, j + 1) in Append(sh, vals).cells && Append(sh, vals).cells[(row, j + 1)] == vals[j]
      {
        assert (row, j + 1) in m && m[(row, j + 1)] == vals[j];
        UnionTakes(sh.cells, m, (row, j + 1));
      }
    }
  }

  lemma AppendOnly(sh: Sheet, vals: seq<Value>)
    ensures forall p :: p in Append(sh, vals).cells ==> p in sh.cells || (p.0 == sh.cursor + 1 && 1 <= p.1 <= |vals|)
  {
    if |vals| > 0 {
      var m := RowCells(sh.cursor + 1, vals);
      forall p | p in Append(sh, vals).cells
        ensures p in sh.cells || p in m
      {
      }
    }
  }

  lemma AppendKeeps(sh: Sheet, vals: seq<Value>)
    ensures forall p :: p in sh.cells && p.0 != sh.cursor + 1 ==> p in Append(sh, vals).cells && Append(sh, vals).cells[p] == sh.cells[p]
  {
    var row := sh.cursor + 1;
    if |vals| > 0 {
      forall p | p in sh.cells && p.0 != row
        ensures p in Append(sh, vals).cells && Append(sh, vals).cells[p] == sh.cells[p]
      {
        UnionKeeps(sh.cells, RowCells(row, vals), p);
      }
    }
  }

  /** A row that is not empty adds its cells to the sheet's. */
  lemma AppendUnion(sh: Sheet, vals: seq<Value>)
    requires |vals| > 0
    ensures Append(sh, vals).cells == sh.cells + RowCells(sh.cursor + 1, vals)
  {
  }

  /** A key of the right map takes its value from it in the union. */
  lemma UnionTakes<K, V>(a: map<K, V>, b: map<K, V>, k: K)
    requires k in b
    ensures k in a + b && (a + b)[k] == b[k]
  {
  }

  /** A key only the left map has keeps its value in the union. */
  lemma UnionKeeps<K, V>(a: map<K, V>, b: map<K, V>, k: K)
    requires k in a && k !in b
    ensures k in a + b && (a + b)[k] == a[k]
  {
  }

  /** Appending keeps the bounds exact; a row that is not empty becomes `max_row`. */
  lemma AppendWf(sh: Sheet, vals: seq<Value>)
    requires Wf(sh)
    ensures Wf(Append(sh, vals))
    ensures |vals| > 0 ==> Append(sh, vals).maxRow == sh.cursor + 1 && Append(sh, vals).maxCol == Max(sh.maxCol, |vals|)
  {
    if |vals| > 0 {
      var res := Append(sh, vals);
      var row := sh.cursor + 1;
      assert (row, |vals|) in res.cells;
      assert (row, 1) in res.cells;
    }
  }

  /** Consecutive `ws.append(row)` calls, one per element of `rows`. */
  function AppendAll(sh: Sheet, rows: seq<seq<Value>>): (res: Sheet)
    ensures res.cursor == sh.cursor + |rows|
    ensures res.maxRow >= sh.maxRow && res.maxCol >= sh.maxCol
  {
    AppendEach(sh, rows)
  }

  /** The recursion behind `AppendAll`: the first row, then the rest. */
  function AppendEach(sh: Sheet, rows: seq<seq<Value>>): (res: Sheet)
    ensures res.cursor == sh.cursor + |rows|
    ensures res.maxRow >= sh.maxRow && res.maxCol >= sh.maxCol
    decreases |rows|
  {
    if |rows| == 0 then sh else AppendEach(Append(sh, rows[0]), rows[1..])
  }

  /** Row `r` holds `vals` in columns 1, 2, …. */
  ghost predicate RowHolds(sh: Sheet, r: int, vals: seq<Value>) {
    forall c :: 1 <= c <= |vals| ==> (r, c) in sh.cells && sh.cells[(r, c)] == vals[c - 1]
  }

  /** Row `r` shows exactly `vals`: they fill columns 1, 2, … and any other
      cell of the row is empty. */
  ghost predicate RowIs(sh: Sheet, r: int, vals: seq<Value>) {
    && RowHolds(sh, r, vals)
    && forall c :: (r, c) in sh.cells && !(1 <= c <= |vals|) ==> sh.cells[(r, c)] == Null
  }

  /** Columns 1 to `n` of row `r`. */
  ghost function RowSpan(r: int, n: int): (s: set<Pos>)
    ensures forall q: Pos :: q in s <==> q.0 == r && 1 <= q.1 <= n
  {
    set c | 1 <= c <= n :: (r, c)
  }

  /** The cells of `rows` appended from row `r0` on, row `k` in columns 1 to `|rows[k]|`. */
  ghost function RowsSpan(r0: int, rows: seq<seq<Value>>): (s: set<Pos>)
    ensures forall q: Pos :: q in s <==> r0 <= q.0 < r0 + |rows| && 1 <= q.1 <= |rows[q.0 - r0]|
    decreases |rows|
  {
    if |rows| == 0 then {}
    else
      var rest := RowsSpan(r0 + 1, rows[1..]);
      assert forall q: Pos :: r0 + 1 <= q.0 < r0 + |rows| ==> rows[1..][q.0 - (r0 + 1)] == rows[q.0 - r0];
      RowSpan(r0, |rows[0]|) + rest
  }

  /** Every cell `b` has and `a` lacks is one of `at` or is empty. */
  ghost predicate AddsOnly(a: Sheet, b: Sheet, at: set<Pos>) {
    forall q :: q in b.cells && q !in a.cells && q !in at ==> b.cells[q] == Null
  }

  lemma AddsOnlyTrans(a: Sheet, b: Sheet, c: Sheet, at1: set<Pos>, at2: set<Pos>)
    requires AddsOnly(a, b, at1) && AddsOnly(b, c, at2) && Extends(b, c)
    ensures AddsOnly(a, c, at1 + at2)
  {
  }

  /** Rows `lo` to `hi` show nothing outside `at`. */
  ghost predicate OnlyAt(sh: Sheet, lo: int, hi: int, at: set<Pos>) {
    forall q :: q in sh.cells && lo <= q.0 <= hi && q !in at ==> sh.cells[q] == Null
  }

  /** On a well-formed sheet, rows below `max_row` show only what was added there. */
  lemma AddsOnlyBelow(a: Sheet, b: Sheet, at: set<Pos>, hi: int)
    requires Wf(a) && AddsOnly(a, b, at)
    ensures OnlyAt(b, a.maxRow + 1, hi, at)
  {
  }

  /** What rows `lo` to `hi` show survives cells added below `hi` and empty cells added anywhere. */
  lemma OnlyAtKept(a: Sheet, b: Sheet, lo: int, hi: int, at: set<Pos>, from: int)
    requires OnlyAt(a, lo, hi, at) && AddsFrom(a, b, from) && hi < from
    ensures OnlyAt(b, lo, hi, at)
  {
  }

  /** Placements add cells only at their own positions. */
  lemma PutsOnly(sh: Sheet, ps: seq<Placement>)
    requires OnSheet(ps)
    ensures AddsOnly(sh, Puts(sh, ps), Positions(ps))
  {
    PutsBelow(sh, ps, 0);
  }

  /** An appended row adds cells only in its own columns. */
  lemma AppendOnlyAt(sh: Sheet, vals: seq<Value>)
    ensures AddsOnly(sh, Append(sh, vals), RowSpan(sh.cursor + 1, |vals|))
  {
    AppendOnly(sh, vals);
  }

  /** Appended rows add cells only in their own columns. */
  lemma AppendAllOnlyAt(sh: Sheet, rows: seq<seq<Value>>)
    ensures AddsOnly(sh, AppendAll(sh, rows), RowsSpan(sh.cursor + 1, rows))
  {
    AppendAllOnly(sh, rows);
  }

  /** `ws.columns` adds nothing but empty cells. */
  lemma FillOnly(sh: Sheet)
    ensures AddsOnly(sh, FillColumns(sh), {})
  {
    FillColumnsCells(sh);
  }

  /** Appended rows land on consecutive rows after the cursor, value k of row j in column k + 1. */
  lemma AppendAllValues(sh: Sheet, rows: seq<seq<Value>>)
    ensures forall j :: 0 <= j < |rows| ==> RowHolds(AppendAll(sh, rows), sh.cursor + 1 + j, rows[j])
  {
    forall j | 0 <= j < |rows|
      ensures RowHolds(AppendAll(sh, rows), sh.cursor + 1 + j, rows[j])
    {
      AppendAllRow(sh, rows, j, sh.cursor + 1 + j);
    }
  }

  /** Row `k` of the appended rows lands `k + 1` rows after the cursor. */
  lemma {:induction false} AppendAllRow(sh: Sheet, rows: seq<seq<Value>>, k: int, r: int)
    requires 0 <= k < |rows| && r == sh.cursor + 1 + k
    ensures RowHolds(AppendAll(sh, rows), r, rows[k])
    decreases |rows|
  {
    if k == 0 {
      FirstAppendedRow(sh, rows);
    } else {
      AppendAllRow(Append(sh, rows[0]), rows[1..], k - 1, r);
      AppendAllRowStep(sh, rows, k, r);
    }
  }

  /** A row the later appends hold is held by all the appends. */
  lemma AppendAllRowStep(sh: Sheet, rows: seq<seq<Value>>, k: int, r: int)
    requires 0 < k < |rows|
    requires RowHolds(AppendAll(Append(sh, rows[0]), rows[1..]), r, rows[1..][k - 1])
    ensures RowHolds(AppendAll(sh, rows), r, rows[k])
  {
    AppendAllCons(sh, rows);
    RowHoldsEq(AppendAll(Append(sh, rows[0]), rows[1..]), AppendAll(sh, rows), r, rows[1..][k - 1], rows[k]);
  }

  /** Row facts carry over to equal sheets and equal values. */
  lemma RowHoldsEq(a: Sheet, b: Sheet, r: int, u: seq<Value>, v: seq<Value>)
    requires a == b && u == v && RowHolds(a, r, u)
    ensures RowHolds(b, r, v)
  {
  }

  /** Appending rows is appending the first, then the rest. */
  lemma AppendAllCons(sh: Sheet, rows: seq<seq<Value>>)
    requires |rows| > 0
    ensures AppendAll(sh, rows) == AppendAll(Append(sh, rows[0]), rows[1..])
  {
  }

  /** The first of the appended rows survives the appends after it. */
  lemma FirstAppendedRow(sh: Sheet, rows: seq<seq<Value>>)
    requires |rows| > 0
    ensures RowHolds(AppendAll(sh, rows), sh.cursor + 1, rows[0])
  {
    var next := Append(sh, rows[0]);
    var res := AppendAll(next, rows[1..]);
    AppendAllCons(sh, rows);
    AppendAllKeeps(next, rows[1..]);
    var row := sh.cursor + 1;
    forall c | 1 <= c <= |rows[0]|
      ensures (row, c) in res.cells && res.cells[(row, c)] == rows[0][c - 1]
    {
      assert (row, (c - 1) + 1) in next.cells && next.cells[(row, (c - 1) + 1)] == rows[0][c - 1];
    }
  }

  /** ... and `ws.columns` afterwards leaves them in place. */
  lemma FilledRow(sh: Sheet, rows: seq<seq<Value>>, k: int, r: int)
    requires 0 <= k < |rows| && r == sh.cursor + 1 + k
    ensures RowHolds(FillColumns(AppendAll(sh, rows)), r, rows[k])
  {
    var app := AppendAll(sh, rows);
    AppendAllRow(sh, rows, k, r);
    FillExtends(app);
    RowHoldsKept(app, FillColumns(app), r, rows[k]);
  }

  /** `ws.columns` keeps every cell as it was. */
  lemma FillExtends(sh: Sheet)
    ensures Extends(sh, FillColumns(sh))
  {
    FillColumnsCells(sh);
  }

  /** Appending keeps every cell at or above the cursor and creates cells only in the new rows. */
  lemma {:induction false} AppendAllKeeps(sh: Sheet, rows: seq<seq<Value>>)
    ensures forall p :: p in sh.cells && p.0 <= sh.cursor ==> p in AppendAll(sh, rows).cells && AppendAll(sh, rows).cells[p] == sh.cells[p]
    ensures forall p :: p in AppendAll(sh, rows).cells ==> p in sh.cells || sh.cursor < p.0 <= sh.cursor + |rows|
    decreases |rows|
  {
    if |rows| > 0 {
      AppendAllKeeps(Append(sh, rows[0]), rows[1..]);
    }
  }

  /** A cell the appends create lies in one of the new rows, within that row's values. */
  lemma {:induction false} AppendAllOnly(sh: Sheet, rows: seq<seq<Value>>)
    ensures forall p :: p in AppendAll(sh, rows).cells && p !in sh.cells ==>
              sh.cursor < p.0 <= sh.cursor + |rows| && 1 <= p.1 <= |rows[p.0 - sh.cursor - 1]|
    decreases |rows|
  {
    if |rows| > 0 {
      var next := Append(sh, rows[0]);
      AppendAllCons(sh, rows);
      AppendAllOnly(next, rows[1..]);
      forall p | p in AppendAll(sh, rows).cells && p !in sh.cells
        ensures sh.cursor < p.0 <= sh.cursor + |rows| && 1 <= p.1 <= |rows[p.0 - sh.cursor - 1]|
      {
        if p !in next.cells {
          assert rows[1..][p.0 - next.cursor - 1] == rows[p.0 - sh.cursor - 1];
        }
      }
    }
  }

  /** An empty row appended to a well-formed sheet stays blank, also after `ws.columns`. */
  lemma EmptyRowBlank(sh: Sheet, rows: seq<seq<Value>>, j: int, r: int)
    requires Wf(sh) && 0 <= j < |rows| && rows[j] == [] && r == sh.cursor + 1 + j
    ensures Blank(FillColumns(AppendAll(sh, rows)), r)
  {
    EmptyRowNoCells(sh, rows, j, r);
    FillBlank(AppendAll(sh, rows), r);
  }

  lemma EmptyRowNoCells(sh: Sheet, rows: seq<seq<Value>>, j: int, r: int)
    requires Wf(sh) && 0 <= j < |rows| && rows[j] == [] && r == sh.cursor + 1 + j
    ensures NoCells(AppendAll(sh, rows), r)
  {
    AppendAllOnly(sh, rows);
  }

  /** Row `r` has no cells at all. */
  ghost predicate NoCells(sh: Sheet, r: int) {
    forall p :: p in sh.cells ==> p.0 != r
  }

  /** On a well-formed sheet, a cell in the widest column fixes `max_column`. */
  lemma MaxColIs(sh: Sheet, w: int, r: int)
    requires Wf(sh) && (r, w) in sh.cells
    requires forall p :: p in sh.cells ==> p.1 <= w
    ensures sh.maxCol == w
  {
  }

  /** A row without cells is blank after `ws.columns`. */
  lemma FillBlank(sh: Sheet, r: int)
    requires NoCells(sh, r)
    ensures Blank(FillColumns(sh), r)
  {
    FillColumnsCells(sh);
  }

  /** Appending keeps the sheet's bounds exact; a last row that is not empty becomes `max_row`. */
  lemma {:induction false} AppendAllWf(sh: Sheet, rows: seq<seq<Value>>)
    requires Wf(sh)
    ensures Wf(AppendAll(sh, rows))
    ensures |rows| > 0 && |rows[|rows| - 1]| > 0 ==> AppendAll(sh, rows).maxRow == sh.cursor + |rows|
    decreases |rows|
  {
    if |rows| > 0 {
      var next := Append(sh, rows[0]);
      AppendWf(sh, rows[0]);
      AppendAllWf(next, rows[1..]);
      if |rows| == 1 {
        assert rows[1..] == [];
      } else {
        assert rows[1..][|rows| - 2] == rows[|rows| - 1];
      }
    }
  }

  /** The (row, column) of every placement. */
  function Positions(ps: seq<Placement>): (s: set<Pos>)
    ensures forall p :: p in s <==> exists i :: 0 <= i < |ps| && p == (ps[i].row, ps[i].col)
  {
    set i | 0 <= i < |ps| :: (ps[i].row, ps[i].col)
  }

  /** No two placements aim at the same cell. */
  ghost predicate DistinctPositions(ps: seq<Placement>) {
    forall i, j :: 0 <= i < j < |ps| ==> (ps[i].row, ps[i].col) != (ps[j].row, ps[j].col)
  }

  ghost predicate OnSheet(ps: seq<Placement>) {
    forall i :: 0 <= i < |ps| ==> ps[i].row >= 1 && ps[i].col >= 1
  }

  /** The lowest row and rightmost column a run of placements reaches (0 if none). */
  function MaxRowOf(ps: seq<Placement>): (m: int)
    ensures m >= 0
    ensures forall i :: 0 <= i < |ps| ==> ps[i].row <= m
    ensures |ps| > 0 && OnSheet(ps) ==> exists i :: 0 <= i < |ps| && ps[i].row == m
    decreases |ps|
  {
    if |ps| == 0 then 0
    else
      var m := Max(ps[0].row, MaxRowOf(ps[1..]));
      assert forall i :: 1 <= i < |ps| ==> ps[1..][i - 1] == ps[i];
      m
  }

  function MaxColOf(ps: seq<Placement>): (m: int)
    ensures m >= 0
    ensures forall i :: 0 <= i < |ps| ==> ps[i].col <= m
    ensures |ps| > 0 && OnSheet(ps) ==> exists i :: 0 <= i < |ps| && ps[i].col == m
    decreases |ps|
  {
    if |ps| == 0 then 0
    else
      var m := Max(ps[0].col, MaxColOf(ps[1..]));
      assert forall i :: 1 <= i < |ps| ==> ps[1..][i - 1] == ps[i];
      m
  }

  /** The `ws.cell(...)` calls of `ps`, in order. */
  function Puts(sh: Sheet, ps: seq<Placement>): (res: Sheet)
    requires OnSheet(ps)
    ensures res.maxRow >= sh.maxRow && res.maxCol >= sh.maxCol && res.cursor >= sh.cursor
  {
    PutEach(sh, ps)
  }

  /** The recursion behind `Puts`: the first call, then the rest. */
  function PutEach(sh: Sheet, ps: seq<Placement>): (res: Sheet)
    requires OnSheet(ps)
    ensures res.maxRow >= sh.maxRow && res.maxCol >= sh.maxCol && res.cursor >= sh.cursor
    decreases |ps|
  {
    if |ps| == 0 then sh
    else PutEach(Put(sh, ps[0].row, ps[0].col, ps[0].value), ps[1..])
  }

  /** The first placement, then the rest. */
  lemma PutsCons(sh: Sheet, ps: seq<Placement>)
    requires OnSheet(ps) && |ps| > 0
    ensures Puts(sh, ps) == Puts(Put(sh, ps[0].row, ps[0].col, ps[0].value), ps[1..])
  {
  }

  /** Cells that do not exist yet, no two the same. */
  ghost predicate FreshTargets(sh: Sheet, ps: seq<Placement>) {
    && OnSheet(ps) && DistinctPositions(ps)
    && forall i :: 0 <= i < |ps| ==> (ps[i].row, ps[i].col) !in sh.cells
  }

  lemma FreshTargetsTail(sh: Sheet, ps: seq<Placement>)
    requires |ps| > 0 && FreshTargets(sh, ps)
    ensures FreshTargets(Put(sh, ps[0].row, ps[0].col, ps[0].value), ps[1..])
  {
    var next := Put(sh, ps[0].row, ps[0].col, ps[0].value);
    forall i | 0 <= i < |ps| - 1
      ensures (ps[1..][i].row, ps[1..][i].col) !in next.cells
    {
      assert ps[1..][i] == ps[i + 1];
      assert (ps[i + 1].row, ps[i + 1].col) != (ps[0].row, ps[0].col);
    }
  }

  /** Placing values into cells that do not exist yet, no two at the same
      place: every value lands where it was aimed and every earlier cell is kept. */
  lemma {:induction false} PutsFresh(sh: Sheet, ps: seq<Placement>)
    requires FreshTargets(sh, ps)
    ensures forall i :: 0 <= i < |ps| ==> (ps[i].row, ps[i].col) in Puts(sh, ps).cells && Puts(sh, ps).cells[(ps[i].row, ps[i].col)] == ps[i].value
    ensures forall p :: p in sh.cells ==> p in Puts(sh, ps).cells && Puts(sh, ps).cells[p] == sh.cells[p]
    decreases |ps|
  {
    if |ps| > 0 {
      var next := Put(sh, ps[0].row, ps[0].col, ps[0].value);
      FreshTargetsTail(sh, ps);
      PutsFresh(next, ps[1..]);
      forall i | 0 <= i < |ps|
        ensures (ps[i].row, ps[i].col) in Puts(sh, ps).cells && Puts(sh, ps).cells[(ps[i].row, ps[i].col)] == ps[i].value
      {
        if i > 0 {
          assert ps[1..][i - 1] == ps[i];
        }
      }
    }
  }

  /** Placements below `max_row` aim at cells not yet written. */
  lemma FreshBelow(sh: Sheet, ps: seq<Placement>)
    requires Wf(sh) && OnSheet(ps) && DistinctPositions(ps)
    requires forall i :: 0 <= i < |ps| ==> ps[i].row > sh.maxRow
    ensures FreshTargets(sh, ps)
  {
  }

  /** One placement of a run aimed at fresh cells, as it ends up. */
  lemma PlacedAt(sh: Sheet, ps: seq<Placement>, k: int)
    requires FreshTargets(sh, ps) && 0 <= k < |ps|
    ensures (ps[k].row, ps[k].col) in Puts(sh, ps).cells && Puts(sh, ps).cells[(ps[k].row, ps[k].col)] == ps[k].value
  {
    PutsFresh(sh, ps);
  }

  /** ... and the bounds grow exactly to cover the placements. */
  lemma {:induction false} PutsFreshBounds(sh: Sheet, ps: seq<Placement>)
    requires Wf(sh) && FreshTargets(sh, ps)
    ensures Wf(Puts(sh, ps))
    ensures Puts(sh, ps).cursor == Max(sh.cursor, MaxRowOf(ps))
    ensures Puts(sh, ps).maxRow == Max(sh.maxRow, MaxRowOf(ps))
    ensures Puts(sh, ps).maxCol == Max(sh.maxCol, MaxColOf(ps))
    decreases |ps|
  {
    if |ps| > 0 {
      var next := Put(sh, ps[0].row, ps[0].col, ps[0].value);
      FreshTargetsTail(sh, ps);
      PutsFreshBounds(next, ps[1..]);
      PutsCons(sh, ps);
      assert MaxRowOf(ps) == Max(ps[0].row, MaxRowOf(ps[1..]));
      assert MaxColOf(ps) == Max(ps[0].col, MaxColOf(ps[1..]));
    }
  }

  /** Placements below row `r` keep every cell down to `r`, create cells only
      at their own positions, and keep the sheet's bounds exact. */
  lemma {:induction false} PutsBelow(sh: Sheet, ps: seq<Placement>, r: int)
    requires OnSheet(ps)
    requires forall i :: 0 <= i < |ps| ==> ps[i].row > r
    ensures forall p :: p in sh.cells && p.0 <= r ==> p in Puts(sh, ps).cells && Puts(sh, ps).cells[p] == sh.cells[p]
    ensures forall p :: p in Puts(sh, ps).cells ==> p in sh.cells || p in Positions(ps)
    ensures Wf(sh) ==> Wf(Puts(sh, ps))
    decreases |ps|
  {
    if |ps| > 0 {
      var next := Put(sh, ps[0].row, ps[0].col, ps[0].value);
      assert forall i :: 1 <= i < |ps| ==> ps[1..][i - 1] == ps[i];
      PutsBelow(next, ps[1..], r);
      forall q | q in Positions(ps[1..])
        ensures q in Positions(ps)
      {
        var i :| 0 <= i < |ps| - 1 && q == (ps[1..][i].row, ps[1..][i].col);
        assert q == (ps[i + 1].row, ps[i + 1].col);
      }
    }
  }

  /** Every cell of `a` is in `b`, with the same value. */
  ghost predicate Extends(a: Sheet, b: Sheet) {
    forall p :: p in a.cells ==> p in b.cells && b.cells[p] == a.cells[p]
  }

  /** Row `r` shows nothing: any cell it has is empty. */
  ghost predicate Blank(sh: Sheet, r: int) {
    forall c :: (r, c) in sh.cells ==> sh.cells[(r, c)] == Null
  }

  /** `b` keeps all of `a`, and above row `lo` it adds nothing but empty cells. */
  ghost predicate AddsFrom(a: Sheet, b: Sheet, lo: int) {
    && Extends(a, b)
    && forall p :: p in b.cells && p !in a.cells && p.0 < lo ==> b.cells[p] == Null
  }

  /** A row whose only cell was `(r, 1)` before `b` grew from `a` below it
      still shows just that cell's value. */
  lemma SoleCellRow(a: Sheet, b: Sheet, r: int, v: Value, lo: int)
    requires a.cells.Keys == {(r, 1)} && AddsFrom(a, b, lo) && r < lo && (r, 1) in b.cells && b.cells[(r, 1)] == v
    ensures RowIs(b, r, [v])
  {
  }

  lemma RowHoldsKept(a: Sheet, b: Sheet, r: int, vals: seq<Value>)
    requires Extends(a, b) && RowHolds(a, r, vals)
    ensures RowHolds(b, r, vals)
  {
  }

  lemma AddsFromTrans(a: Sheet, b: Sheet, c: Sheet, lo1: int, lo2: int)
    requires AddsFrom(a, b, lo1) && AddsFrom(b, c, lo2)
    ensures AddsFrom(a, c, if lo1 < lo2 then lo1 else lo2)
  {
  }

  lemma BlankKept(a: Sheet, b: Sheet, lo: int, r: int)
    requires AddsFrom(a, b, lo) && Blank(a, r) && r < lo
    ensures Blank(b, r)
  {
  }

  /** No cell lies past the cursor or below `max_row`. */
  lemma BlankPast(sh: Sheet, r: int)
    requires Wf(sh) && (r > sh.cursor || r > sh.maxRow)
    ensures Blank(sh, r)
  {
  }

  /** Placements below every existing cell add only at their rows, from `lo` on. */
  lemma PutsAdds(sh: Sheet, ps: seq<Placement>, lo: int)
    requires Wf(sh) && OnSheet(ps)
    requires forall i :: 0 <= i < |ps| ==> ps[i].row > sh.maxRow && ps[i].row >= lo
    ensures AddsFrom(sh, Puts(sh, ps), lo) && Wf(Puts(sh, ps))
  {
    PutsBelow(sh, ps, sh.maxRow);
  }

  /** Placements below every existing cell followed by an empty `append`. */
  lemma PutsThenBlankRow(sh: Sheet, ps: seq<Placement>, lo: int)
    requires Wf(sh) && OnSheet(ps)
    requires forall i :: 0 <= i < |ps| ==> ps[i].row > sh.maxRow && ps[i].row >= lo
    ensures var res := Append(Puts(sh, ps), []);
            && Wf(res) && AddsFrom(sh, res, lo) && res.cursor > sh.cursor
            && res.cells == Puts(sh, ps).cells
  {
    PutsAdds(sh, ps, lo);
  }

  lemma AppendAdds(sh: Sheet, vals: seq<Value>)
    requires Wf(sh)
    ensures AddsFrom(sh, Append(sh, vals), sh.cursor + 1)
  {
  }

  lemma AppendAllAdds(sh: Sheet, rows: seq<seq<Value>>)
    requires Wf(sh)
    ensures AddsFrom(sh, AppendAll(sh, rows), sh.cursor + 1)
  {
    AppendAllKeeps(sh, rows);
  }

  lemma FillAdds(sh: Sheet, lo: int)
    ensures AddsFrom(sh, FillColumns(sh), lo)
  {
    FillColumnsCells(sh);
  }

  /** Iterating `ws.columns` creates every missing cell of the rectangle up to
      `max_row` × `max_column` (as an empty cell); it does nothing on a sheet
      nothing was ever written to. */
  function FillColumns(sh: Sheet): (res: Sheet)
    ensures res.cursor == sh.cursor && res.maxRow == sh.maxRow && res.maxCol == sh.maxCol
  {
    if sh.cursor == 0 then sh
    else sh.(cells := BlankRect(sh.maxRow, sh.maxCol) + sh.cells)
  }

  /** Empty cells in columns 1 to `n` of row `r`. */
  function BlankRow(r: int, n: int): (m: map<Pos, Value>)
    ensures forall p :: p in m <==> p.0 == r && 1 <= p.1 <= n
    ensures forall p :: p in m ==> m[p] == Null
    decreases n
  {
    if n <= 0 then map[] else BlankRow(r, n - 1)[(r, n) := Null]
  }

  /** Empty cells filling rows 1 to `rows`, columns 1 to `cols`. */
  function BlankRect(rows: int, cols: int): (m: map<Pos, Value>)
    ensures forall p :: p in m <==> 1 <= p.0 <= rows && 1 <= p.1 <= cols
    ensures forall p :: p in m ==> m[p] == Null
    decreases rows
  {
    if rows <= 0 then map[] else BlankRect(rows - 1, cols) + BlankRow(rows, cols)
  }

  /** What `ws.columns` does to the cells: every cell stays as it was, every
      cell it creates is empty and inside the rectangle, and (once anything
      was written) the whole rectangle exists afterwards. */
  lemma FillColumnsCells(sh: Sheet)
    ensures var res := FillColumns(sh);
            && (forall p :: p in sh.cells ==> p in res.cells && res.cells[p] == sh.cells[p])
            && (forall p :: p in res.cells && p !in sh.cells ==> res.cells[p] == Null && 1 <= p.0 <= sh.maxRow && 1 <= p.1 <= sh.maxCol)
            && (sh.cursor > 0 ==> forall r, c :: 1 <= r <= sh.maxRow && 1 <= c <= sh.maxCol ==> (r, c) in res.cells)
  {
  }

  /** Filling the rectangle keeps the sheet well formed: it reaches no further
      than `max_row` × `max_column`, and `max_row` is at most the cursor. */
  lemma FillColumnsWf(sh: Sheet)
    requires Wf(sh)
    ensures Wf(FillColumns(sh))
  {
    FillColumnsCells(sh);
    if sh.cursor > 0 && sh.maxRow != 1 {
      var p :| p in sh.cells && p.0 == sh.maxRow;
    }
  }

  /** `len(str(v)) if v else 0` for the cell at (r, c); a missing cell counts as empty. */
  function CellLength(sh: Sheet, r: int, c: int, reprFloat: FloatRepr): nat {
    if (r, c) in sh.cells then DisplayLength(sh.cells[(r, c)], reprFloat) else 0
  }

  /** The largest of some lengths (0 for none). */
  function MaxOf(xs: seq<nat>): (m: nat)
    ensures forall i :: 0 <= i < |xs| ==> xs[i] <= m
    ensures m == 0 || exists i :: 0 <= i < |xs| && xs[i] == m
    decreases |xs|
  {
    if |xs| == 0 then 0
    else
      var rest := MaxOf(xs[..|xs| - 1]);
      assert forall i :: 0 <= i < |xs| - 1 ==> xs[..|xs| - 1][i] == xs[i];
      if xs[|xs| - 1] > rest then xs[|xs| - 1] else rest
  }

  /** The text lengths of column `c`, rows 1..`max_row`. */
  function ColumnLengths(sh: Sheet, c: int, reprFloat: FloatRepr): (ls: seq<nat>)
    requires sh.maxRow >= 0
    ensures |ls| == sh.maxRow
    ensures forall i :: 0 <= i < sh.maxRow ==> ls[i] == CellLength(sh, i + 1, c, reprFloat)
  {
    seq(sh.maxRow, i => CellLength(sh, i + 1, c, reprFloat))
  }

  /** `max_length + 2` for column `c`. */
  function ColumnWidth(sh: Sheet, c: int, reprFloat: FloatRepr): nat
    requires sh.maxRow >= 0
  {
    MaxOf(ColumnLengths(sh, c, reprFloat)) + 2
  }

  /** `width = max_length + 2` for every column 1..`max_column`. */
  function ColumnWidths(sh: Sheet, reprFloat: FloatRepr): (ws: seq<nat>)
    requires sh.maxCol >= 0 && sh.maxRow >= 0
    ensures |ws| == sh.maxCol
    ensures forall i :: 0 <= i < sh.maxCol ==> ws[i] == ColumnWidth(sh, i + 1, reprFloat)
  {
    WidthsUpTo(sh, sh.maxCol, reprFloat)
  }

  /** The widths of columns 1..`n`. */
  function WidthsUpTo(sh: Sheet, n: nat, reprFloat: FloatRepr): (ws: seq<nat>)
    requires sh.maxRow >= 0
    ensures |ws| == n
    ensures forall i :: 0 <= i < n ==> ws[i] == ColumnWidth(sh, i + 1, reprFloat)
  {
    if n == 0 then [] else WidthsUpTo(sh, n - 1, reprFloat) + [ColumnWidth(sh, n, reprFloat)]
  }

  /** Each column is two wider than its widest cell text, and exactly that:
      the width is attained by some cell of the column, or is 2 for a column with no text. */
  lemma WidthFitsColumn(sh: Sheet, reprFloat: FloatRepr, c: int)
    requires 1 <= c <= sh.maxCol && sh.maxRow >= 0
    ensures forall r :: 1 <= r <= sh.maxRow ==> CellLength(sh, r, c, reprFloat) + 2 <= ColumnWidths(sh, reprFloat)[c - 1]
    ensures ColumnWidths(sh, reprFloat)[c - 1] == 2
            || exists r :: 1 <= r <= sh.maxRow && CellLength(sh, r, c, reprFloat) + 2 == ColumnWidths(sh, reprFloat)[c - 1]
  {
    var ls := ColumnLengths(sh, c, reprFloat);
    assert ColumnWidths(sh, reprFloat)[c - 1] == ColumnWidth(sh, c, reprFloat) == MaxOf(ls) + 2;
    forall r | 1 <= r <= sh.maxRow
      ensures CellLength(sh, r, c, reprFloat) + 2 <= ColumnWidths(sh, reprFloat)[c - 1]
    {
      assert ls[r - 1] == CellLength(sh, r, c, reprFloat);
    }
    if MaxOf(ls) != 0 {
      var i :| 0 <= i < |ls| && ls[i] == MaxOf(ls);
      assert CellLength(sh, i + 1, c, reprFloat) + 2 == ColumnWidths(sh, reprFloat)[c - 1];
    }
  }
}

=== FILE: wrappers.dfy ===
/** Option and Result, plus the exceptions the extraction and layout code
    can raise and does not catch. */
module Wrappers {

  /** Python's `None` versus a present value. */
  datatype Option<+T> = None | Some(value: T) {

    /** The value, or `default` when absent (Python's `x if x is not None else default`). */
    function GetOr(default: T): T {
      match this
      case Some(v) => v
      case None => default
    }
  }

  /** The uncaught exceptions of the core, one constructor per raise site. */
  datatype Error =
      /** `int(item.get("index"))` on a missing attribute (TypeError) or a non-integer text (ValueError). */
    | BadCellIndex(index: Option<string>)
      /** `float(None)` inside `round_to_sig_figs`, whose handler only catches ValueError. */
    | RoundOfNone
      /** `k.lower()` on the `None` key an array without a `name` attribute leaves in a cell row. */
    | UnnamedField
      /** `.findall` on the `None` that `test.find("data")` returns for a test without a data child. */
    | MissingData
      /** Unpacking the `None` a `parse_xml` returns when it finds nothing to read: no `form` (multifile.py), no `test` in any form (scrape-cmd.py). TypeError. */
    | NoForm
      /** `root.findall("pdb:form", {})`: ElementPath raises SyntaxError when the prefix map is empty. */
    | PrefixNotFound

  /** A computation that either yields a value or raised one of the errors above. */
  datatype Result<+T> = Ok(value: T) | Err(error: Error) {

    predicate IsFailure() {
      Err?
    }

    function PropagateFailure<U>(): Result<U>
      requires Err?
    {
      Err(error)
    }

    function Extract(): T
      requires Ok?
    {
      value
    }
  }

  /** `f` applied to each element in order: all the values, or the error of the first application that failed. */
  function MapAllOk<A, B>(xs: seq<A>, f: A -> Result<B>): (r: Result<seq<B>>)
    ensures r.Ok? <==> forall i :: 0 <= i < |xs| ==> f(xs[i]).Ok?
    ensures r.Ok? ==> |r.value| == |xs| && forall i :: 0 <= i < |xs| ==> f(xs[i]) == Ok(r.value[i])
    ensures r.Err? ==> exists i :: 0 <= i < |xs| && f(xs[i]) == Err(r.error) && forall j :: 0 <= j < i ==> f(xs[j]).Ok?
    decreases |xs|
  {
    if |xs| == 0 then Ok([])
    else if f(xs[0]).Err? then Err(f(xs[0]).error)
    else
      var rest := MapAllOk(xs[1..], f);
      assert forall i :: 1 <= i < |xs| ==> xs[1..][i - 1] == xs[i];
      if rest.Err? then
        assert exists i :: 1 <= i < |xs| && f(xs[i]) == Err(rest.error) && forall j :: 0 <= j < i ==> f(xs[j]).Ok? by {
          var i :| 0 <= i < |xs[1..]| && f(xs[1..][i]) == Err(rest.error) && forall j :: 0 <= j < i ==> f(xs[1..][j]).Ok?;
          assert xs[i + 1] == xs[1..][i];
        }
        Err(rest.error)
      else Ok([f(xs[0]).value] + rest.value)
  }
}
